=== FILE: README.md ===
# Verified model of the Agentic-Patterns teaching scripts

This project is a Dafny model of the pure cores of seven of the repository's
teaching scripts, with proofs of what their code promises:

- **BinaryGap** (`binarygap_7899.py`): `binary_gap`, with the scan loop as a
  method, checked against a declarative "longest zero run between two ones".
- **GoalText** (shared by `11_Goal_Setting_Iteration_3.py` and
  `11_Goal_Setting_Iteration_4.py`): the pure string helpers of the goal-setting
  code agent. These are fence stripping (`clean_code_block`), the header
  comment, prompt assembly, goal splitting, confidence-score parsing
  (`goals_met`), `to_snake_case` and the saved file's name.
- **Retry** (iteration 4): the retry/back-off schedule of `safe_llm_invoke`.
- **GoalLoopV3** and **GoalLoopV4**: the bounded generate → review → judge loop
  of `run_code_agent`. Every model call is an oracle outcome. Two runs end in a
  Python exception:
  - In iteration 4, a failed review leaves `feedback = None` and the next
    iteration dereferences `.content` on it (AttributeError).
  - In both versions, `code` is unbound at the header step if no iteration
    produced any (NameError).
- **Router** (`16_Resource_Aware_Opt_LLM_Reflection_v1.py`): the classification
  → model mapping, the search rule, code-fence trimming, the first-`{`…last-`}`
  JSON slice, prompt assembly, and the shape of the dictionary `main` returns.
- **WordCount** (`wordcount_1102.py`): word and character counts over the
  paragraphs of a document, and the command-line argument check.
- **ImageUrl** and **Base64** (`tools/metadata_extractor.py`): the
  supported-format path rewrite, the MIME subtype, and the `data:` URL of
  section 3 of RFC 2397. Its payload is base64 as in section 4 of RFC 4648;
  encoding and decoding are proved inverse.
- **CarRace** (`carrace_v2.py`): one frame of the game as a pure step on a
  game record. The record holds the player, enemy cars, billboards, speed,
  the acceleration flag, lives and whether the game is running; elapsed time
  arrives with each frame. Invariants: the player stays on the road, the speed
  stays in its clamp, there is at most one car per lane, and billboards stay
  in their band.

Supporting modules: `Wrappers` (`Option`, `Result`), `Math` (`Pow2`, `Max`) and
`Text`. `Text` holds Python's `str.strip`, `str.split`, `find`/`rfind`,
slicing with negative bounds, `lower`, `startswith`/`endswith` and decimal
rendering, each with its contract.

Oracles are parameters. These include model replies, the JSON parser, the web
search, file contents and random draws. Sleeps are recorded, not performed.
Python floats (`car_speed`, the back-off delay) are exact reals.

## Model

| member | source | states |
|---|---|---|
| BinaryGap.Bin | 21-Agentic-Patterns/binarygap_7899.py:8 | `bin(n)[2:]` starts with '1' and holds only binary digits |
| BinaryGap.BinRoundTrip | 21-Agentic-Patterns/binarygap_7899.py:8 | the digit string read back as a binary numeral is n, so it has no leading zeros and no prefix |
| BinaryGap.BinaryGap | 21-Agentic-Patterns/binarygap_7899.py:4-22 | fails exactly when n ≤ 0, with the ValueError message; otherwise the result is the longest run of zeros with a '1' on both sides, and it is less than the number of digits |
| BinaryGap.LongestGapUnique | 21-Agentic-Patterns/binarygap_7899.py:13-22 | the longest-gap specification determines one value, so the loop's result is the only correct answer |
| BinaryGap.TrailingZeroIgnored | 21-Agentic-Patterns/binarygap_7899.py:13-22 | appending a trailing zero (doubling n) never changes the gap: zeros after the last '1' do not count |
| BinaryGap.BinDouble | 21-Agentic-Patterns/binarygap_7899.py:8 | the binary digits of 2n are those of n followed by '0' |
| BinaryGap.PowerOfTwoHasNoGap | 21-Agentic-Patterns/binarygap_7899.py:29 | a power of two is '1' then zeros, and its gap is 0 |
| BinaryGap.BinPowerOfTwo | 21-Agentic-Patterns/binarygap_7899.py:29 | the binary digits of 2^k are '1' followed by k zeros |
| BinaryGap.AllOnesHasNoGap | 21-Agentic-Patterns/binarygap_7899.py:28 | 2^(k+1) − 1 is written with k+1 ones, and its gap is 0 |
| BinaryGap.ExampleNine | 21-Agentic-Patterns/binarygap_7899.py:25 | the documented example 9 → 2 |
| BinaryGap.ExampleFiveTwentyNine | 21-Agentic-Patterns/binarygap_7899.py:26 | the documented example 529 → 4 |
| BinaryGap.BinFiveTwentyNine | 21-Agentic-Patterns/binarygap_7899.py:26 | 529 is written 1000010001, as the comment says |
| BinaryGap.ExampleTwenty | 21-Agentic-Patterns/binarygap_7899.py:27 | the documented example 20 → 1 |
| BinaryGap.ExampleFifteenAndThirtyTwo | 21-Agentic-Patterns/binarygap_7899.py:28-29 | the documented examples 15 → 0 and 32 → 0 |
| Retry.SafeInvoke | 21-Agentic-Patterns/11_Goal_Setting_Iteration_4.py:44-55 | at most `max_retries` calls (none when it is ≤ 0); every call before the last failed; the first success is returned at once; None only after every allowed call failed; one sleep between consecutive calls and none after the last, the k-th sleeping delay·2^k |
| Retry.Backoff | 21-Agentic-Patterns/11_Goal_Setting_Iteration_4.py:50-52 | the schedule has n entries, entry k being the delay doubled k times |
| Retry.BackoffTotal | 21-Agentic-Patterns/11_Goal_Setting_Iteration_4.py:50-52 | the sleeps of n retries add up to delay·(2^n − 1) |
| Retry.WaitDoubles | 21-Agentic-Patterns/11_Goal_Setting_Iteration_4.py:52 | each wait is twice the one before |
| GoalText.SplitLines | 21-Agentic-Patterns/11_Goal_Setting_Iteration_4.py:129 | `splitlines()` yields lines without line boundaries, and at least one line for a non-empty text |
| GoalText.SplitLinesJoin | 21-Agentic-Patterns/11_Goal_Setting_Iteration_4.py:129 | splitting lines joined by "\n" gives them back when none holds a boundary and the last is non-empty |
| GoalText.CleanCodeBlock | 21-Agentic-Patterns/11_Goal_Setting_Iteration_4.py:128-134 | the result has no surrounding whitespace |
| GoalText.CleanCodeBlockUnfences | 21-Agentic-Patterns/11_Goal_Setting_Iteration_3.py:117-123 | a fenced block (opening fence with any info string, body lines, closing fence) cleans to exactly its body |
| GoalText.CleanCodeBlockKeepsUnfenced | 21-Agentic-Patterns/11_Goal_Setting_Iteration_4.py:128-134 | code whose first line does not open a fence and whose last line is not a closing fence comes back unchanged, so only fence lines are ever dropped |
| GoalText.CleanCodeBlockOpeningOnly | 21-Agentic-Patterns/11_Goal_Setting_Iteration_4.py:128-134 | a block with an opening fence line (any info string) and no closing fence cleans to exactly its body lines |
| GoalText.CleanCodeBlockClosingOnly | 21-Agentic-Patterns/11_Goal_Setting_Iteration_4.py:128-134 | a block whose last line is a closing fence and whose first line opens none cleans to exactly the lines before the fence |
| GoalText.DropsBothFences | 21-Agentic-Patterns/11_Goal_Setting_Iteration_4.py:130-133 | a first line starting with the fence and a last line equal to it are both dropped, leaving the lines between |
| GoalText.AddCommentHeader | 21-Agentic-Patterns/11_Goal_Setting_Iteration_4.py:136-138 | the result starts with the fixed header line and "# ", and the code is an unchanged suffix |
| GoalText.HeaderRoundTrip | 21-Agentic-Patterns/11_Goal_Setting_Iteration_3.py:126-128 | the stripped use case and the code can be read back from the header output |
| GoalText.GoalBullets | 21-Agentic-Patterns/11_Goal_Setting_Iteration_3.py:57 | one bullet per goal |
| GoalText.GoalLinesReadBack | 21-Agentic-Patterns/11_Goal_Setting_Iteration_3.py:57 | the goal lines split back into exactly one "- " + stripped goal per goal |
| GoalText.GeneratePrompt | 21-Agentic-Patterns/11_Goal_Setting_Iteration_3.py:47-67 | the prompt starts with the head built from the use case and goals and always ends with the closing request |
| GoalText.PromptAfter | 21-Agentic-Patterns/11_Goal_Setting_Iteration_4.py:68-75 | after the head there is a previous-code section exactly when `previous_code` is non-empty, then a feedback section exactly when `feedback` is non-empty (each at its exact position and with its exact content), then the closing request |
| GoalText.ParseGoals | 21-Agentic-Patterns/11_Goal_Setting_Iteration_4.py:167 | one goal more than there are commas, each stripped and comma-free |
| GoalText.ParseGoalsJoin | 21-Agentic-Patterns/11_Goal_Setting_Iteration_4.py:167 | stripped, comma-free goals joined by commas are split back into exactly those goals, in order |
| GoalText.FirstDigitRun | 21-Agentic-Patterns/11_Goal_Setting_Iteration_4.py:120 | `re.search(r"\d+")` finds nothing exactly when there is no digit; otherwise a non-empty run of digits |
| GoalText.LeadingDigits | 21-Agentic-Patterns/11_Goal_Setting_Iteration_4.py:120 | the match is the maximal digit prefix |
| GoalText.ScoreReadBack | 21-Agentic-Patterns/11_Goal_Setting_Iteration_3.py:109 | a number after digit-free text and before a non-digit is the score read back |
| GoalText.Verdict | 21-Agentic-Patterns/11_Goal_Setting_Iteration_4.py:114-125 | no reply gives (False, 0); no digits gives (False, 0); otherwise the score is the first digit run, and met holds exactly when score ≥ 8 |
| GoalText.GoalsMet | 21-Agentic-Patterns/11_Goal_Setting_Iteration_3.py:106-114 | met exactly when the stripped reply has a first digit run whose value is ≥ 8 |
| GoalText.Underscored | 21-Agentic-Patterns/11_Goal_Setting_Iteration_3.py:133 | without '_' in the input the output has no "__"; the first character is kept or, when it is whitespace, becomes '_'; a last character that is not whitespace is kept; only snake characters come out of spaces and snake characters |
| GoalText.UnderscoredRun | 21-Agentic-Patterns/11_Goal_Setting_Iteration_3.py:133 | a whitespace run between two non-space characters becomes exactly one '_', and the text on each side is substituted independently |
| GoalText.UnderscoredJoin | 21-Agentic-Patterns/11_Goal_Setting_Iteration_3.py:133 | words without whitespace joined by single spaces come out joined by single '_' |
| GoalText.ToSnakeCase | 21-Agentic-Patterns/11_Goal_Setting_Iteration_3.py:131-133 | the output uses only [a-z0-9_], has no '_' at either end and never contains "__" |
| GoalText.SnakeCaseOfWords | 21-Agentic-Patterns/11_Goal_Setting_Iteration_3.py:131-133 | lower-case words joined by single spaces become the same words joined by single '_' (so "hello world" gives "hello_world") |
| GoalText.SnakeCaseKeepsAlnum | 21-Agentic-Patterns/11_Goal_Setting_Iteration_3.py:131-133 | with its underscores removed, the output is exactly the lower-cased ASCII letters and digits of the input |
| GoalText.SpacesToUnderscores | 21-Agentic-Patterns/11_Goal_Setting_Iteration_4.py:153 | `replace(" ", "_")` changes each space and nothing else |
| GoalText.SummaryStem | 21-Agentic-Patterns/11_Goal_Setting_Iteration_3.py:143-144 | the stem has at most 10 characters, all from [a-z0-9_] |
| GoalText.StemKeepsAlnum | 21-Agentic-Patterns/11_Goal_Setting_Iteration_4.py:153 | with its '_' removed, the stem is a prefix of the summary's lower-cased ASCII letters and digits, and all of them when it was not cut to 10 characters |
| GoalText.StemOfWords | 21-Agentic-Patterns/11_Goal_Setting_Iteration_4.py:152-153 | a summary of at most 10 characters made of lower-case words and single spaces becomes the same words joined by '_' |
| GoalText.FileStem | 21-Agentic-Patterns/11_Goal_Setting_Iteration_4.py:147-153 | at most 10 characters of [a-z0-9_]; "autogen" when the summary call failed; otherwise, without its '_', a prefix of the summary's lower-cased letters and digits |
| GoalText.StemFixedPoint | 21-Agentic-Patterns/11_Goal_Setting_Iteration_4.py:153 | a string that already is a stem is its own stem |
| GoalText.StemIdempotent | 21-Agentic-Patterns/11_Goal_Setting_Iteration_4.py:153 | deriving a stem twice gives the same stem |
| GoalText.FileNameRoundTrip | 21-Agentic-Patterns/11_Goal_Setting_Iteration_4.py:155-156 | the name stem + "_" + four-digit suffix + ".py" gives back its stem and suffix |
| GoalLoopV3.Iterate | 21-Agentic-Patterns/11_Goal_Setting_Iteration_3.py:174-189 | `code` becomes the cleaned reply and `feedback` the review; the body breaks exactly when met; `previous_code` becomes the new code exactly when not met |
| GoalLoopV3.Loop | 21-Agentic-Patterns/11_Goal_Setting_Iteration_3.py:169-189 | at most as many iterations as offered, all of them unless one was met; `code` is the cleaned reply of the last iteration that ran |
| GoalLoopV3.StopsAtFirstMet | 21-Agentic-Patterns/11_Goal_Setting_Iteration_3.py:184-186 | no iteration before the last was met, and the loop ended on a verdict exactly when the last one was met |
| GoalLoopV3.Rounds | 21-Agentic-Patterns/11_Goal_Setting_Iteration_3.py:169 | `range(max_iterations)` offers max(n, 0) iterations |
| GoalLoopV3.FirstMetRound | 21-Agentic-Patterns/11_Goal_Setting_Iteration_3.py:169-186 | in terms of judge replies: the loop stops at the first reply scoring ≥ 8 |
| GoalLoopV3.RunCodeAgent | 21-Agentic-Patterns/11_Goal_Setting_Iteration_3.py:158-192 | NameError exactly when `max_iterations` ≤ 0; the saved name is built from the summary stem and the suffix |
| GoalLoopV3.SavedLatestCode | 21-Agentic-Patterns/11_Goal_Setting_Iteration_3.py:176-191 | the saved content is the header followed by the code of the last iteration that ran |
| GoalLoopV4.Iterate | 21-Agentic-Patterns/11_Goal_Setting_Iteration_4.py:179-207 | a failed generation changes nothing; otherwise `code` is the cleaned reply; `feedback` becomes None exactly after a failed review and otherwise the review reply; the body breaks exactly when judged met; an iteration that finished unmet sets `previous_code` to its code, and no other iteration changes it |
| GoalLoopV4.LatestReply | 21-Agentic-Patterns/11_Goal_Setting_Iteration_4.py:182-188 | there is no latest generated reply exactly when every generation so far failed |
| GoalLoopV4.Loop | 21-Agentic-Patterns/11_Goal_Setting_Iteration_4.py:177-207 | at most as many iterations as offered, all of them when the loop runs out, fewer on a crash; `code` holds the last code generated |
| GoalLoopV4.Rounds | 21-Agentic-Patterns/11_Goal_Setting_Iteration_4.py:177 | `range(max_iterations)` offers max(n, 0) iterations |
| GoalLoopV4.FirstDecisive | 21-Agentic-Patterns/11_Goal_Setting_Iteration_4.py:192-204 | the first round that was judged met or had a failed review |
| GoalLoopV4.LoopClosedForm | 21-Agentic-Patterns/11_Goal_Setting_Iteration_4.py:177-207 | the loop runs through the first decisive round; it stops on "met" exactly when that round was met, and crashes exactly when that round's review failed and another iteration follows |
| GoalLoopV4.StopsAtFirstMet | 21-Agentic-Patterns/11_Goal_Setting_Iteration_4.py:200-204 | no iteration before the last was judged met, and the loop ended on "met" exactly when the last one was |
| GoalLoopV4.RunCodeAgent | 21-Agentic-Patterns/11_Goal_Setting_Iteration_4.py:166-210 | a saved file is named from the stem (or "autogen") and the suffix, and starts with the header line |
| GoalLoopV4.UnboundExactly | 21-Agentic-Patterns/11_Goal_Setting_Iteration_4.py:209 | the NameError happens exactly when every offered generation failed, including when `max_iterations` ≤ 0 |
| GoalLoopV4.CrashExactly | 21-Agentic-Patterns/11_Goal_Setting_Iteration_4.py:179 | the AttributeError happens exactly when the first decisive iteration had a failed review and another iteration follows |
| GoalLoopV4.SavedLatestCode | 21-Agentic-Patterns/11_Goal_Setting_Iteration_4.py:187-209 | the saved content is the header followed by the cleaned code of the last successful generation |
| GoalLoopV4.ReviewFailureCrashes | 21-Agentic-Patterns/11_Goal_Setting_Iteration_4.py:192-195 | a review failing in the first of two iterations makes the second raise |
| GoalLoopV4.FailedGenerationUnbound | 21-Agentic-Patterns/11_Goal_Setting_Iteration_4.py:183-185 | a run whose only generation fails reaches the header with `code` unbound |
| Router.SelectModel | 21-Agentic-Patterns/16_Resource_Aware_Opt_LLM_Reflection_v1.py:62-67 | the model is always one of the two names: "Simple" → gpt-4o-mini, "Needs Reasoning Model" → o4-mini |
| Router.SelectModelByKeyword | 21-Agentic-Patterns/16_Resource_Aware_Opt_LLM_Reflection_v1.py:62-67 | the reasoning model is chosen exactly when the label contains "Reasoning" |
| Router.ResponsePrompt | 21-Agentic-Patterns/16_Resource_Aware_Opt_LLM_Reflection_v1.py:71-80 | with no or empty results the prompt is the user prompt; otherwise it starts with the search introduction and ends with the user prompt line |
| Router.SnippetsReadBack | 21-Agentic-Patterns/16_Resource_Aware_Opt_LLM_Reflection_v1.py:72-78 | the snippets sit between the introduction and the prompt, one per line, and split back |
| Router.TrimFences | 21-Agentic-Patterns/16_Resource_Aware_Opt_LLM_Reflection_v1.py:94-99 | a reply with no fence at either end is kept as it came; otherwise the result is stripped |
| Router.InnerSlice | 21-Agentic-Patterns/16_Resource_Aware_Opt_LLM_Reflection_v1.py:95 | `t[3:-3]` drops three characters at each end, and is empty when fewer than six remain |
| Router.TrimFencesInverse | 21-Agentic-Patterns/16_Resource_Aware_Opt_LLM_Reflection_v1.py:94-95 | fencing a body and trimming the fences gives the stripped body |
| Router.TrimOpeningFence | 21-Agentic-Patterns/16_Resource_Aware_Opt_LLM_Reflection_v1.py:96-97 | a reply that opens with a fence and does not end with one loses the fence and the surrounding whitespace: the result is the stripped body |
| Router.TrimClosingFence | 21-Agentic-Patterns/16_Resource_Aware_Opt_LLM_Reflection_v1.py:98-99 | a reply that ends with a fence and does not open with one loses the fence and the surrounding whitespace: the result is the stripped body |
| Router.OverlappingFencesLeaveNothing | 21-Agentic-Patterns/16_Resource_Aware_Opt_LLM_Reflection_v1.py:94-95 | a lone fence, or two overlapping ones, leaves nothing |
| Router.JsonSlice | 21-Agentic-Patterns/16_Resource_Aware_Opt_LLM_Reflection_v1.py:102-104 | the slice is never longer than the text |
| Router.JsonSliceBraces | 21-Agentic-Patterns/16_Resource_Aware_Opt_LLM_Reflection_v1.py:102-104 | with a '{' before the last '}', the slice runs from the first '{' to the last '}' inclusive |
| Router.JsonSliceNoClose | 21-Agentic-Patterns/16_Resource_Aware_Opt_LLM_Reflection_v1.py:103-104 | without a '}' the slice is empty |
| Router.JsonSliceNoOpen | 21-Agentic-Patterns/16_Resource_Aware_Opt_LLM_Reflection_v1.py:102-104 | without a '{', `find` gives −1 and the slice is "}" or empty |
| Router.Main | 21-Agentic-Patterns/16_Resource_Aware_Opt_LLM_Reflection_v1.py:87-121 | the error reply happens exactly on a parse failure, carrying the message and the cleaned reply, with no search; the search runs exactly for labels starting with "Needs Google"; the response is the chosen model's answer to the assembled prompt |
| Router.ReplyKeys | 21-Agentic-Patterns/16_Resource_Aware_Opt_LLM_Reflection_v1.py:108-121 | the only key is "error" after a parse failure, and exactly the three answer keys after a success; the AttributeError happens exactly for a non-string classification |
| Router.SearchWithReasoning | 21-Agentic-Patterns/16_Resource_Aware_Opt_LLM_Reflection_v1.py:66-67 | a search label that mentions reasoning searches and goes to o4-mini with the snippets |
| WordCount.WordEnd | 21-Agentic-Patterns/wordcount_1102.py:12 | the first word ends at the first whitespace |
| WordCount.Words | 21-Agentic-Patterns/wordcount_1102.py:12 | `split()` yields non-empty whitespace-free words |
| WordCount.WordsKeepCharacters | 21-Agentic-Patterns/wordcount_1102.py:12 | the words, concatenated, are exactly the non-whitespace characters in order |
| WordCount.WordsAcrossSpace | 21-Agentic-Patterns/wordcount_1102.py:11-12 | the words of a + " " + b are the words of a followed by those of b |
| WordCount.WordCountAdds | 21-Agentic-Patterns/wordcount_1102.py:11-12 | word counts add up across a single-space join |
| WordCount.TextWordCount | 21-Agentic-Patterns/wordcount_1102.py:11-12 | the word count of the joined text is the sum of the per-paragraph word counts |
| WordCount.TextLength | 21-Agentic-Patterns/wordcount_1102.py:11-13 | the character count is 0 for no paragraphs, otherwise the sum of lengths plus one separator between neighbours |
| WordCount.FailureLine | 21-Agentic-Patterns/wordcount_1102.py:15-22 | the message for a missing file, for a file that is not a .docx package, and for any other exception with its text |
| WordCount.FailureLineReadBack | 21-Agentic-Patterns/wordcount_1102.py:15-20 | the two file messages give back both the path and which of the two errors it was |
| WordCount.CountWordsAndCharacters | 21-Agentic-Patterns/wordcount_1102.py:8-23 | both counts are absent exactly on a failure, which prints its error line; otherwise the counts are the paragraph sums |
| WordCount.Script | 21-Agentic-Patterns/wordcount_1102.py:25-34 | status 1 with the usage line exactly when there is not exactly one argument; the two count lines are printed exactly when the document loaded; a document that fails to load prints its error line and nothing else |
| Base64.EncodeChar | tools/metadata_extractor.py:27 | no sextet encodes to the pad character |
| Base64.CharRoundTrip | tools/metadata_extractor.py:27 | the alphabet is a bijection between the 64 sextets and its characters |
| Base64.BytesThroughSextets | tools/metadata_extractor.py:27 | three bytes are recovered from their four sextets |
| Base64.SextetsThroughBytes | tools/metadata_extractor.py:27 | four sextets are recovered from their three bytes |
| Base64.Encode | tools/metadata_extractor.py:27 | four characters for each started group of three bytes |
| Base64.DecodeGroup | tools/metadata_extractor.py:27 | a decoded group holds one to three bytes, and three unless it is the last |
| Base64.DecodeEncode | tools/metadata_extractor.py:27 | decoding an encoding gives the bytes back |
| Base64.EncodeDecode | tools/metadata_extractor.py:27 | whatever the strict decoder accepts is the encoding of what it returns |
| ImageUrl.Directory | tools/metadata_extractor.py:13 | the directory part is a prefix of the path, and the rest holds no '/' |
| ImageUrl.FileName | tools/metadata_extractor.py:13 | directory and file name together give the path |
| ImageUrl.SplitExt | tools/metadata_extractor.py:13 | `os.path.splitext`: root and extension together give the path |
| ImageUrl.SplitExtShape | tools/metadata_extractor.py:13 | a non-empty extension is one '.' and dot-free text in the file name, after a root that keeps a file name and the same directory |
| ImageUrl.SplitExtJoin | tools/metadata_extractor.py:13 | a root with a file name followed by an extension splits back into the two |
| ImageUrl.IsSupported | tools/metadata_extractor.py:13-14 | a supported path ends in its extension of four or five characters |
| ImageUrl.SupportedByExtension | tools/metadata_extractor.py:13-14 | for a file name followed by an extension, the path is supported exactly when the lower-cased extension is ".jpg", ".jpeg" or ".png" |
| ImageUrl.UpperCaseSupported | tools/metadata_extractor.py:13 | the test ignores case: a name ending in ".PNG" is supported |
| ImageUrl.NoExtensionUnsupported | tools/metadata_extractor.py:13-14 | a path whose file name has no extension is never supported |
| ImageUrl.BeforeLastDot | tools/metadata_extractor.py:19 | `rsplit(".", 1)[0]` is the text before the last '.' anywhere in the path, or the whole path without one |
| ImageUrl.EnsureSupportedAsWritten | tools/metadata_extractor.py:13-21 | a path with a supported extension is kept; any other path ends in ".jpg" after a prefix of the original; a path without '.' just gains ".jpg"; otherwise the kept prefix ends right before the path's last '.' |
| ImageUrl.AsWrittenLeavesDirectory | tools/metadata_extractor.py:19 | "a.b/img" becomes "a.jpg", which lies in a different directory |
| ImageUrl.ExampleHasNoExtension | tools/metadata_extractor.py:13 | "a.b/img" has no extension, since its last '.' lies before its last '/' |
| ImageUrl.EnsureSupported | tools/metadata_extractor.py:13-21 | a path with a supported extension is kept; any other path ends in ".jpg" after a prefix of the original |
| ImageUrl.EnsureSupportedKeepsDirectory | tools/metadata_extractor.py:19 | the rewritten path lies in the same directory as the original |
| ImageUrl.EnsureSupportedIsSupported | tools/metadata_extractor.py:17-21 | a rewritten path has root + ".jpg" as its split and is itself supported |
| ImageUrl.JpgAppended | tools/metadata_extractor.py:19 | root + ".jpg" splits into root and ".jpg" and is supported |
| ImageUrl.AgreeWithExtension | tools/metadata_extractor.py:13-19 | on every path with an extension, the rewrite as written and the corrected one agree |
| ImageUrl.MimeSubtype | tools/metadata_extractor.py:28-30 | the subtype holds no '.' |
| ImageUrl.MimeOfExtension | tools/metadata_extractor.py:28-30 | the subtype is empty without an extension, "jpeg" for a jpg extension in any case, and otherwise the lower-cased extension without its dot |
| ImageUrl.DotlessLower | tools/metadata_extractor.py:28 | removing dots from a lower-cased extension leaves the lower-cased text after its dot |
| ImageUrl.SupportedSubtype | tools/metadata_extractor.py:28-30 | a supported path has subtype "jpeg" or "png" |
| ImageUrl.DataUrl | tools/metadata_extractor.py:27-31 | the URL starts with "data:image/" and ends with the base64 of the bytes |
| ImageUrl.ParseDataUrl | tools/metadata_extractor.py:31 | a parsed subtype holds no ';' |
| ImageUrl.DataUrlRoundTrip | tools/metadata_extractor.py:27-31 | the URL parses back into the subtype and the exact bytes |
| ImageUrl.ImageReference | tools/metadata_extractor.py:44-51 | a remote image's URL is passed through verbatim; a local one becomes a data URL of the path `ensure_supported_format` returns as written (the same at lines 77-84), which parses back into that path's subtype and bytes |
| CarRace.CollideSymmetric | 21-Agentic-Patterns/carrace_v2.py:116 | rectangle collision is symmetric |
| CarRace.HandleInput | 21-Agentic-Patterns/carrace_v2.py:141-154 | acceleration equals the up key; only x changes, and only when an arrow is held; a lone left arrow steps 5 left unless at 0, a lone right arrow steps 5 right unless at 750; the player stays within [0, 750] on the step-5 grid |
| CarRace.BothArrows | 21-Agentic-Patterns/carrace_v2.py:146-151 | with both arrows held the two steps cancel, except at the left edge, where only the right step applies |
| CarRace.NextSpeed | 21-Agentic-Patterns/carrace_v2.py:195-198 | the speed stays in [5, 18]; accelerating adds exactly 0.2 while that stays below 18 and gives 18 otherwise; not accelerating takes exactly 0.15 off while that stays above 5 and gives 5 otherwise |
| CarRace.HoldingUpClimbs | 21-Agentic-Patterns/carrace_v2.py:195-196 | after n frames of acceleration the speed is s + 0.2·n, or 18 once that reaches the cap |
| CarRace.ReleasingEases | 21-Agentic-Patterns/carrace_v2.py:197-198 | after n frames without acceleration the speed is s − 0.15·n, or 5 once that reaches the floor |
| CarRace.SpeedReachesCap | 21-Agentic-Patterns/carrace_v2.py:196 | one frame adds 0.2 or lands on the cap 18, and 65 frames of acceleration reach 18 from any speed in the band |
| CarRace.SpeedReachesFloor | 21-Agentic-Patterns/carrace_v2.py:198 | 87 frames without acceleration bring any speed in the band down to 5 |
| CarRace.MoveBillboard | 21-Agentic-Patterns/carrace_v2.py:135-138 | x never changes; y advances by the speed while that keeps it at most 600, and wraps to −80 exactly when it would pass 600; a billboard in its band stays there |
| CarRace.MoveBillboards | 21-Agentic-Patterns/carrace_v2.py:134-139 | every billboard is moved, in order |
| CarRace.BillboardsStayInBand | 21-Agentic-Patterns/carrace_v2.py:37-52 | the twelve billboards stay at their edge and within [−80, 600] |
| CarRace.DifferentLanesNeverCollide | 21-Agentic-Patterns/carrace_v2.py:127 | cars in different lanes never collide |
| CarRace.LaneXSpacing | 21-Agentic-Patterns/carrace_v2.py:127 | the spans of cars in different lanes are more than a car width apart |
| CarRace.AtMostFourEnemies | 21-Agentic-Patterns/carrace_v2.py:123-126 | one car per lane means at most four cars |
| CarRace.LanesBound | 21-Agentic-Patterns/carrace_v2.py:125 | cars in distinct lanes drawn from a set are no more than the set |
| CarRace.Spawn | 21-Agentic-Patterns/carrace_v2.py:120-132 | nothing is added unless the roll is 1 and the lane is free; otherwise one car numbered one past the count is appended |
| CarRace.SpawnGuardRedundant | 21-Agentic-Patterns/carrace_v2.py:130-131 | on a free lane the new rectangle touches no car, so the overlap guard never rejects |
| CarRace.SpawnKeepsEnemiesOk | 21-Agentic-Patterns/carrace_v2.py:120-132 | spawning keeps one car per lane with well-placed cars, and adds the car at x = lane·200+75, y = −100 |
| CarRace.Moved | 21-Agentic-Patterns/carrace_v2.py:99-102 | the survivors are no more than the cars and all still on screen |
| CarRace.MovedLanes | 21-Agentic-Patterns/carrace_v2.py:99-102 | every survivor's lane is the lane of one of the original cars |
| CarRace.MovedKeepsEnemiesOk | 21-Agentic-Patterns/carrace_v2.py:99-102 | moving keeps one car per lane and every car well placed |
| CarRace.RemoveFirst | 21-Agentic-Patterns/carrace_v2.py:102 | `list.remove` of an element that is present (every call in the game removes one) drops exactly one copy of it and keeps every other element |
| CarRace.RemoveFirstAt | 21-Agentic-Patterns/carrace_v2.py:102 | removing by value deletes the first occurrence |
| CarRace.MoveEnemies | 21-Agentic-Patterns/carrace_v2.py:97-102 | the loop that moves cars in place and removes them by value gives exactly the moved survivors, in order |
| CarRace.WellPlacedCarsNeverCollide | 21-Agentic-Patterns/carrace_v2.py:104-112 | with one car per lane no two cars collide, so the pair-removal branch never fires |
| CarRace.ScanAsWritten | 21-Agentic-Patterns/carrace_v2.py:105-112 | the inner loop as written fails only with IndexError; it leaves the list alone when nothing from j on touches car i, and otherwise removes exactly two cars |
| CarRace.SeparateAsWritten | 21-Agentic-Patterns/carrace_v2.py:104-112 | the pair removal as written fails only with IndexError, and otherwise removes cars two at a time |
| CarRace.ScanNoCollision | 21-Agentic-Patterns/carrace_v2.py:105-106 | without colliding pairs the inner scan changes nothing |
| CarRace.SeparateAsWrittenNoCollision | 21-Agentic-Patterns/carrace_v2.py:104-112 | without colliding pairs the pair removal as written changes nothing |
| CarRace.SeparateAsWrittenFails | 21-Agentic-Patterns/carrace_v2.py:108-111 | on two colliding cars the removal as written raises IndexError |
| CarRace.SeparateAsWrittenMisses | 21-Agentic-Patterns/carrace_v2.py:108-111 | with a third car behind two colliding cars, the removal as written removes the third and keeps one of the pair |
| CarRace.FindPartner | 21-Agentic-Patterns/carrace_v2.py:105-106 | finds a car colliding with the given one, or shows there is none |
| CarRace.FindPair | 21-Agentic-Patterns/carrace_v2.py:104-106 | finds a colliding pair i < j, or shows there is none |
| CarRace.RemoveAt | 21-Agentic-Patterns/carrace_v2.py:109 | removing by position drops exactly one element |
| CarRace.Separate | 21-Agentic-Patterns/carrace_v2.py:104-112 | after the corrected removal no pair collides; without collisions nothing changes; only cars that were there remain |
| CarRace.SeparateRemovesPair | 21-Agentic-Patterns/carrace_v2.py:107-111 | the corrected removal drops both cars of a colliding pair and keeps the third |
| CarRace.Crashed | 21-Agentic-Patterns/carrace_v2.py:114-118 | the player touches some car of the list |
| CarRace.CheckCollisions | 21-Agentic-Patterns/carrace_v2.py:114-118 | the in-order scan with its early return gives True exactly when the player touches some enemy |
| CarRace.TimeUp | 21-Agentic-Patterns/carrace_v2.py:183-185 | the game stops exactly once 60 000 ms have elapsed |
| CarRace.Tick | 21-Agentic-Patterns/carrace_v2.py:179-213 | the game exits exactly on the quit event; it is still running only while time remains; one frame loses at most one life |
| CarRace.CrashRule | 21-Agentic-Patterns/carrace_v2.py:204-213 | without a crash nothing changes; a crash costs a life; at zero lives the game stops; otherwise the player is back at the start, the road is cleared and the speed is 5 |
| CarRace.Initial | 21-Agentic-Patterns/carrace_v2.py:23-52 | the game starts valid and running, with three lives and no cars |
| CarRace.CarsStayOk | 21-Agentic-Patterns/carrace_v2.py:201-202 | spawning and moving keep the cars well placed, and the pair removal has nothing to do |
| CarRace.TickKeepsValid | 21-Agentic-Patterns/carrace_v2.py:173-213 | a frame keeps the player, speed, cars and billboards valid |
| CarRace.NoCrashKeepsLives | 21-Agentic-Patterns/carrace_v2.py:204 | without a crash lives are unchanged, and the game runs on exactly while time remains |
| CarRace.Play | 21-Agentic-Patterns/carrace_v2.py:179-220 | a valid game stays valid over any frames and never gains lives |

## Left out

- Model calls (`llm.invoke`, the classification chain, `ChatOpenAI` set-up) are oracle values. They do not depend on the prompts, with one exception: the router's answering model is a function `answer(model, prompt)` that receives the assembled prompt.
- The network search (`google_search`) is the value it would return. `json.loads` with the two key look-ups is an abstract parser.
- File I/O is left out. This covers writing the saved code file, `Path.cwd`, docx parsing (the paragraphs are an input), image bytes (the `read` oracle), and PIL decoding, conversion and saving.
- Console printing is left out, except the lines the word-count script prints, which are its output.
- Sleeps are recorded, not performed.
- Python floats are exact reals. Rounding in `car_speed` (for example 5 + 0.2 steps) and in the doubling delay is not modelled.
- `\d` and `lower()` are ASCII only. `str.strip` and `str.split` use Python's whitespace set. `int()`'s digit limit for long numbers is not modelled.
- Iteration 3's model calls are assumed to succeed. An exception from them ends the script and is outside the model.
- Retry.SafeInvoke: a failed call (`None` from the `call` oracle) stands only for the two caught exception types, `OpenAIError` and `RequestException`. Any other exception from `llm.invoke` propagates at once, with no retry, and ends the script outside the model.
- Iteration 4's reply objects are assumed to carry `.content` whenever they are truthy.
- The classifier reply in the router is taken to be the message text, after the `hasattr(..., "content")` step.
- Drawing, fonts, sounds, the event loop and the frame clock of the car race are left out. Elapsed milliseconds, key states and the three random draws are frame inputs.
- CarRace.Tick: uses the corrected `CarRace.Separate`. In every reachable state this behaves exactly as the code as written, because no pair collides (`CarRace.WellPlacedCarsNeverCollide`, `CarRace.SeparateAsWrittenNoCollision`).
- GoalText.GeneratePrompt: its own contract gives only the head and the closing. The optional sections are stated on `GoalText.PromptAfter`, which it is built from.
- GoalText.CleanCodeBlock: its own contract gives only the stripping. Fence removal is stated by `GoalText.CleanCodeBlockUnfences` (both fences), `GoalText.CleanCodeBlockOpeningOnly` (opening fence only), `GoalText.CleanCodeBlockClosingOnly` (closing fence only), `GoalText.CleanCodeBlockKeepsUnfenced` (no fence) and `GoalText.DropsBothFences`.
- ImageUrl.IsSupported: lower-cases with ASCII rules; Python's full Unicode `lower()` is not modelled.
- The `filecount_*.py` scripts, `main.py` and `9_Learning_Adaptation_CartPole.py` are not part of this model.

## Findings

| source | as written | input that shows it | evidently intended | confidence | as-written member | corrected member |
|---|---|---|---|---|---|---|
| tools/metadata_extractor.py:19 | `image_path.rsplit(".", 1)[0] + ".jpg"` cuts at the last '.' anywhere in the path, including one in a directory name | "a.b/img" (no extension) becomes "a.jpg", a file in another directory | replace only the file's extension, i.e. `os.path.splitext(image_path)[0] + ".jpg"`, which keeps the directory | not executed | ImageUrl.EnsureSupportedAsWritten, ImageUrl.AsWrittenLeavesDirectory | ImageUrl.EnsureSupported, ImageUrl.EnsureSupportedKeepsDirectory |
| 21-Agentic-Patterns/carrace_v2.py:104-112 | after removing `enemy_cars[i]` by value, `enemy_cars[j]` names the car after the partner, or is out of range | two colliding cars [A, B] raise IndexError; with a third car [A, B, C], C is removed and B stays | remove both cars of the colliding pair | not executed; unreachable in the game, since cars in different lanes never collide | CarRace.SeparateAsWritten, CarRace.SeparateAsWrittenFails, CarRace.SeparateAsWrittenMisses | CarRace.Separate, CarRace.SeparateRemovesPair |

`ImageUrl.ImageReference` follows the code as written, so it encodes the path
`ImageUrl.EnsureSupportedAsWritten` returns. `ImageUrl.AgreeWithExtension`
shows that this is the same path as the corrected rewrite whenever the file
name has an extension.

=== FILE: base64.dfy ===
/** The base64 encoding of section 4 of RFC 4648 (the standard alphabet with
    '=' padding), as `base64.b64encode` produces it, and a strict decoder for
    it: every 3 bytes become 4 characters, and a final group of 1 or 2 bytes
    is padded to 4 characters with "==" or "=". */
module Base64 {
  import opened Wrappers

  type Byte = b: int | 0 <= b < 256
  type Sextet = v: int | 0 <= v < 64

  const Pad := '='

  /** Table 1 of RFC 4648: A-Z, a-z, 0-9, '+', '/'. */
  function EncodeChar(v: Sextet): (c: char)
    ensures c != Pad
  {
    if v < 26 then ('A' as int + v) as char
    else if v < 52 then ('a' as int + (v - 26)) as char
    else if v < 62 then ('0' as int + (v - 52)) as char
    else if v == 62 then '+'
    else '/'
  }

  predicate IsAlphabet(c: char) {
    'A' <= c <= 'Z' || 'a' <= c <= 'z' || '0' <= c <= '9' || c == '+' || c == '/'
  }

  function DecodeChar(c: char): (v: Sextet)
    requires IsAlphabet(c)
  {
    if 'A' <= c <= 'Z' then c as int - 'A' as int
    else if 'a' <= c <= 'z' then c as int - 'a' as int + 26
    else if '0' <= c <= '9' then c as int - '0' as int + 52
    else if c == '+' then 62
    else 63
  }

  /** The alphabet is a bijection between sextets and its 64 characters. */
  lemma CharRoundTrip(v: Sextet, c: char)
    ensures IsAlphabet(EncodeChar(v)) && DecodeChar(EncodeChar(v)) == v
    ensures IsAlphabet(c) ==> EncodeChar(DecodeChar(c)) == c
  {
  }

  // ---------------------------------------------------------------------
  // Groups

  /** The sextets of three bytes, most significant bits first. */
  function S0(b0: Byte): Sextet { b0 / 4 }
  function S1(b0: Byte, b1: Byte): Sextet { (b0 % 4) * 16 + b1 / 16 }
  function S2(b1: Byte, b2: Byte): Sextet { (b1 % 16) * 4 + b2 / 64 }
  function S3(b2: Byte): Sextet { b2 % 64 }

  /** The bytes of four sextets. */
  function B0(s0: Sextet, s1: Sextet): Byte { s0 * 4 + s1 / 16 }
  function B1(s1: Sextet, s2: Sextet): Byte { (s1 % 16) * 16 + s2 / 4 }
  function B2(s2: Sextet, s3: Sextet): Byte { (s2 % 4) * 64 + s3 }

  lemma BytesThroughSextets(b0: Byte, b1: Byte, b2: Byte)
    ensures B0(S0(b0), S1(b0, b1)) == b0
    ensures B1(S1(b0, b1), S2(b1, b2)) == b1
    ensures B2(S2(b1, b2), S3(b2)) == b2
  {
  }

  lemma SextetsThroughBytes(s0: Sextet, s1: Sextet, s2: Sextet, s3: Sextet)
    ensures S0(B0(s0, s1)) == s0
    ensures S1(B0(s0, s1), B1(s1, s2)) == s1
    ensures S2(B1(s1, s2), B2(s2, s3)) == s2
    ensures S3(B2(s2, s3)) == s3
  {
  }

  /** The four characters of one group of one, two or three bytes. */
  function EncodeGroup(g: seq<Byte>): (r: string)
    requires 1 <= |g| <= 3
    ensures |r| == 4
  {
    if |g| == 3 then
      [EncodeChar(S0(g[0])), EncodeChar(S1(g[0], g[1])), EncodeChar(S2(g[1], g[2])), EncodeChar(S3(g[2]))]
    else if |g| == 2 then
      [EncodeChar(S0(g[0])), EncodeChar(S1(g[0], g[1])), EncodeChar(S2(g[1], 0)), Pad]
    else
      [EncodeChar(S0(g[0])), EncodeChar(S1(g[0], 0)), Pad, Pad]
  }

  /** `base64.b64encode(data)`: four characters per started group of three
      bytes, padding only in the final group. */
  function Encode(data: seq<Byte>): (r: string)
    ensures |r| == 4 * ((|data| + 2) / 3)
    decreases |data|
  {
    if data == [] then []
    else if |data| <= 3 then EncodeGroup(data)
    else
      assert (|data| + 2) / 3 == (|data| - 3 + 2) / 3 + 1;
      EncodeGroup(data[..3]) + Encode(data[3..])
  }

  /** Four characters back to their bytes. Only a final group may carry
      padding, and the bits the padding leaves over must be zero (the
      canonical form of section 3.5 of RFC 4648). */
  function DecodeGroup(q: string, last: bool): (r: Option<seq<Byte>>)
    requires |q| == 4
    ensures r.Some? ==> 1 <= |r.value| <= 3
    ensures r.Some? && !last ==> |r.value| == 3
  {
    if IsAlphabet(q[0]) && IsAlphabet(q[1]) && IsAlphabet(q[2]) && IsAlphabet(q[3]) then
      var s0, s1, s2, s3 := DecodeChar(q[0]), DecodeChar(q[1]), DecodeChar(q[2]), DecodeChar(q[3]);
      Some([B0(s0, s1), B1(s1, s2), B2(s2, s3)])
    else if last && IsAlphabet(q[0]) && IsAlphabet(q[1]) && IsAlphabet(q[2]) && q[3] == Pad
            && DecodeChar(q[2]) % 4 == 0 then
      var s0, s1, s2 := DecodeChar(q[0]), DecodeChar(q[1]), DecodeChar(q[2]);
      Some([B0(s0, s1), B1(s1, s2)])
    else if last && IsAlphabet(q[0]) && IsAlphabet(q[1]) && q[2] == Pad && q[3] == Pad
            && DecodeChar(q[1]) % 16 == 0 then
      var s0, s1 := DecodeChar(q[0]), DecodeChar(q[1]);
      Some([B0(s0, s1)])
    else None
  }

  /** A strict decoder: a multiple of four characters, all from the alphabet
      except the padding of the final group. */
  function Decode(s: string): (r: Option<seq<Byte>>)
    decreases |s|
  {
    if s == [] then Some([])
    else if |s| < 4 then None
    else
      var head := DecodeGroup(s[..4], |s| == 4);
      if head.None? then None
      else if |s| == 4 then head
      else
        var rest := Decode(s[4..]);
        if rest.None? then None else Some(head.value + rest.value)
  }

  lemma GroupRoundTrip(g: seq<Byte>, last: bool)
    requires 1 <= |g| <= 3
    requires |g| < 3 ==> last
    ensures DecodeGroup(EncodeGroup(g), last) == Some(g)
  {
    if |g| == 3 {
      FullGroupRoundTrip(g[0], g[1], g[2], last);
      assert [g[0], g[1], g[2]] == g;
    } else if |g| == 2 {
      TwoByteGroupRoundTrip(g[0], g[1]);
      assert [g[0], g[1]] == g;
    } else {
      OneByteGroupRoundTrip(g[0]);
      assert [g[0]] == g;
    }
  }

  lemma FullGroupRoundTrip(b0: Byte, b1: Byte, b2: Byte, last: bool)
    ensures DecodeGroup(EncodeGroup([b0, b1, b2]), last) == Some([b0, b1, b2])
  {
    var s0, s1, s2, s3 := S0(b0), S1(b0, b1), S2(b1, b2), S3(b2);
    var q := EncodeGroup([b0, b1, b2]);
    assert q == [EncodeChar(s0), EncodeChar(s1), EncodeChar(s2), EncodeChar(s3)];
    CharRoundTrip(s0, 'A');
    CharRoundTrip(s1, 'A');
    CharRoundTrip(s2, 'A');
    CharRoundTrip(s3, 'A');
    DecodeFull(q, last);
    assert DecodeChar(q[0]) == s0 && DecodeChar(q[1]) == s1;
    assert DecodeChar(q[2]) == s2 && DecodeChar(q[3]) == s3;
    BytesThroughSextets(b0, b1, b2);
  }

  lemma DecodeFull(q: string, last: bool)
    requires |q| == 4
    requires IsAlphabet(q[0]) && IsAlphabet(q[1]) && IsAlphabet(q[2]) && IsAlphabet(q[3])
    ensures var s0, s1, s2, s3 := DecodeChar(q[0]), DecodeChar(q[1]), DecodeChar(q[2]), DecodeChar(q[3]);
      DecodeGroup(q, last) == Some([B0(s0, s1), B1(s1, s2), B2(s2, s3)])
  {
  }

  lemma TwoByteGroupRoundTrip(b0: Byte, b1: Byte)
    ensures DecodeGroup(EncodeGroup([b0, b1]), true) == Some([b0, b1])
  {
    var s0, s1, s2 := S0(b0), S1(b0, b1), S2(b1, 0);
    var c0, c1, c2 := EncodeChar(s0), EncodeChar(s1), EncodeChar(s2);
    CharRoundTrip(s0, 'A');
    CharRoundTrip(s1, 'A');
    CharRoundTrip(s2, 'A');
    PadBitsZero(b0, b1);
    DecodeTwo([c0, c1, c2, Pad]);
    assert EncodeGroup([b0, b1]) == [c0, c1, c2, Pad];
    BytesThroughSextets(b0, b1, 0);
  }

  lemma DecodeTwo(q: string)
    requires |q| == 4
    requires IsAlphabet(q[0]) && IsAlphabet(q[1]) && IsAlphabet(q[2]) && q[3] == Pad
    requires DecodeChar(q[2]) % 4 == 0
    ensures var s0, s1, s2 := DecodeChar(q[0]), DecodeChar(q[1]), DecodeChar(q[2]);
      DecodeGroup(q, true) == Some([B0(s0, s1), B1(s1, s2)])
  {
  }

  lemma OneByteGroupRoundTrip(b0: Byte)
    ensures DecodeGroup(EncodeGroup([b0]), true) == Some([b0])
  {
    var s0, s1 := S0(b0), S1(b0, 0);
    var c0, c1 := EncodeChar(s0), EncodeChar(s1);
    CharRoundTrip(s0, 'A');
    CharRoundTrip(s1, 'A');
    PadBitsZero(b0, 0);
    DecodeOne([c0, c1, Pad, Pad]);
    assert EncodeGroup([b0]) == [c0, c1, Pad, Pad];
    BytesThroughSextets(b0, 0, 0);
  }

  /** Zero bytes past the end of the data leave zero bits in the last sextet. */
  lemma PadBitsZero(b0: Byte, b1: Byte)
    ensures S2(b1, 0) % 4 == 0
    ensures S1(b0, 0) % 16 == 0
  {
  }

  lemma DecodeOne(q: string)
    requires |q| == 4
    requires IsAlphabet(q[0]) && IsAlphabet(q[1]) && q[2] == Pad && q[3] == Pad
    requires DecodeChar(q[1]) % 16 == 0
    ensures var s0, s1 := DecodeChar(q[0]), DecodeChar(q[1]);
      DecodeGroup(q, true) == Some([B0(s0, s1)])
  {
  }

  /** Decoding an encoding gives the bytes back. */
  lemma {:induction false} DecodeEncode(data: seq<Byte>)
    ensures Decode(Encode(data)) == Some(data)
    decreases |data|
  {
    if data != [] {
      if |data| <= 3 {
        GroupRoundTrip(data, true);
      } else {
        var s := Encode(data);
        var g := data[..3];
        var rest := data[3..];
        assert s == EncodeGroup(g) + Encode(rest);
        assert s[..4] == EncodeGroup(g);
        assert s[4..] == Encode(rest);
        GroupRoundTrip(g, false);
        DecodeEncode(rest);
        assert g + rest == data;
      }
    }
  }

  /** A group the decoder accepts is exactly the encoding of its bytes. */
  lemma GroupCanonical(q: string, last: bool)
    requires |q| == 4 && DecodeGroup(q, last).Some?
    ensures EncodeGroup(DecodeGroup(q, last).value) == q
  {
    if IsAlphabet(q[0]) && IsAlphabet(q[1]) && IsAlphabet(q[2]) && IsAlphabet(q[3]) {
      FullGroupCanonical(q, last);
    } else if IsAlphabet(q[0]) && IsAlphabet(q[1]) && IsAlphabet(q[2]) && q[3] == Pad {
      TwoByteGroupCanonical(q);
    } else {
      OneByteGroupCanonical(q);
    }
  }

  lemma FullGroupCanonical(q: string, last: bool)
    requires |q| == 4
    requires IsAlphabet(q[0]) && IsAlphabet(q[1]) && IsAlphabet(q[2]) && IsAlphabet(q[3])
    ensures DecodeGroup(q, last).Some? && EncodeGroup(DecodeGroup(q, last).value) == q
  {
    var c0, c1, c2, c3 := q[0], q[1], q[2], q[3];
    assert q == [c0, c1, c2, c3];
    DecodeFull(q, last);
    EncodeFullSextets(DecodeChar(c0), DecodeChar(c1), DecodeChar(c2), DecodeChar(c3));
    CharRoundTrip(0, c0);
    CharRoundTrip(0, c1);
    CharRoundTrip(0, c2);
    CharRoundTrip(0, c3);
  }

  lemma EncodeFullSextets(s0: Sextet, s1: Sextet, s2: Sextet, s3: Sextet)
    ensures EncodeGroup([B0(s0, s1), B1(s1, s2), B2(s2, s3)])
      == [EncodeChar(s0), EncodeChar(s1), EncodeChar(s2), EncodeChar(s3)]
  {
    SextetsThroughBytes(s0, s1, s2, s3);
  }

  lemma TwoByteGroupCanonical(q: string)
    requires |q| == 4
    requires IsAlphabet(q[0]) && IsAlphabet(q[1]) && IsAlphabet(q[2]) && q[3] == Pad
    requires DecodeChar(q[2]) % 4 == 0
    ensures DecodeGroup(q, true).Some? && EncodeGroup(DecodeGroup(q, true).value) == q
  {
    var c0, c1, c2 := q[0], q[1], q[2];
    assert q == [c0, c1, c2, Pad];
    DecodeTwo(q);
    EncodeTwoSextets(DecodeChar(c0), DecodeChar(c1), DecodeChar(c2));
    CharRoundTrip(0, c0);
    CharRoundTrip(0, c1);
    CharRoundTrip(0, c2);
  }

  lemma EncodeTwoSextets(s0: Sextet, s1: Sextet, s2: Sextet)
    requires s2 % 4 == 0
    ensures EncodeGroup([B0(s0, s1), B1(s1, s2)]) == [EncodeChar(s0), EncodeChar(s1), EncodeChar(s2), Pad]
  {
    assert s2 / 4 * 4 == s2;
    SextetsThroughBytes(s0, s1, s2, 0);
    assert S2(B1(s1, s2), 0) == s2;
  }

  lemma OneByteGroupCanonical(q: string)
    requires |q| == 4
    requires IsAlphabet(q[0]) && IsAlphabet(q[1]) && q[2] == Pad && q[3] == Pad
    requires DecodeChar(q[1]) % 16 == 0
    ensures DecodeGroup(q, true).Some? && EncodeGroup(DecodeGroup(q, true).value) == q
  {
    var c0, c1 := q[0], q[1];
    assert q == [c0, c1, Pad, Pad];
    DecodeOne(q);
    EncodeOneSextets(DecodeChar(c0), DecodeChar(c1));
    CharRoundTrip(0, c0);
    CharRoundTrip(0, c1);
  }

  lemma EncodeOneSextets(s0: Sextet, s1: Sextet)
    requires s1 % 16 == 0
    ensures EncodeGroup([B0(s0, s1)]) == [EncodeChar(s0), EncodeChar(s1), Pad, Pad]
  {
    var b := B0(s0, s1);
    OnePadSextet(s0, s1);
    assert EncodeGroup([b]) == [EncodeChar(S0(b)), EncodeChar(S1(b, 0)), Pad, Pad];
  }

  /** The low four bits of the second sextet are the padding bits. */
  lemma OnePadSextet(s0: Sextet, s1: Sextet)
    requires s1 % 16 == 0
    ensures S0(B0(s0, s1)) == s0 && S1(B0(s0, s1), 0) == s1
  {
    assert s1 == 0 || s1 == 16 || s1 == 32 || s1 == 48;
  }

  /** Everything the decoder accepts is the encoding of what it returns, so
      `Encode` and `Decode` are inverse bijections between byte strings and
      canonical base64 text. */
  lemma {:induction false} EncodeDecode(s: string)
    requires Decode(s).Some?
    ensures Encode(Decode(s).value) == s
    decreases |s|
  {
    if s != [] {
      var q := s[..4];
      var head := DecodeGroup(q, |s| == 4);
      GroupCanonical(q, |s| == 4);
      if |s| == 4 {
        assert q == s;
      } else {
        var rest := Decode(s[4..]);
        EncodeDecode(s[4..]);
        var d := head.value + rest.value;
        assert d[..3] == head.value;
        assert d[3..] == rest.value;
        assert s == q + s[4..];
      }
    }
  }
}

=== FILE: binary_gap.dfy ===
/** `binary_gap` of binarygap_7899.py: the longest run of zeros enclosed by
    ones in the binary representation of a positive integer. */
module BinaryGap {
  import opened Wrappers
  import opened Math

  const NotPositive := "Input must be a positive integer"

  /** `bin(n)[2:]`: the binary digits of a positive integer, most significant
      first, so the first digit is always '1'. */
  function Bin(n: nat): (r: string)
    requires n > 0
    ensures |r| >= 1 && r[0] == '1'
    ensures forall i :: 0 <= i < |r| ==> r[i] == '0' || r[i] == '1'
  {
    if n == 1 then "1" else Bin(n / 2) + [if n % 2 == 0 then '0' else '1']
  }

  /** The number a string of binary digits denotes. */
  function BinValue(s: string): nat {
    if s == [] then 0 else 2 * BinValue(s[..|s| - 1]) + (if s[|s| - 1] == '1' then 1 else 0)
  }

  /** The scanned string denotes `n` again: no prefix, no digit lost. */
  lemma {:induction false} BinRoundTrip(n: nat)
    requires n > 0
    ensures BinValue(Bin(n)) == n
  {
    if n > 1 {
      var s := Bin(n);
      assert s[..|s| - 1] == Bin(n / 2);
      BinRoundTrip(n / 2);
    }
  }

  /** A gap: a '1' at `i`, a '1' at `j`, and only '0's strictly between them. */
  ghost predicate IsGap(s: string, i: int, j: int) {
    && 0 <= i < j < |s|
    && s[i] == '1' && s[j] == '1'
    && forall k :: i < k < j ==> s[k] == '0'
  }

  /** `g` is the length of the longest gap of `s`, or 0 when `s` has none. */
  ghost predicate IsLongestGap(s: string, g: nat) {
    && (g == 0 || exists i, j :: IsGap(s, i, j) && j - i - 1 == g)
    && forall i, j :: IsGap(s, i, j) ==> j - i - 1 <= g
  }

  /** The loop of `binary_gap`, run over `bin(n)[2:]`. A non-positive input is
      the `ValueError` path; otherwise the result is the longest gap, which is
      shorter than the binary representation itself. */
  method BinaryGap(n: int) returns (r: Result<nat, string>)
    ensures r.Failure? <==> n <= 0
    ensures r.Failure? ==> r.error == NotPositive
    ensures r.Success? ==> IsLongestGap(Bin(n), r.value) && r.value < |Bin(n)|
  {
    if n <= 0 {
      return Failure(NotPositive);
    }
    var s := Bin(n);
    var maxGap: nat := 0;
    var currentGap: nat := 0;
    var foundOne := false;
    var k := 0;
    while k < |s|
      invariant 0 <= k <= |s|
      invariant foundOne ==> currentGap < k && s[k - currentGap - 1] == '1'
      invariant foundOne ==> forall m :: k - currentGap <= m < k ==> s[m] == '0'
      invariant !foundOne ==> forall m :: 0 <= m < k ==> s[m] == '0'
      invariant maxGap == 0 || exists i, j :: IsGap(s, i, j) && j < k && j - i - 1 == maxGap
      invariant forall i, j :: IsGap(s, i, j) && j < k ==> j - i - 1 <= maxGap
      invariant maxGap == 0 || maxGap + 2 <= k
    {
      if s[k] == '1' {
        if foundOne {
          var i := k - currentGap - 1;
          assert IsGap(s, i, k);
          assert forall i' :: IsGap(s, i', k) ==> i' == i;
          maxGap := Max(maxGap, currentGap);
        } else {
          assert forall i' :: !IsGap(s, i', k);
        }
        currentGap := 0;
        foundOne := true;
      } else {
        currentGap := currentGap + 1;
      }
      k := k + 1;
    }
    return Success(maxGap);
  }

  /** At most one value is the longest gap, so the contract of `BinaryGap`
      determines its result. */
  lemma LongestGapUnique(s: string, a: nat, b: nat)
    requires IsLongestGap(s, a) && IsLongestGap(s, b)
    ensures a == b
  {
  }

  /** Zeros after the last '1' never count: doubling `n` appends a '0' to its
      representation and leaves the longest gap unchanged. */
  lemma TrailingZeroIgnored(n: nat, g: nat)
    requires n > 0
    ensures Bin(2 * n) == Bin(n) + "0"
    ensures IsLongestGap(Bin(2 * n), g) <==> IsLongestGap(Bin(n), g)
  {
    var s := Bin(n);
    var t := Bin(2 * n);
    assert t == s + "0";
    forall i, j ensures IsGap(t, i, j) <==> IsGap(s, i, j) {
      if IsGap(t, i, j) {
        assert j < |s|;
        assert forall k :: i < k < j ==> s[k] == t[k];
      }
      if IsGap(s, i, j) {
        assert forall k :: i < k < j ==> s[k] == t[k];
      }
    }
  }

  lemma BinDouble(n: nat)
    requires n > 0
    ensures Bin(2 * n) == Bin(n) + "0"
  {
    assert (2 * n) / 2 == n && (2 * n) % 2 == 0;
  }

  /** `k` copies of the digit `c`. */
  function Repeat(c: char, k: nat): (r: string)
    ensures |r| == k && forall i :: 0 <= i < k ==> r[i] == c
  {
    if k == 0 then "" else Repeat(c, k - 1) + [c]
  }

  /** A power of two is a '1' followed by zeros, so it has no gap at all. */
  lemma PowerOfTwoHasNoGap(k: nat, g: nat)
    ensures Bin(Pow2(k)) == "1" + Repeat('0', k)
    ensures IsLongestGap(Bin(Pow2(k)), g) <==> g == 0
  {
    BinPowerOfTwo(k);
    var s := "1" + Repeat('0', k);
    forall i, j | IsGap(s, i, j) ensures false {
    }
  }

  lemma {:induction false} BinPowerOfTwo(k: nat)
    ensures Bin(Pow2(k)) == "1" + Repeat('0', k)
  {
    if k > 0 {
      var m := Pow2(k - 1);
      BinPowerOfTwo(k - 1);
      BinDouble(m);
      assert ("1" + Repeat('0', k - 1)) + "0" == "1" + Repeat('0', k);
    }
  }

  /** A number whose digits are all ones has only empty gaps. */
  lemma {:induction false} AllOnesHasNoGap(k: nat, g: nat)
    ensures Pow2(k + 1) - 1 > 0
    ensures Bin(Pow2(k + 1) - 1) == Repeat('1', k + 1)
    ensures IsLongestGap(Bin(Pow2(k + 1) - 1), g) <==> g == 0
  {
    if k > 0 {
      AllOnesHasNoGap(k - 1, g);
      assert Pow2(k + 1) - 1 == 2 * (Pow2(k) - 1) + 1;
      assert Bin(Pow2(k + 1) - 1) == Bin(Pow2(k) - 1) + "1";
    }
    var s := Bin(Pow2(k + 1) - 1);
    forall i, j | IsGap(s, i, j) ensures j == i + 1 {
      assert s[i + 1] == '1';
    }
  }

  /** The examples printed at the end of the script. */
  lemma ExampleNine()
    ensures IsLongestGap(Bin(9), 2)
  {
    var s := Bin(9);
    assert s == "1001";
    assert IsGap(s, 0, 3);
  }

  lemma ExampleFiveTwentyNine()
    ensures IsLongestGap(Bin(529), 4)
  {
    BinFiveTwentyNine();
    var s := "1000010001";
    assert IsGap(s, 0, 5);
    forall i, j | IsGap(s, i, j) ensures j - i - 1 <= 4 {
      if i < 5 {
        assert s[5] == '1';
      }
    }
  }

  lemma BinFiveTwentyNine()
    ensures Bin(529) == "1000010001"
  {
    assert Bin(33) == "100001";
    assert Bin(264) == Bin(132) + "0";
  }

  lemma ExampleTwenty()
    ensures IsLongestGap(Bin(20), 1)
  {
    var s := Bin(20);
    assert s == "10100";
    assert IsGap(s, 0, 2);
  }

  lemma ExampleFifteenAndThirtyTwo()
    ensures IsLongestGap(Bin(15), 0)
    ensures IsLongestGap(Bin(32), 0)
  {
    AllOnesHasNoGap(3, 0);
    assert Pow2(4) - 1 == 15;
    PowerOfTwoHasNoGap(5, 0);
    assert Pow2(5) == 32;
  }
}

=== FILE: car_race.dfy ===
/** One frame of the lane racing game of 21-Agentic-Patterns/carrace_v2.py
    and the rules that keep its state in shape: the player steps sideways
    inside the road, the speed stays between its floor and its cap,
    billboards scroll and wrap, at most one enemy car occupies a lane, and a
    crash costs a life and clears the road. Drawing, sound, the clock and the
    random draws are outside the model: the random numbers and the elapsed
    time arrive with each frame. */
module CarRace {
  import opened Wrappers

  const Width := 800
  const Height := 600
  const LaneWidth := Width / 4
  const CarWidth := 50
  const CarHeight := 100
  const GameTime := 60
  const Lives := 3
  const BillboardWidth := 16
  const BillboardHeight := 80
  /** How far one key press moves the player sideways. */
  const Step := 5
  const StartX := Width / 2 - CarWidth / 2
  const StartY := Height - CarHeight - 10
  const MinSpeed: real := 5.0
  const MaxSpeed: real := 18.0

  /** A pygame rectangle: integer corner and size. */
  datatype Rect = Rect(x: int, y: int, w: int, h: int)

  /** `Rect.colliderect`: the two rectangles share a region of positive
      area; touching edges do not count, nor does an empty rectangle. */
  predicate Collide(a: Rect, b: Rect) {
    a.w > 0 && a.h > 0 && b.w > 0 && b.h > 0 &&
    a.x < b.x + b.w && b.x < a.x + a.w &&
    a.y < b.y + b.h && b.y < a.y + a.h
  }

  lemma CollideSymmetric(a: Rect, b: Rect)
    ensures Collide(a, b) <==> Collide(b, a)
  {
  }

  datatype Enemy = Enemy(rect: Rect, speed: int, lane: int, number: int)

  /** Billboards are plain records, so their `y` takes the fractional speed. */
  datatype Billboard = Billboard(x: int, y: real)

  datatype Game = Game(player: Rect, enemies: seq<Enemy>, billboards: seq<Billboard>,
                       carSpeed: real, accelerating: bool, lives: int, running: bool)

  /** What one pass of the main loop receives from outside: the milliseconds
      since the start, the quit event, the three arrow keys, and the draws of
      `random.randint(1, 40)`, `random.choice([0, 1, 2, 3])` and
      `random.randint(4, 10)`. */
  datatype Frame = Frame(elapsed: nat, quit: bool, left: bool, right: bool, up: bool,
                         roll: int, lane: int, enemySpeed: int)

  predicate FrameOk(f: Frame) {
    1 <= f.roll <= 40 && 0 <= f.lane < 4 && 4 <= f.enemySpeed <= 10
  }

  // ---------------------------------------------------------------------
  // The player (`handle_input`)

  predicate PlayerOk(p: Rect) {
    p.y == StartY && p.w == CarWidth && p.h == CarHeight &&
    0 <= p.x <= Width - CarWidth && p.x % Step == 0
  }

  /** Left moves five pixels while the car is right of the edge, then right
      moves five while it is left of the far edge; up sets acceleration. */
  function HandleInput(p: Rect, left: bool, right: bool, up: bool): (r: (Rect, bool))
    ensures r.1 == up
    ensures r.0.y == p.y && r.0.w == p.w && r.0.h == p.h
    ensures PlayerOk(p) ==> PlayerOk(r.0)
    ensures !left && !right ==> r.0 == p
    ensures left && !right && PlayerOk(p) ==> r.0.x == if p.x > 0 then p.x - Step else p.x
    ensures right && !left && PlayerOk(p) ==> r.0.x == if p.x < Width - CarWidth then p.x + Step else p.x
  {
    var p1 := if left && p.x > 0 then p.(x := p.x - Step) else p;
    var p2 := if right && p1.x < Width - CarWidth then p1.(x := p1.x + Step) else p1;
    (p2, up)
  }

  /** Both arrows at once cancel out, except at the left edge, where only
      the right step applies. */
  lemma BothArrows(p: Rect)
    requires PlayerOk(p)
    ensures HandleInput(p, true, true, false).0.x == if p.x == 0 then Step else p.x
  {
  }

  // ---------------------------------------------------------------------
  // Speed and billboards

  /** Up adds 0.2 up to 18; otherwise the speed eases by 0.15 down to 5. */
  function NextSpeed(s: real, accelerating: bool): (r: real)
    ensures MinSpeed <= s <= MaxSpeed ==> MinSpeed <= r <= MaxSpeed
    ensures accelerating && s <= MaxSpeed ==> s <= r
    ensures !accelerating && MinSpeed <= s ==> r <= s
    // `min(car_speed + 0.2, 18)`: the full step below the cap, the cap otherwise
    ensures accelerating && s + 0.2 < MaxSpeed ==> r == s + 0.2
    ensures accelerating && s + 0.2 >= MaxSpeed ==> r == MaxSpeed
    // `max(car_speed - 0.15, 5)`: the full step above the floor, the floor otherwise
    ensures !accelerating && s - 0.15 > MinSpeed ==> r == s - 0.15
    ensures !accelerating && s - 0.15 <= MinSpeed ==> r == MinSpeed
  {
    if accelerating then (if s + 0.2 < MaxSpeed then s + 0.2 else MaxSpeed)
    else (if s - 0.15 > MinSpeed then s - 0.15 else MinSpeed)
  }

  /** The speed after `n` frames with the up key held, or released, all along. */
  function SpeedAfter(s: real, accelerating: bool, n: nat): real {
    if n == 0 then s else NextSpeed(SpeedAfter(s, accelerating, n - 1), accelerating)
  }

  /** Holding up, the speed climbs by 0.2 a frame until it sits at the cap. */
  lemma {:induction false} HoldingUpClimbs(s: real, n: nat)
    requires s <= MaxSpeed
    ensures SpeedAfter(s, true, n) ==
      if s + 0.2 * n as real < MaxSpeed then s + 0.2 * n as real else MaxSpeed
  {
    if n > 0 {
      HoldingUpClimbs(s, n - 1);
    }
  }

  /** Releasing up, the speed falls by 0.15 a frame until it sits at the floor. */
  lemma {:induction false} ReleasingEases(s: real, n: nat)
    requires MinSpeed <= s
    ensures SpeedAfter(s, false, n) ==
      if s - 0.15 * n as real > MinSpeed then s - 0.15 * n as real else MinSpeed
  {
    if n > 0 {
      ReleasingEases(s, n - 1);
    }
  }

  /** Holding up long enough always reaches the cap: the gap to 18 closes by
      0.2 a frame, so 65 frames take even the slowest car there. */
  lemma SpeedReachesCap(s: real)
    requires MinSpeed <= s <= MaxSpeed
    ensures NextSpeed(s, true) == MaxSpeed || NextSpeed(s, true) == s + 0.2
    ensures MaxSpeed - 0.2 <= s ==> NextSpeed(s, true) == MaxSpeed
    ensures SpeedAfter(s, true, 65) == MaxSpeed
  {
    HoldingUpClimbs(s, 65);
  }

  /** Letting go long enough always returns to the floor: 87 frames of 0.15
      bring even the fastest car down to 5. */
  lemma SpeedReachesFloor(s: real)
    requires MinSpeed <= s <= MaxSpeed
    ensures SpeedAfter(s, false, 87) == MinSpeed
  {
    ReleasingEases(s, 87);
  }

  predicate BillboardOk(b: Billboard) {
    (b.x == 0 || b.x == Width - BillboardWidth) && -(BillboardHeight as real) <= b.y <= Height as real
  }

  predicate BillboardsOk(bbs: seq<Billboard>) {
    |bbs| == 12 && forall i :: 0 <= i < |bbs| ==> BillboardOk(bbs[i])
  }

  /** One billboard scrolls down by the speed and, once below the screen,
      comes back just above it; its side never changes. */
  function MoveBillboard(b: Billboard, speed: real): (r: Billboard)
    ensures r.x == b.x
    ensures r.y == b.y + speed || r.y == -(BillboardHeight as real)
    // the wrap happens exactly once the billboard is below the screen
    ensures b.y + speed <= Height as real ==> r.y == b.y + speed
    ensures b.y + speed > Height as real ==> r.y == -(BillboardHeight as real)
    ensures BillboardOk(b) && 0.0 < speed <= MaxSpeed ==> BillboardOk(r)
  {
    var y := b.y + speed;
    if y > Height as real then b.(y := -(BillboardHeight as real)) else b.(y := y)
  }

  function MoveBillboards(bbs: seq<Billboard>, speed: real): (r: seq<Billboard>)
    ensures |r| == |bbs|
    ensures forall i :: 0 <= i < |bbs| ==> r[i] == MoveBillboard(bbs[i], speed)
  {
    seq(|bbs|, i requires 0 <= i < |bbs| => MoveBillboard(bbs[i], speed))
  }

  /** Scrolling at any speed the game allows keeps every billboard on its
      edge and within one billboard of the screen. */
  lemma BillboardsStayInBand(bbs: seq<Billboard>, speed: real)
    requires BillboardsOk(bbs) && MinSpeed <= speed <= MaxSpeed
    ensures BillboardsOk(MoveBillboards(bbs, speed))
  {
    var r := MoveBillboards(bbs, speed);
    forall i | 0 <= i < |r|
      ensures BillboardOk(r[i])
    {
      assert r[i] == MoveBillboard(bbs[i], speed);
    }
  }

  // ---------------------------------------------------------------------
  // Enemy cars

  /** The left edge of a car centred in a lane. */
  function LaneX(lane: int): int {
    lane * LaneWidth + (LaneWidth - CarWidth) / 2
  }

  predicate EnemyOk(e: Enemy) {
    0 <= e.lane < 4 && e.rect == Rect(LaneX(e.lane), e.rect.y, CarWidth, CarHeight) &&
    -CarHeight <= e.rect.y <= Height && 4 <= e.speed <= 10
  }

  predicate DistinctLanes(cars: seq<Enemy>) {
    forall i, j :: 0 <= i < j < |cars| ==> cars[i].lane != cars[j].lane
  }

  predicate EnemiesOk(cars: seq<Enemy>) {
    (forall i :: 0 <= i < |cars| ==> EnemyOk(cars[i])) && DistinctLanes(cars)
  }

  /** Two well-placed cars in different lanes are 200 pixels apart sideways
      and cannot touch. */
  lemma DifferentLanesNeverCollide(a: Enemy, b: Enemy)
    requires EnemyOk(a) && EnemyOk(b) && a.lane != b.lane
    ensures !Collide(a.rect, b.rect)
  {
    LaneXSpacing(a.lane, b.lane);
  }

  /** Lane edges are 200 pixels apart for each lane of difference. */
  lemma LaneXSpacing(l1: int, l2: int)
    requires 0 <= l1 < 4 && 0 <= l2 < 4 && l1 != l2
    ensures LaneX(l1) + CarWidth < LaneX(l2) || LaneX(l2) + CarWidth < LaneX(l1)
  {
    assert LaneWidth == 200;
    assert LaneX(0) == 75 && LaneX(1) == 275 && LaneX(2) == 475 && LaneX(3) == 675;
  }

  /** `any(car['lane'] == lane for car in enemy_cars)`. */
  predicate LaneOccupied(cars: seq<Enemy>, lane: int) {
    exists i :: 0 <= i < |cars| && cars[i].lane == lane
  }

  predicate CollidesAny(rect: Rect, cars: seq<Enemy>) {
    exists i :: 0 <= i < |cars| && Collide(rect, cars[i].rect)
  }

  /** One car per lane and four lanes: never more than four enemies. */
  lemma AtMostFourEnemies(cars: seq<Enemy>)
    requires EnemiesOk(cars)
    ensures |cars| <= 4
  {
    assert |{0, 1, 2, 3}| == 4;
    LanesBound(cars, {0, 1, 2, 3});
  }

  /** Cars in distinct lanes drawn from `lanes` number at most `|lanes|`. */
  lemma {:induction false} LanesBound(cars: seq<Enemy>, lanes: set<int>)
    requires DistinctLanes(cars)
    requires forall i :: 0 <= i < |cars| ==> cars[i].lane in lanes
    ensures |cars| <= |lanes|
  {
    if cars != [] {
      var last := cars[|cars| - 1].lane;
      var init := cars[..|cars| - 1];
      assert forall i :: 0 <= i < |init| ==> init[i] == cars[i];
      assert forall i :: 0 <= i < |init| ==> init[i].lane in lanes - {last};
      LanesBound(init, lanes - {last});
    }
  }

  /** The rectangle a new car gets: centred in its lane, just above the screen. */
  function SpawnRect(lane: int): Rect {
    Rect(LaneX(lane), -CarHeight, CarWidth, CarHeight)
  }

  /** `spawn_enemy`: one roll in forty picks a lane; a free lane whose new
      rectangle touches no car gets a car numbered one past the count. */
  function Spawn(cars: seq<Enemy>, roll: int, lane: int, speed: int): (r: seq<Enemy>)
    ensures roll != 1 || LaneOccupied(cars, lane) ==> r == cars
    ensures r == cars || r == cars + [Enemy(SpawnRect(lane), speed, lane, |cars| + 1)]
  {
    if roll == 1 && !LaneOccupied(cars, lane) then
      var rect := SpawnRect(lane);
      if !CollidesAny(rect, cars) then cars + [Enemy(rect, speed, lane, |cars| + 1)]
      else cars
    else cars
  }

  /** The overlap test at spawn never fires: a free lane has no car that
      could touch the new one, so the lane check alone decides. */
  lemma SpawnGuardRedundant(cars: seq<Enemy>, lane: int)
    requires EnemiesOk(cars) && 0 <= lane < 4 && !LaneOccupied(cars, lane)
    ensures !CollidesAny(SpawnRect(lane), cars)
  {
    forall i | 0 <= i < |cars|
      ensures !Collide(SpawnRect(lane), cars[i].rect)
    {
      assert cars[i].lane != lane;
      DifferentLanesNeverCollide(Enemy(SpawnRect(lane), 4, lane, 0), cars[i]);
    }
  }

  /** Spawning keeps every car well placed and the lanes distinct. */
  lemma SpawnKeepsEnemiesOk(cars: seq<Enemy>, roll: int, lane: int, speed: int)
    requires EnemiesOk(cars) && 0 <= lane < 4 && 4 <= speed <= 10
    ensures EnemiesOk(Spawn(cars, roll, lane, speed))
    ensures roll == 1 && !LaneOccupied(cars, lane) ==>
      Spawn(cars, roll, lane, speed) == cars + [Enemy(SpawnRect(lane), speed, lane, |cars| + 1)]
  {
    if roll == 1 && !LaneOccupied(cars, lane) {
      SpawnGuardRedundant(cars, lane);
      var r := cars + [Enemy(SpawnRect(lane), speed, lane, |cars| + 1)];
      forall i, j | 0 <= i < j < |r|
        ensures r[i].lane != r[j].lane
      {
        if j == |cars| {
          assert r[i] == cars[i];
        }
      }
    }
  }

  /** One car after one frame of its own speed. */
  function Advance(e: Enemy): Enemy {
    e.(rect := e.rect.(y := e.rect.y + e.speed))
  }

  predicate OnScreen(e: Enemy) {
    e.rect.y <= Height
  }

  /** Every car moved by its speed, those past the bottom dropped, order kept. */
  function Moved(cars: seq<Enemy>): (r: seq<Enemy>)
    ensures |r| <= |cars|
    ensures forall j :: 0 <= j < |r| ==> OnScreen(r[j])
  {
    if cars == [] then []
    else
      var last := Advance(cars[|cars| - 1]);
      Moved(cars[..|cars| - 1]) + (if OnScreen(last) then [last] else [])
  }

  /** A moved car keeps the lane of a car that was there before. */
  lemma {:induction false} MovedLanes(cars: seq<Enemy>)
    ensures forall j :: 0 <= j < |Moved(cars)| ==>
      exists i :: 0 <= i < |cars| && Moved(cars)[j].lane == cars[i].lane
  {
    if cars != [] {
      var init := cars[..|cars| - 1];
      MovedLanes(init);
      var last := Advance(cars[|cars| - 1]);
      var m := Moved(cars);
      assert m == Moved(init) + (if OnScreen(last) then [last] else []);
      forall j | 0 <= j < |m|
        ensures exists i :: 0 <= i < |cars| && m[j].lane == cars[i].lane
      {
        if j < |Moved(init)| {
          assert m[j] == Moved(init)[j];
          var i :| 0 <= i < |init| && Moved(init)[j].lane == init[i].lane;
          assert cars[i] == init[i];
        } else {
          assert m[j] == last;
          assert m[j].lane == cars[|cars| - 1].lane;
        }
      }
    } else {
      assert Moved(cars) == [];
    }
  }

  /** Moving keeps every kept car well placed and the lanes distinct. */
  lemma {:induction false} MovedKeepsEnemiesOk(cars: seq<Enemy>)
    requires EnemiesOk(cars)
    ensures EnemiesOk(Moved(cars))
  {
    if cars != [] {
      var init := cars[..|cars| - 1];
      assert EnemiesOk(init) by {
        assert forall i :: 0 <= i < |init| ==> init[i] == cars[i];
      }
      MovedKeepsEnemiesOk(init);
      MovedLanes(init);
      var last := Advance(cars[|cars| - 1]);
      if OnScreen(last) {
        var m := Moved(cars);
        var k := |Moved(init)|;
        assert m == Moved(init) + [last];
        forall j | 0 <= j < k
          ensures m[j].lane != last.lane
        {
          var i :| 0 <= i < |init| && Moved(init)[j].lane == init[i].lane;
          assert init[i] == cars[i];
        }
        assert EnemyOk(last);
        assert forall i, j :: 0 <= i < j < |m| ==> m[i].lane != m[j].lane by {
          forall i, j | 0 <= i < j < |m|
            ensures m[i].lane != m[j].lane
          {
            if j < k {
              assert m[i] == Moved(init)[i] && m[j] == Moved(init)[j];
            }
          }
        }
      }
    }
  }

  /** `list.remove`: drop the first element equal to `x`. Python raises
      ValueError when there is none; every call in the game removes an
      element that is there. */
  function RemoveFirst<T(==)>(s: seq<T>, x: T): (r: seq<T>)
    requires x in s
    ensures |r| == |s| - 1
    // exactly one copy of `x` goes, and every other element stays
    ensures multiset(r) == multiset(s) - multiset{x}
  {
    if s[0] == x then
      assert s == [s[0]] + s[1..];
      s[1..]
    else
      assert s == [s[0]] + s[1..];
      [s[0]] + RemoveFirst(s[1..], x)
  }

  /** When `x` first appears at `k`, removing it cuts out exactly position `k`. */
  lemma {:induction false} RemoveFirstAt<T>(s: seq<T>, k: nat, x: T)
    requires k < |s| && s[k] == x && x !in s[..k]
    ensures RemoveFirst(s, x) == s[..k] + s[k + 1..]
  {
    if k > 0 {
      assert s[0] == s[..k][0] && s[1..][k - 1] == x;
      assert s[1..][..k - 1] == s[..k][1..];
      RemoveFirstAt(s[1..], k - 1, x);
    }
  }

  /** `move_enemies`, first loop: each car of a copy of the list moves by its
      speed in place and, once past the bottom, is removed with `remove`. The
      result is the moved list. */
  method MoveEnemies(cars: seq<Enemy>) returns (live: seq<Enemy>)
    ensures live == Moved(cars)
  {
    live := cars;
    var k := 0;
    var pos := 0;
    LoopStarts(cars);
    while k < |cars|
      invariant MoveLoop(cars, k, live, pos)
      decreases |cars| - k
    {
      live, pos := MoveOne(cars, k, live, pos);
      k := k + 1;
    }
    LoopDone(cars, live, pos);
  }

  /** The invariant holds before the first turn. */
  lemma LoopStarts(cars: seq<Enemy>)
    ensures MoveLoop(cars, 0, cars, 0)
  {
    assert cars[..0] == [];
  }

  /** After the last turn the live list is the moved list. */
  lemma LoopDone(cars: seq<Enemy>, live: seq<Enemy>, pos: nat)
    requires MoveLoop(cars, |cars|, live, pos)
    ensures live == Moved(cars)
  {
    assert cars[..|cars|] == cars;
  }

  /** One turn of the loop: car `k`, sitting at `pos` in the live list,
      moves in place and is removed by value once past the bottom. */
  method MoveOne(cars: seq<Enemy>, k: nat, live: seq<Enemy>, pos: nat)
    returns (next: seq<Enemy>, nextPos: nat)
    requires k < |cars| && MoveLoop(cars, k, live, pos)
    ensures MoveLoop(cars, k + 1, next, nextPos)
  {
    var moved := Advance(cars[k]);
    StepInvariant(cars, k, live, pos);
    next := live[pos := moved];
    nextPos := pos;
    if moved.rect.y > Height {
      next := RemoveFirst(next, moved);
    } else {
      nextPos := pos + 1;
    }
  }

  /** The loop's invariant: the first `k` cars are processed, the rest
      untouched, and `pos` is where car `k` sits in the live list. */
  predicate MoveLoop(cars: seq<Enemy>, k: nat, live: seq<Enemy>, pos: nat) {
    k <= |cars| && live == Moved(cars[..k]) + cars[k..] && pos == |Moved(cars[..k])|
  }

  /** One turn of the loop keeps its invariant: the car written in place
      either stays, one position further, or is removed by value. */
  lemma StepInvariant(cars: seq<Enemy>, k: nat, live: seq<Enemy>, pos: nat)
    requires k < |cars| && MoveLoop(cars, k, live, pos)
    ensures pos < |live|
    ensures Advance(cars[k]) in live[pos := Advance(cars[k])]
    ensures var moved := Advance(cars[k]);
      var replaced := live[pos := moved];
      && (moved.rect.y > Height ==> MoveLoop(cars, k + 1, RemoveFirst(replaced, moved), pos))
      && (moved.rect.y <= Height ==> MoveLoop(cars, k + 1, replaced, pos + 1))
  {
    StepWritten(cars, k, live, pos);
    if Advance(cars[k]).rect.y > Height {
      StepDropped(cars, k);
    } else {
      StepKept(cars, k);
    }
  }

  /** Writing the moved car in place replaces car `k` in the live list. */
  lemma StepWritten(cars: seq<Enemy>, k: nat, live: seq<Enemy>, pos: nat)
    requires k < |cars| && MoveLoop(cars, k, live, pos)
    ensures pos < |live|
    ensures live[pos := Advance(cars[k])] == Moved(cars[..k]) + [Advance(cars[k])] + cars[k + 1..]
  {
    MovedSnoc(cars, k);
    ReplaceAt(Moved(cars[..k]), cars[k], Advance(cars[k]), cars[k + 1..]);
  }

  /** A moved car still on screen stays where it was written. */
  lemma StepKept(cars: seq<Enemy>, k: nat)
    requires k < |cars| && OnScreen(Advance(cars[k]))
    ensures MoveLoop(cars, k + 1, Moved(cars[..k]) + [Advance(cars[k])] + cars[k + 1..],
                     |Moved(cars[..k])| + 1)
  {
    MovedSnoc(cars, k);
    assert cars[..k + 1][..k] == cars[..k];
  }

  /** A moved car past the bottom is removed by value, which takes out the
      car itself. */
  lemma StepDropped(cars: seq<Enemy>, k: nat)
    requires k < |cars| && !OnScreen(Advance(cars[k]))
    ensures MoveLoop(cars, k + 1,
      RemoveFirst(Moved(cars[..k]) + [Advance(cars[k])] + cars[k + 1..], Advance(cars[k])),
      |Moved(cars[..k])|)
  {
    var prefix := Moved(cars[..k]);
    MovedSnoc(cars, k);
    assert Moved(cars[..k + 1]) == prefix;
    StepRemoves(cars, k);
  }

  /** Writing `y` over the `x` that follows `prefix`. */
  lemma ReplaceAt<T>(prefix: seq<T>, x: T, y: T, rest: seq<T>)
    ensures (prefix + [x] + rest)[|prefix| := y] == prefix + [y] + rest
    ensures prefix + [x] + rest == prefix + ([x] + rest)
  {
  }

  /** One more car: moved and kept, or moved off and dropped. */
  lemma MovedSnoc(cars: seq<Enemy>, k: nat)
    requires k < |cars|
    ensures cars[k..] == [cars[k]] + cars[k + 1..]
    ensures Moved(cars[..k + 1]) ==
      Moved(cars[..k]) + (if OnScreen(Advance(cars[k])) then [Advance(cars[k])] else [])
  {
    assert cars[..k + 1][..k] == cars[..k];
  }

  /** Removing the moved car by value takes out the car itself, even when
      an equal car follows it. */
  lemma StepRemoves(cars: seq<Enemy>, k: nat)
    requires k < |cars| && Advance(cars[k]).rect.y > Height
    ensures var prefix := Moved(cars[..k]);
      RemoveFirst(prefix + [Advance(cars[k])] + cars[k + 1..], Advance(cars[k])) ==
      prefix + cars[k + 1..]
  {
    var prefix := Moved(cars[..k]);
    var s := prefix + [Advance(cars[k])] + cars[k + 1..];
    OffScreenNotMoved(cars, k);
    assert s[..|prefix|] == prefix;
    RemoveFirstAt(s, |prefix|, Advance(cars[k]));
    assert s[|prefix| + 1..] == cars[k + 1..];
  }

  /** A car that moved past the bottom equals none of the cars moved before
      it, since all of those are still on screen. */
  lemma OffScreenNotMoved(cars: seq<Enemy>, k: nat)
    requires k < |cars| && !OnScreen(Advance(cars[k]))
    ensures Advance(cars[k]) !in Moved(cars[..k])
  {
  }

  // ---------------------------------------------------------------------
  // Enemy-enemy collisions (`move_enemies`, second loop)

  predicate NoPairCollides(cars: seq<Enemy>) {
    forall i, j :: 0 <= i < j < |cars| ==> !Collide(cars[i].rect, cars[j].rect)
  }

  /** Cars in distinct lanes never touch each other. */
  lemma WellPlacedCarsNeverCollide(cars: seq<Enemy>)
    requires EnemiesOk(cars)
    ensures NoPairCollides(cars)
  {
    forall i, j | 0 <= i < j < |cars|
      ensures !Collide(cars[i].rect, cars[j].rect)
    {
      DifferentLanesNeverCollide(cars[i], cars[j]);
    }
  }

  const IndexError := "IndexError: list index out of range"

  /** The inner loop as written, for outer index `i`, from `j` on: at the
      first car touching car `i`, car `i` is removed by value and then the car
      now at `j` — the one after the intended partner — is removed, or the
      lookup fails when the partner was last. */
  function ScanAsWritten(cars: seq<Enemy>, i: nat, j: nat): (r: Result<seq<Enemy>, string>)
    requires i < j
    // the only failure is the out-of-range lookup
    ensures r.Failure? ==> r.error == IndexError
    // either nothing touches car `i` from `j` on, or exactly two cars go
    ensures r.Success? ==> r.value == cars || |r.value| == |cars| - 2
    ensures (forall k :: j <= k < |cars| ==> !Collide(cars[i].rect, cars[k].rect)) ==>
      r == Success(cars)
    decreases |cars| - j
  {
    if j >= |cars| then Success(cars)
    else if Collide(cars[i].rect, cars[j].rect) then
      var afterFirst := RemoveFirst(cars, cars[i]);
      if j < |afterFirst| then Success(RemoveFirst(afterFirst, afterFirst[j]))
      else Failure(IndexError)
    else ScanAsWritten(cars, i, j + 1)
  }

  /** The outer loop as written: `i` runs over the length the list had
      before the loop, whatever the removals do to it. */
  function SeparateAsWritten(cars: seq<Enemy>, i: nat, n: nat): (r: Result<seq<Enemy>, string>)
    ensures r.Failure? ==> r.error == IndexError
    // cars only ever go two at a time
    ensures r.Success? ==> |r.value| <= |cars| && (|cars| - |r.value|) % 2 == 0
    decreases n - i
  {
    if i >= n then Success(cars)
    else
      match ScanAsWritten(cars, i, i + 1)
      case Failure(e) => Failure(e)
      case Success(next) =>
        var r := SeparateAsWritten(next, i + 1, n);
        TwoAtATime(|cars|, |next|, r);
        r
  }

  /** Dropping none or two, then an even number, drops an even number. */
  lemma TwoAtATime(a: nat, b: nat, r: Result<seq<Enemy>, string>)
    requires b == a || b + 2 == a
    requires r.Success? ==> |r.value| <= b && (b - |r.value|) % 2 == 0
    ensures r.Success? ==> |r.value| <= a && (a - |r.value|) % 2 == 0
  {
  }

  /** With no touching pair, the loop as written leaves the list alone. */
  lemma {:induction false} ScanNoCollision(cars: seq<Enemy>, i: nat, j: nat)
    requires i < j && NoPairCollides(cars)
    ensures ScanAsWritten(cars, i, j) == Success(cars)
    decreases |cars| - j
  {
    if j < |cars| {
      ScanNoCollision(cars, i, j + 1);
    }
  }

  lemma {:induction false} SeparateAsWrittenNoCollision(cars: seq<Enemy>, i: nat, n: nat)
    requires NoPairCollides(cars)
    ensures SeparateAsWritten(cars, i, n) == Success(cars)
    decreases n - i
  {
    if i < n {
      ScanNoCollision(cars, i, i + 1);
      SeparateAsWrittenNoCollision(cars, i + 1, n);
    }
  }

  /** Two touching cars in one lane, and a third elsewhere. */
  const CarA := Enemy(Rect(75, 0, 50, 100), 5, 0, 1)
  const CarB := Enemy(Rect(75, 50, 50, 100), 6, 0, 2)
  const CarC := Enemy(Rect(275, 0, 50, 100), 7, 1, 3)

  /** The loop as written fails on a touching pair at the end of the list. */
  lemma SeparateAsWrittenFails()
    ensures SeparateAsWritten([CarA, CarB], 0, 2) == Failure(IndexError)
  {
    assert Collide(CarA.rect, CarB.rect);
    assert RemoveFirst([CarA, CarB], CarA) == [CarB];
    assert ScanAsWritten([CarA, CarB], 0, 1) == Failure(IndexError);
  }

  /** With a third car behind a touching pair, the loop as written removes
      that car and keeps one of the pair. */
  lemma SeparateAsWrittenMisses()
    ensures SeparateAsWritten([CarA, CarB, CarC], 0, 3) == Success([CarB])
  {
    assert Collide(CarA.rect, CarB.rect);
    assert RemoveFirst([CarA, CarB, CarC], CarA) == [CarB, CarC];
    assert RemoveFirst([CarB, CarC], CarC) == [CarB];
    assert ScanAsWritten([CarA, CarB, CarC], 0, 1) == Success([CarB]);
    assert ScanAsWritten([CarB], 1, 2) == Success([CarB]);
    assert SeparateAsWritten([CarB], 2, 3) == Success([CarB]);
  }

  /** The first car after `c` that touches it. */
  function FindPartner(c: Enemy, rest: seq<Enemy>): (r: Option<nat>)
    ensures r.Some? ==> r.value < |rest| && Collide(c.rect, rest[r.value].rect)
    ensures r.None? ==> forall j :: 0 <= j < |rest| ==> !Collide(c.rect, rest[j].rect)
  {
    if rest == [] then None
    else if Collide(c.rect, rest[0].rect) then Some(0)
    else match FindPartner(c, rest[1..])
      case None => None
      case Some(j) => Some(j + 1)
  }

  /** The first touching pair in the loop's order. */
  function FindPair(cars: seq<Enemy>): (r: Option<(nat, nat)>)
    ensures r.Some? ==> r.value.0 < r.value.1 < |cars| &&
                        Collide(cars[r.value.0].rect, cars[r.value.1].rect)
    ensures r.None? ==> NoPairCollides(cars)
  {
    if |cars| < 2 then None
    else match FindPartner(cars[0], cars[1..])
      case Some(j) => Some((0, j + 1))
      case None =>
        match FindPair(cars[1..])
        case Some(p) => Some((p.0 + 1, p.1 + 1))
        case None =>
          assert forall i, j :: 0 < i < j < |cars| ==> cars[i] == cars[1..][i - 1] && cars[j] == cars[1..][j - 1];
          None
  }

  function RemoveAt<T>(s: seq<T>, i: nat): (r: seq<T>)
    requires i < |s|
    ensures |r| == |s| - 1
    ensures multiset(r) <= multiset(s)
  {
    assert s == s[..i] + [s[i]] + s[i + 1..];
    s[..i] + s[i + 1..]
  }

  /** The removal the loop evidently intends: both cars of the first touching
      pair go, and the search restarts on the shorter list. */
  function Separate(cars: seq<Enemy>): (r: seq<Enemy>)
    ensures NoPairCollides(r)
    ensures NoPairCollides(cars) ==> r == cars
    ensures multiset(r) <= multiset(cars)
    decreases |cars|
  {
    match FindPair(cars)
    case None => cars
    case Some(p) =>
      assert FindPair(cars).Some?;
      Separate(RemoveAt(RemoveAt(cars, p.1), p.0))
  }

  /** The intended removal on the failing inputs: the touching pair is gone
      and the third car stays. */
  lemma SeparateRemovesPair()
    ensures Separate([CarA, CarB]) == []
    ensures Separate([CarA, CarB, CarC]) == [CarC]
  {
    assert Collide(CarA.rect, CarB.rect);
    assert FindPartner(CarA, [CarB]) == Some(0);
    assert FindPair([CarA, CarB]) == Some((0, 1));
    assert RemoveAt(RemoveAt([CarA, CarB], 1), 0) == [];
    assert FindPartner(CarA, [CarB, CarC]) == Some(0);
    assert FindPair([CarA, CarB, CarC]) == Some((0, 1));
    assert RemoveAt(RemoveAt([CarA, CarB, CarC], 1), 0) == [CarC];
  }

  // ---------------------------------------------------------------------
  // The main loop

  /** The player touches some enemy. */
  predicate Crashed(player: Rect, cars: seq<Enemy>)
    // as `for car in enemy_cars` reads it: some car of the list
    ensures Crashed(player, cars) <==> exists car :: car in cars && Collide(player, car.rect)
  {
    exists i :: 0 <= i < |cars| && Collide(player, cars[i].rect)
  }

  /** `check_collisions`: the enemies are scanned in order and the scan stops
      at the first one the player touches. */
  method CheckCollisions(player: Rect, cars: seq<Enemy>) returns (hit: bool)
    ensures hit == Crashed(player, cars)
  {
    for i := 0 to |cars|
      invariant !Crashed(player, cars[..i])
    {
      if Collide(player, cars[i].rect) {
        assert cars[..i + 1][i] == cars[i];
        return true;
      }
      assert cars[..i + 1] == cars[..i] + [cars[i]];
    }
    assert cars[..|cars|] == cars;
    return false;
  }

  /** `GAME_TIME - elapsed // 1000`. */
  function TimeRemaining(elapsed: nat): int {
    GameTime - elapsed / 1000
  }

  /** The clock ends the game exactly from the sixtieth second on. */
  lemma TimeUp(elapsed: nat)
    ensures TimeRemaining(elapsed) <= 0 <==> elapsed >= GameTime * 1000
  {
  }

  datatype Outcome = Exited | Continued(game: Game)

  /** One pass of the `while running` loop: the clock check, the quit event,
      the keys, the speed, the billboards, a possible new car, the enemies'
      move, and the crash rule. The frame is played to its end even when
      the clock has just run out. */
  function Tick(g: Game, f: Frame): (r: Outcome)
    ensures f.quit <==> r.Exited?
    ensures r.Continued? && r.game.running ==> TimeRemaining(f.elapsed) > 0 && g.running
    ensures r.Continued? ==> r.game.lives == g.lives || r.game.lives == g.lives - 1
  {
    var running := if TimeRemaining(f.elapsed) <= 0 then false else g.running;
    if f.quit then Exited
    else
      var (player, accelerating) := HandleInput(g.player, f.left, f.right, f.up);
      var speed := NextSpeed(g.carSpeed, accelerating);
      var billboards := MoveBillboards(g.billboards, speed);
      var cars := Separate(Moved(Spawn(g.enemies, f.roll, f.lane, f.enemySpeed)));
      Continued(CrashRule(Game(player, cars, billboards, speed, accelerating, g.lives, running)))
  }

  /** The end of a frame: a crash costs a life, and then either ends the
      game or puts the player back at the start on an empty road at the
      lowest speed. */
  function CrashRule(g: Game): (r: Game)
    ensures r.billboards == g.billboards && r.accelerating == g.accelerating
    ensures !Crashed(g.player, g.enemies) ==> r == g
    ensures Crashed(g.player, g.enemies) ==> r.lives == g.lives - 1
    ensures Crashed(g.player, g.enemies) && r.lives <= 0 ==>
      !r.running && r.player == g.player && r.enemies == g.enemies && r.carSpeed == g.carSpeed
    ensures Crashed(g.player, g.enemies) && r.lives > 0 ==>
      r.running == g.running && r.player == g.player.(x := StartX, y := StartY) &&
      r.enemies == [] && r.carSpeed == MinSpeed
  {
    if Crashed(g.player, g.enemies) then
      var lives := g.lives - 1;
      if lives <= 0 then g.(lives := lives, running := false)
      else g.(player := g.player.(x := StartX, y := StartY), enemies := [], carSpeed := MinSpeed, lives := lives)
    else g
  }

  /** The state every frame keeps. */
  predicate Valid(g: Game) {
    PlayerOk(g.player) && MinSpeed <= g.carSpeed <= MaxSpeed &&
    BillboardsOk(g.billboards) && EnemiesOk(g.enemies) &&
    0 <= g.lives <= Lives && (g.running ==> g.lives >= 1)
  }

  const InitialBillboards := [
    Billboard(0, 0.0), Billboard(0, (Height / 3) as real), Billboard(0, (2 * Height / 3) as real),
    Billboard(0, (Height / 2) as real), Billboard(0, (Height / 5) as real),
    Billboard(0, (Height / 5 * 4) as real),
    Billboard(Width - BillboardWidth, (Height / 6) as real),
    Billboard(Width - BillboardWidth, (Height / 2) as real),
    Billboard(Width - BillboardWidth, (Height / 3) as real),
    Billboard(Width - BillboardWidth, (Height / 5 * 3) as real),
    Billboard(Width - BillboardWidth, (Height / 5) as real),
    Billboard(Width - BillboardWidth, (Height / 5 * 4) as real)]

  /** The state before the first frame. */
  function Initial(): (r: Game)
    ensures Valid(r) && r.running && r.lives == Lives && r.enemies == []
  {
    var g := Game(Rect(StartX, StartY, CarWidth, CarHeight), [], InitialBillboards,
                  MinSpeed, false, Lives, true);
    assert BillboardsOk(InitialBillboards) by {
      forall i | 0 <= i < 12
        ensures BillboardOk(InitialBillboards[i])
      {
      }
    }
    g
  }

  /** The cars after a frame's spawn, move and separation are well placed,
      and the separation has nothing to do. */
  lemma CarsStayOk(g: Game, f: Frame)
    requires EnemiesOk(g.enemies) && FrameOk(f)
    ensures var moved := Moved(Spawn(g.enemies, f.roll, f.lane, f.enemySpeed));
      EnemiesOk(moved) && Separate(moved) == moved
  {
    var spawned := Spawn(g.enemies, f.roll, f.lane, f.enemySpeed);
    SpawnKeepsEnemiesOk(g.enemies, f.roll, f.lane, f.enemySpeed);
    MovedKeepsEnemiesOk(spawned);
    WellPlacedCarsNeverCollide(Moved(spawned));
  }

  /** Every frame of a running game keeps the state valid. */
  lemma TickKeepsValid(g: Game, f: Frame)
    requires Valid(g) && g.running && FrameOk(f) && !f.quit
    ensures Valid(Tick(g, f).game)
  {
    var (player, accelerating) := HandleInput(g.player, f.left, f.right, f.up);
    var speed := NextSpeed(g.carSpeed, accelerating);
    BillboardsStayInBand(g.billboards, speed);
    CarsStayOk(g, f);
  }

  /** Without a crash no life is lost and the clock alone can stop the game. */
  lemma NoCrashKeepsLives(g: Game, f: Frame)
    requires !f.quit
    requires !Crashed(HandleInput(g.player, f.left, f.right, f.up).0,
                      Separate(Moved(Spawn(g.enemies, f.roll, f.lane, f.enemySpeed))))
    ensures Tick(g, f).game.lives == g.lives
    ensures Tick(g, f).game.running == (g.running && TimeRemaining(f.elapsed) > 0)
  {
  }

  /** The loop over a run of frames, until the game stops, the player quits,
      or the frames run out. */
  function Play(g: Game, frames: seq<Frame>): (r: Outcome)
    requires forall i :: 0 <= i < |frames| ==> FrameOk(frames[i])
    ensures Valid(g) && r.Continued? ==> Valid(r.game) && r.game.lives <= g.lives
    decreases |frames|
  {
    if !g.running || frames == [] then Continued(g)
    else
      var f := frames[0];
      if f.quit then Exited
      else
        assert Valid(g) ==> Valid(Tick(g, f).game) by {
          if Valid(g) {
            TickKeepsValid(g, f);
          }
        }
        Play(Tick(g, f).game, frames[1..])
  }
}

=== FILE: goal_loop_v3.dfy ===
/** The generate → review → judge loop of `run_code_agent`, iteration 3.
    Here every model call is made directly and is taken to return a reply;
    the replies of the three calls of iteration i are the oracle value
    `round(i)`. The only failure left is the NameError of an unbound `code`
    when the loop body never runs. */
module GoalLoopV3 {
  import opened Wrappers
  import opened Text
  import opened Math
  import opened GoalText

  /** The replies of the generation, review and judge calls of one iteration. */
  datatype Round = Round(generated: string, review: string, judge: string)

  /** What the loop body makes of a round: the cleaned code, the review and
      the verdict on the judge reply. */
  datatype Judged = Judged(code: string, review: string, met: bool)

  /** The loop's variables; `code` is None while the name is still unbound. */
  datatype Agent = Agent(previousCode: string, feedback: string, code: Option<string>)

  /** The state after the loop, how many iterations ran, and whether it
      stopped on a verdict of "met". */
  datatype Run = Run(state: Agent, iterations: nat, met: bool)

  /** What `run_code_agent` produced: the saved file, or the NameError. */
  datatype Outcome = Saved(name: string, content: string) | UnboundCode

  /** The code kept from a generation reply. */
  function Cleaned(reply: string): string {
    CleanCodeBlock(Strip(reply))
  }

  function Judge(round: Round): Judged {
    Judged(Cleaned(round.generated), round.review, GoalsMet(round.judge))
  }

  /** One pass of the loop body; the boolean says whether it hit `break`. */
  function Iterate(a: Agent, j: Judged): (r: (Agent, bool))
    ensures r.0.code == Some(j.code)
    ensures r.0.feedback == j.review
    ensures r.1 <==> j.met
    // `previous_code` becomes the new code exactly when the goals were not met
    ensures r.0.previousCode == if r.1 then a.previousCode else j.code
  {
    if j.met then (Agent(a.previousCode, j.review, Some(j.code)), true)
    else (Agent(j.code, j.review, Some(j.code)), false)
  }

  /** The `for` loop over the remaining rounds. */
  function Loop(a: Agent, rounds: seq<Judged>): (r: Run)
    decreases |rounds|
    ensures r.iterations <= |rounds|
    ensures !r.met ==> r.iterations == |rounds|
    ensures r.iterations == 0 ==> r.state == a
    // `code` is the cleaned reply of the last iteration that ran
    ensures r.iterations > 0 ==> r.state.code == Some(rounds[r.iterations - 1].code)
  {
    if rounds == [] then Run(a, 0, false)
    else
      var step := Iterate(a, rounds[0]);
      if step.1 then Run(step.0, 1, true)
      else
        var r := Loop(step.0, rounds[1..]);
        Run(r.state, r.iterations + 1, r.met)
  }

  /** The loop breaks at the first iteration judged met, and only there. */
  lemma {:induction false} StopsAtFirstMet(a: Agent, rounds: seq<Judged>)
    ensures forall j :: 0 <= j < Loop(a, rounds).iterations - 1 ==> !rounds[j].met
    ensures Loop(a, rounds).met <==>
      Loop(a, rounds).iterations > 0 && rounds[Loop(a, rounds).iterations - 1].met
    decreases |rounds|
  {
    if rounds != [] && !rounds[0].met {
      var b := Iterate(a, rounds[0]).0;
      StopsAtFirstMet(b, rounds[1..]);
      assert forall j :: 1 <= j < |rounds| ==> rounds[j] == rounds[1..][j - 1];
    }
  }

  /** The iterations `range(max_iterations)` offers, as oracle outcomes. */
  function Rounds(maxIterations: int, round: nat -> Round): (rounds: seq<Judged>)
    ensures |rounds| == Max(maxIterations, 0)
    ensures forall i :: 0 <= i < |rounds| ==> rounds[i] == Judge(round(i))
  {
    seq(Max(maxIterations, 0), i requires 0 <= i => Judge(round(i)))
  }

  const Start := Agent("", "", None)

  /** In terms of the judge replies: the run stops at the first reply whose
      score is at least 8. */
  lemma FirstMetRound(maxIterations: int, round: nat -> Round)
    ensures forall j :: 0 <= j < Loop(Start, Rounds(maxIterations, round)).iterations - 1 ==>
      !GoalsMet(round(j).judge)
    ensures Loop(Start, Rounds(maxIterations, round)).met <==>
      Loop(Start, Rounds(maxIterations, round)).iterations > 0 &&
      GoalsMet(round(Loop(Start, Rounds(maxIterations, round)).iterations - 1).judge)
  {
    StopsAtFirstMet(Start, Rounds(maxIterations, round));
  }

  /** `run_code_agent(use_case, goals_input, max_iterations)`. `summary` is
      the summary reply and `suffix` the random file-name number; the file
      itself is not written. */
  function RunCodeAgent(useCase: string, goalsInput: string, maxIterations: int,
                        round: nat -> Round, summary: string, suffix: int): (r: Outcome)
    requires 1000 <= suffix <= 9999
    // `code` is unbound exactly when the loop body never ran
    ensures r.UnboundCode? <==> maxIterations <= 0
    ensures r.Saved? ==> r.name == FileName(SummaryStem(summary), suffix)
  {
    var run := Loop(Start, Rounds(maxIterations, round));
    match run.state.code
    case None => UnboundCode
    case Some(code) => Saved(FileName(SummaryStem(summary), suffix), AddCommentHeader(code, useCase))
  }

  /** The saved file is the header followed by the code generated in the
      last iteration that ran. */
  lemma SavedLatestCode(useCase: string, goalsInput: string, maxIterations: int,
                        round: nat -> Round, summary: string, suffix: int)
    requires 1000 <= suffix <= 9999
    requires maxIterations > 0
    ensures Loop(Start, Rounds(maxIterations, round)).iterations >= 1
    ensures RunCodeAgent(useCase, goalsInput, maxIterations, round, summary, suffix).content ==
      AddCommentHeader(Cleaned(round(Loop(Start, Rounds(maxIterations, round)).iterations - 1).generated), useCase)
  {
  }
}

=== FILE: goal_loop_v4.dfy ===
/** The generate → review → judge loop of `run_code_agent`, iteration 4.
    Each model call goes through `safe_llm_invoke` and so either yields a
    reply or None; the outcomes of the three calls of iteration i are the
    oracle value `round(i)`. Two runs end in a Python exception: a failed
    review leaves `feedback = None`, and the next iteration's `.content`
    access raises AttributeError; a run in which no generation succeeded
    reaches the header step with `code` unbound and raises NameError. */
module GoalLoopV4 {
  import opened Wrappers
  import opened Text
  import opened Math
  import opened GoalText

  /** The loop variable `feedback`: the initial empty string, a review reply
      (an object with `.content`), or None once a review failed. */
  datatype Feedback = Initial | Reply(content: string) | Missing

  /** What the generation, review and judge calls of one iteration returned. */
  datatype Round = Round(generated: Option<string>, review: Option<string>, judge: Option<string>)

  /** The loop's variables; `code` is None while the name is still unbound. */
  datatype Agent = Agent(previousCode: string, feedback: Feedback, code: Option<string>)

  /** How one iteration ended: on to the next one, or `break` after a
      verdict of "met". */
  datatype Step = Continue(next: Agent) | Met(next: Agent)

  /** Why the loop stopped: the iterations ran out, the goals were judged
      met, or the `.content` access on a None feedback raised. */
  datatype Stop = Exhausted | GoalsMet | Crashed

  /** The state after the loop, with the number of iterations that ran to
      their end or their `break` (an iteration that raises is not counted). */
  datatype Run = Run(state: Agent, iterations: nat, stop: Stop)

  /** What `run_code_agent` produced: the saved file, or the exception. */
  datatype Outcome = Saved(name: string, content: string) | AttributeError | UnboundCode

  /** The code kept from a generation reply. */
  function Cleaned(reply: string): string {
    CleanCodeBlock(Strip(reply))
  }

  /** A round whose three calls all succeeded and whose score was at least 8. */
  predicate JudgedMet(round: Round) {
    round.generated.Some? && round.review.Some? && Verdict(round.judge).0
  }

  /** A round after which the loop cannot go on normally: the goals were met,
      or the review failed and left `feedback` None. */
  predicate Decisive(round: Round) {
    round.generated.Some? && (round.review.None? || JudgedMet(round))
  }

  /** One pass of the loop body, from a state whose `feedback` can be read. */
  function Iterate(a: Agent, round: Round): (s: Step)
    requires !a.feedback.Missing?
    // a failed generation skips the rest of the iteration and changes nothing
    ensures round.generated.None? ==> s == Continue(a)
    // otherwise `code` is the cleaned reply
    ensures round.generated.Some? ==> s.next.code == Some(Cleaned(round.generated.value))
    // a failed review leaves `feedback` None, and only a failed review does
    ensures s.next.feedback.Missing? <==> round.generated.Some? && round.review.None?
    // a successful review becomes the next `feedback`
    ensures round.generated.Some? && round.review.Some? ==> s.next.feedback == Reply(round.review.value)
    // the loop breaks exactly on a verdict of "met"
    ensures s.Met? <==> JudgedMet(round)
    // an iteration that finished unmet hands its code on as `previous_code`
    ensures s.Continue? && round.generated.Some? && round.review.Some? ==>
      s.next.previousCode == s.next.code.value
    // and no other iteration changes `previous_code`
    ensures s.next.previousCode != a.previousCode ==>
      s.Continue? && round.generated.Some? && round.review.Some?
  {
    match round.generated
    case None => Continue(a)
    case Some(reply) =>
      var code := Cleaned(reply);
      match round.review
      case None => Continue(Agent(a.previousCode, Missing, Some(code)))
      case Some(review) =>
        if Verdict(round.judge).0 then Met(Agent(a.previousCode, Reply(review), Some(code)))
        else Continue(Agent(code, Reply(review), Some(code)))
  }

  /** The reply of the last successful generation among the first n
      rounds, or None when none succeeded. */
  function LatestReply(rounds: seq<Round>, n: nat): (r: Option<string>)
    requires n <= |rounds|
    ensures r.None? <==> forall j :: 0 <= j < n ==> rounds[j].generated.None?
  {
    if n == 0 then None
    else if rounds[n - 1].generated.Some? then rounds[n - 1].generated
    else LatestReply(rounds, n - 1)
  }

  /** Looking back from round n, over a sequence with one more round at the
      front: the last reply is found among the later rounds if they have one. */
  lemma {:induction false} LatestReplyShift(rounds: seq<Round>, n: nat)
    requires 1 <= n <= |rounds|
    ensures LatestReply(rounds, n) ==
      if LatestReply(rounds[1..], n - 1).Some? then LatestReply(rounds[1..], n - 1) else rounds[0].generated
  {
    if n > 1 {
      assert rounds[1..][n - 2] == rounds[n - 1];
      if rounds[n - 1].generated.None? {
        LatestReplyShift(rounds, n - 1);
      }
    }
  }

  /** The code that the first n iterations leave behind, from `code`. */
  function LatestCode(code: Option<string>, rounds: seq<Round>, n: nat): Option<string>
    requires n <= |rounds|
  {
    match LatestReply(rounds, n)
    case None => code
    case Some(reply) => Some(Cleaned(reply))
  }

  /** The `for` loop over the remaining rounds. */
  function Loop(a: Agent, rounds: seq<Round>): (r: Run)
    decreases |rounds|
    ensures r.iterations <= |rounds|
    ensures r.stop.Exhausted? ==> r.iterations == |rounds|
    ensures r.stop.Crashed? ==> r.iterations < |rounds|
    // `code` holds the last code generated in the iterations that ran
    ensures r.state.code == LatestCode(a.code, rounds, r.iterations)
  {
    if rounds == [] then Run(a, 0, Exhausted)
    else if a.feedback.Missing? then Run(a, 0, Crashed)
    else
      var s := Iterate(a, rounds[0]);
      if s.Met? then Run(s.next, 1, GoalsMet)
      else
        var r := Loop(s.next, rounds[1..]);
        LatestReplyShift(rounds, r.iterations + 1);
        Run(r.state, r.iterations + 1, r.stop)
  }

  /** The iterations `range(max_iterations)` offers, as oracle outcomes. */
  function Rounds(maxIterations: int, round: nat -> Round): (rounds: seq<Round>)
    ensures |rounds| == Max(maxIterations, 0)
    ensures forall i :: 0 <= i < |rounds| ==> rounds[i] == round(i)
  {
    seq(Max(maxIterations, 0), i requires 0 <= i => round(i))
  }

  const Start := Agent("", Initial, None)

  /** `run_code_agent(use_case, goals_input, max_iterations)`. `summary` is
      what the summary call returned and `suffix` the random file-name
      number; the file itself is not written. */
  function RunCodeAgent(useCase: string, goalsInput: string, maxIterations: int,
                        round: nat -> Round, summary: Option<string>, suffix: int): (r: Outcome)
    requires 1000 <= suffix <= 9999
    ensures r.Saved? ==> r.name == FileName(FileStem(summary), suffix)
    ensures r.Saved? ==> StartsWith(r.content, HeaderLine)
  {
    var run := Loop(Start, Rounds(maxIterations, round));
    if run.stop.Crashed? then AttributeError
    else
      match run.state.code
      case None => UnboundCode
      case Some(code) =>
        assert HeaderLine <= HeaderLine + "# ";
        Saved(FileName(FileStem(summary), suffix), AddCommentHeader(code, useCase))
  }

  /** The first decisive round, or `|rounds|` if there is none. */
  function FirstDecisive(rounds: seq<Round>): (k: nat)
    ensures k <= |rounds|
    ensures forall j :: 0 <= j < k ==> !Decisive(rounds[j])
    ensures k < |rounds| ==> Decisive(rounds[k])
  {
    if rounds == [] then 0
    else if Decisive(rounds[0]) then 0
    else 1 + FirstDecisive(rounds[1..])
  }

  /** How the loop ends, in closed form: everything hinges on the first
      decisive round k. If it was judged met the loop breaks there; if its
      review failed, the run raises in the next iteration, when there is
      one; without a decisive round every iteration runs. */
  lemma {:induction false} LoopClosedForm(a: Agent, rounds: seq<Round>)
    requires !a.feedback.Missing?
    ensures Loop(a, rounds).iterations == if FirstDecisive(rounds) < |rounds| then FirstDecisive(rounds) + 1 else |rounds|
    ensures Loop(a, rounds).stop.GoalsMet? <==>
      FirstDecisive(rounds) < |rounds| && JudgedMet(rounds[FirstDecisive(rounds)])
    ensures Loop(a, rounds).stop.Crashed? <==>
      FirstDecisive(rounds) + 1 < |rounds| && rounds[FirstDecisive(rounds)].review.None?
    decreases |rounds|
  {
    if rounds != [] {
      var s := Iterate(a, rounds[0]);
      if !Decisive(rounds[0]) {
        LoopClosedForm(s.next, rounds[1..]);
      } else if !JudgedMet(rounds[0]) {
        assert s.next.feedback.Missing?;
      }
    }
  }

  /** The loop breaks at the first iteration judged met, and only there. */
  lemma StopsAtFirstMet(a: Agent, rounds: seq<Round>)
    requires !a.feedback.Missing?
    ensures forall j :: 0 <= j < Loop(a, rounds).iterations - 1 ==> !JudgedMet(rounds[j])
    ensures Loop(a, rounds).stop.GoalsMet? <==>
      Loop(a, rounds).iterations > 0 && JudgedMet(rounds[Loop(a, rounds).iterations - 1])
  {
    LoopClosedForm(a, rounds);
    var run := Loop(a, rounds);
    MetNotBefore(rounds, run.iterations);
    MetAtStop(rounds, run.iterations, run.stop.GoalsMet?);
  }

  /** No round before the last one that ran was judged met. */
  lemma MetNotBefore(rounds: seq<Round>, n: nat)
    requires n == if FirstDecisive(rounds) < |rounds| then FirstDecisive(rounds) + 1 else |rounds|
    ensures forall j :: 0 <= j < n - 1 ==> !JudgedMet(rounds[j])
  {
    forall j | 0 <= j < n - 1
      ensures !JudgedMet(rounds[j])
    {
      NotDecisiveNotMet(rounds[j]);
    }
  }

  /** The loop broke exactly when the last round that ran was judged met. */
  lemma MetAtStop(rounds: seq<Round>, n: nat, met: bool)
    requires n == if FirstDecisive(rounds) < |rounds| then FirstDecisive(rounds) + 1 else |rounds|
    requires met <==> FirstDecisive(rounds) < |rounds| && JudgedMet(rounds[FirstDecisive(rounds)])
    ensures met <==> n > 0 && JudgedMet(rounds[n - 1])
  {
    if FirstDecisive(rounds) == |rounds| && n > 0 {
      NotDecisiveNotMet(rounds[n - 1]);
    }
  }

  /** A round that is not decisive was not judged met. */
  lemma NotDecisiveNotMet(round: Round)
    requires !Decisive(round)
    ensures !JudgedMet(round)
  {
  }

  /** The NameError at the header step happens exactly when every offered
      iteration's generation failed — in particular when `max_iterations <= 0`. */
  lemma UnboundExactly(useCase: string, goalsInput: string, maxIterations: int,
                       round: nat -> Round, summary: Option<string>, suffix: int)
    requires 1000 <= suffix <= 9999
    ensures RunCodeAgent(useCase, goalsInput, maxIterations, round, summary, suffix).UnboundCode? <==>
      forall i :: 0 <= i < Max(maxIterations, 0) ==> round(i).generated.None?
  {
    var rounds := Rounds(maxIterations, round);
    var run := Loop(Start, rounds);
    var k := FirstDecisive(rounds);
    LoopClosedForm(Start, rounds);
  }

  /** The AttributeError happens exactly when the first decisive iteration
      had a failed review and another iteration follows it. */
  lemma CrashExactly(useCase: string, goalsInput: string, maxIterations: int,
                     round: nat -> Round, summary: Option<string>, suffix: int)
    requires 1000 <= suffix <= 9999
    ensures RunCodeAgent(useCase, goalsInput, maxIterations, round, summary, suffix).AttributeError? <==>
      FirstDecisive(Rounds(maxIterations, round)) + 1 < Max(maxIterations, 0) &&
      round(FirstDecisive(Rounds(maxIterations, round))).review.None?
  {
    LoopClosedForm(Start, Rounds(maxIterations, round));
  }

  /** The saved file holds the header and then the code of the last
      successful generation among the iterations that ran. */
  lemma SavedLatestCode(useCase: string, goalsInput: string, maxIterations: int,
                        round: nat -> Round, summary: Option<string>, suffix: int)
    requires 1000 <= suffix <= 9999
    requires RunCodeAgent(useCase, goalsInput, maxIterations, round, summary, suffix).Saved?
    ensures LatestCode(None, Rounds(maxIterations, round), Loop(Start, Rounds(maxIterations, round)).iterations).Some?
    ensures RunCodeAgent(useCase, goalsInput, maxIterations, round, summary, suffix).content ==
      AddCommentHeader(LatestCode(None, Rounds(maxIterations, round), Loop(Start, Rounds(maxIterations, round)).iterations).value, useCase)
  {
  }

  /** A review that fails in the first of two iterations makes the second
      one raise. */
  lemma ReviewFailureCrashes(useCase: string, goalsInput: string, suffix: int)
    requires 1000 <= suffix <= 9999
    ensures RunCodeAgent(useCase, goalsInput, 2,
      i => Round(Some("print(1)"), None, None), None, suffix) == AttributeError
  {
    var rounds := Rounds(2, i => Round(Some("print(1)"), None, None));
    assert rounds[0].generated.Some? && rounds[0].review.None?;
  }

  /** A run whose only generation fails reaches the header step with `code` unbound. */
  lemma FailedGenerationUnbound(useCase: string, goalsInput: string, suffix: int)
    requires 1000 <= suffix <= 9999
    ensures RunCodeAgent(useCase, goalsInput, 1,
      i => Round(None, Some("fine"), Some("9")), None, suffix) == UnboundCode
  {
    UnboundExactly(useCase, goalsInput, 1, i => Round(None, Some("fine"), Some("9")), None, suffix);
  }
}

=== FILE: goal_text.dfy ===
/** The pure string helpers of the goal-setting code agent, shared by
    11_Goal_Setting_Iteration_3.py and 11_Goal_Setting_Iteration_4.py:
    fence stripping, the header comment, prompt assembly, goal splitting,
    confidence-score parsing, snake_case and the saved file's name. */
module GoalText {
  import opened Wrappers
  import opened Text

  const Fence := "```"

  // ---------------------------------------------------------------------
  // Lines and fences

  /** Index of the first line boundary of `s`, or `|s|`. */
  function LineEnd(s: string): (r: nat)
    ensures r <= |s|
    ensures NoLineBreak(s[..r])
    ensures r < |s| ==> IsLineBreak(s[r])
  {
    if s == [] || IsLineBreak(s[0]) then 0 else 1 + LineEnd(s[1..])
  }

  /** `s.splitlines()`: the lines without their boundaries. A `\r\n` pair is a
      single boundary, and a boundary at the very end opens no further line. */
  function SplitLines(s: string): (r: seq<string>)
    ensures forall i :: 0 <= i < |r| ==> NoLineBreak(r[i])
    ensures s != [] ==> |r| >= 1
    decreases |s|
  {
    if s == [] then []
    else
      var i := LineEnd(s);
      if i == |s| then (assert s[..i] == s; [s])
      else
        var width := if s[i] == '\r' && i + 1 < |s| && s[i + 1] == '\n' then 2 else 1;
        [s[..i]] + SplitLines(s[i + width..])
  }

  lemma LineEndAt(a: string, b: string)
    requires NoLineBreak(a)
    ensures LineEnd(a + "\n" + b) == |a|
  {
    var s := a + "\n" + b;
    assert s[|a|] == '\n';
    assert forall k :: 0 <= k < |a| ==> s[k] == a[k];
  }

  /** Splitting lines joined by "\n" gives them back, provided none holds a
      line boundary and the last one is not empty. */
  lemma {:induction false} SplitLinesJoin(lines: seq<string>)
    requires |lines| >= 1 && lines[|lines| - 1] != ""
    requires forall i :: 0 <= i < |lines| ==> NoLineBreak(lines[i])
    ensures SplitLines(Join('\n', lines)) == lines
    decreases |lines|
  {
    var p := lines[0];
    if |lines| == 1 {
      assert LineEnd(p) == |p|;
      assert p[..|p|] == p;
    } else {
      var rest := lines[1..];
      assert lines == [p] + rest;
      JoinCons('\n', p, rest);
      SplitLinesJoin(rest);
      SplitLinesStep(p, Join('\n', rest));
    }
  }

  /** A line followed by "\n" and more text splits off as the first line. */
  lemma SplitLinesStep(p: string, joined: string)
    requires NoLineBreak(p) && joined != ""
    ensures SplitLines(p + "\n" + joined) == [p] + SplitLines(joined)
  {
    var s := p + "\n" + joined;
    LineEndAt(p, joined);
    assert s[..|p|] == p;
    assert s[|p| + 1..] == joined;
  }

  /** Drops the first line when, stripped, it starts with "```". */
  function DropOpeningFence(lines: seq<string>): seq<string> {
    if |lines| > 0 && StartsWith(Strip(lines[0]), Fence) then lines[1..] else lines
  }

  /** Drops the last line when, stripped, it is exactly "```". */
  function DropClosingFence(lines: seq<string>): seq<string> {
    if |lines| > 0 && Strip(lines[|lines| - 1]) == Fence then lines[..|lines| - 1] else lines
  }

  /** `clean_code_block`: strips the text, drops the first line when it opens
      a fence and the last line when it is a closing fence, and strips again. */
  function CleanCodeBlock(code: string): (r: string)
    ensures Stripped(r)
  {
    Strip(Join('\n', DropClosingFence(DropOpeningFence(SplitLines(Strip(code))))))
  }

  lemma FencedJoin(first: string, body: seq<string>)
    requires |body| >= 1
    ensures Join('\n', [first] + body + [Fence]) == first + "\n" + Join('\n', body) + "\n" + Fence
  {
    JoinSnoc('\n', [first] + body, Fence);
    assert ([first] + body)[1..] == body;
  }

  lemma FenceLineUnbroken(info: string)
    requires NoLineBreak(info)
    ensures NoLineBreak(Fence + info) && NoLineBreak(Fence)
  {
    var first := Fence + info;
    forall k | 0 <= k < |first| ensures !IsLineBreak(first[k]) {
      if k >= 3 {
        assert first[k] == info[k - 3];
      }
    }
  }

  /** The fenced block splits into its fence line, its body lines and the
      closing fence. */
  lemma FencedSplit(info: string, body: seq<string>)
    requires NoLineBreak(info)
    requires |body| >= 1 && forall i :: 0 <= i < |body| ==> NoLineBreak(body[i])
    ensures SplitLines(Strip(Fence + info + "\n" + Join('\n', body) + "\n" + Fence))
            == [Fence + info] + body + [Fence]
  {
    var first := Fence + info;
    var lines := [first] + body + [Fence];
    FencedLinesUnbroken(info, body);
    SplitLinesJoin(lines);
    FencedJoin(first, body);
    FenceEnds(first, Join('\n', body));
  }

  lemma FencedLinesUnbroken(info: string, body: seq<string>)
    requires NoLineBreak(info)
    requires forall i :: 0 <= i < |body| ==> NoLineBreak(body[i])
    ensures forall i :: 0 <= i < |body| + 2 ==> NoLineBreak(([Fence + info] + body + [Fence])[i])
  {
    var lines := [Fence + info] + body + [Fence];
    FenceLineUnbroken(info);
    forall i | 0 <= i < |lines| ensures NoLineBreak(lines[i]) {
      if 0 < i < |lines| - 1 {
        assert lines[i] == body[i - 1];
      }
    }
  }

  lemma FenceEnds(first: string, text: string)
    requires |first| > 0 && first[0] == '`'
    ensures Strip(first + "\n" + text + "\n" + Fence) == first + "\n" + text + "\n" + Fence
  {
    var code := first + "\n" + text + "\n" + Fence;
    assert code[0] == '`' && code[|code| - 1] == '`';
  }

  /** A fenced block, "```" + info line, the body lines, then a closing "```",
      comes back as exactly its body when no line holds a line boundary and
      the body has no surrounding whitespace. */
  lemma CleanCodeBlockUnfences(info: string, body: seq<string>)
    requires NoLineBreak(info)
    requires |body| >= 1 && forall i :: 0 <= i < |body| ==> NoLineBreak(body[i])
    requires Stripped(Join('\n', body))
    ensures CleanCodeBlock(Fence + info + "\n" + Join('\n', body) + "\n" + Fence) == Join('\n', body)
  {
    FencedSplit(info, body);
    DropsBothFences(Fence + info, body);
  }

  /** Code with neither an opening nor a closing fence line comes back
      unchanged: only fence lines are ever dropped. */
  lemma CleanCodeBlockKeepsUnfenced(lines: seq<string>)
    requires |lines| >= 1 && lines[|lines| - 1] != ""
    requires forall i :: 0 <= i < |lines| ==> NoLineBreak(lines[i])
    requires Stripped(Join('\n', lines))
    requires !StartsWith(Strip(lines[0]), Fence) && Strip(lines[|lines| - 1]) != Fence
    ensures CleanCodeBlock(Join('\n', lines)) == Join('\n', lines)
  {
    var code := Join('\n', lines);
    assert Strip(code) == code;
    SplitLinesJoin(lines);
    assert DropOpeningFence(lines) == lines;
    assert DropClosingFence(lines) == lines;
  }

  /** A block with an opening fence line but no closing one loses just the
      fence line. */
  lemma CleanCodeBlockOpeningOnly(info: string, body: seq<string>)
    requires NoLineBreak(info)
    requires |body| >= 1 && body[|body| - 1] != ""
    requires forall i :: 0 <= i < |body| ==> NoLineBreak(body[i])
    requires Stripped(Join('\n', body)) && Strip(body[|body| - 1]) != Fence
    ensures CleanCodeBlock(Fence + info + "\n" + Join('\n', body)) == Join('\n', body)
  {
    JoinEndsWithLast('\n', body);
    OpenedEnds(Fence + info, Join('\n', body));
    OpenedSplit(info, body);
    DropsOpeningFence(Fence + info, body);
  }

  lemma OpenedSplit(info: string, body: seq<string>)
    requires NoLineBreak(info)
    requires |body| >= 1 && body[|body| - 1] != ""
    requires forall i :: 0 <= i < |body| ==> NoLineBreak(body[i])
    ensures SplitLines(Fence + info + "\n" + Join('\n', body)) == [Fence + info] + body
  {
    FenceLineUnbroken(info);
    SplitLinesJoin(body);
    JoinEndsWithLast('\n', body);
    SplitLinesStep(Fence + info, Join('\n', body));
  }

  lemma DropsOpeningFence(first: string, body: seq<string>)
    requires |first| >= 3 && first[..3] == Fence
    requires |body| >= 1 && Strip(body[|body| - 1]) != Fence
    ensures DropClosingFence(DropOpeningFence([first] + body)) == body
  {
    assert ([first] + body)[1..] == body;
    StripKeepsPrefix(first, 2);
  }

  /** A fence line followed by text that ends in a non-space: nothing to strip. */
  lemma OpenedEnds(first: string, text: string)
    requires |first| > 0 && first[0] == '`'
    requires |text| > 0 && !IsSpace(text[|text| - 1])
    ensures Strip(first + "\n" + text) == first + "\n" + text
  {
    var code := first + "\n" + text;
    assert code[0] == '`' && code[|code| - 1] == text[|text| - 1];
  }

  /** A block with a closing fence line but no opening one loses just the
      fence line. */
  lemma CleanCodeBlockClosingOnly(body: seq<string>)
    requires |body| >= 1 && forall i :: 0 <= i < |body| ==> NoLineBreak(body[i])
    requires Join('\n', body) != "" && Stripped(Join('\n', body))
    requires !StartsWith(Strip(body[0]), Fence)
    ensures CleanCodeBlock(Join('\n', body) + "\n" + Fence) == Join('\n', body)
  {
    ClosedEnds(Join('\n', body));
    ClosedSplit(body);
    DropsClosingFence(body);
  }

  lemma ClosedSplit(body: seq<string>)
    requires |body| >= 1 && forall i :: 0 <= i < |body| ==> NoLineBreak(body[i])
    ensures SplitLines(Join('\n', body) + "\n" + Fence) == body + [Fence]
  {
    FenceLineUnbroken("");
    assert Fence + "" == Fence;
    SplitLinesSnoc(body, Fence);
  }

  /** Splitting lines joined by "\n" and then one more non-empty line gives
      them all back. */
  lemma SplitLinesSnoc(lines: seq<string>, last: string)
    requires |lines| >= 1 && forall i :: 0 <= i < |lines| ==> NoLineBreak(lines[i])
    requires last != "" && NoLineBreak(last)
    ensures SplitLines(Join('\n', lines) + "\n" + last) == lines + [last]
  {
    LinesUnbroken(lines, [last]);
    SplitLinesJoin(lines + [last]);
    JoinSnoc('\n', lines, last);
  }

  lemma DropsClosingFence(body: seq<string>)
    requires |body| >= 1 && !StartsWith(Strip(body[0]), Fence)
    ensures DropClosingFence(DropOpeningFence(body + [Fence])) == body
  {
    var lines := body + [Fence];
    assert lines[0] == body[0];
    assert lines[..|body|] == body;
  }

  /** Text that begins with a non-space, then a closing fence line: nothing to strip. */
  lemma ClosedEnds(text: string)
    requires |text| > 0 && !IsSpace(text[0])
    ensures Strip(text + "\n" + Fence) == text + "\n" + Fence
  {
    var code := text + "\n" + Fence;
    assert code[0] == text[0] && code[|code| - 1] == '`';
  }

  lemma LinesUnbroken(a: seq<string>, b: seq<string>)
    requires forall i :: 0 <= i < |a| ==> NoLineBreak(a[i])
    requires forall i :: 0 <= i < |b| ==> NoLineBreak(b[i])
    ensures forall i :: 0 <= i < |a + b| ==> NoLineBreak((a + b)[i])
  {
    forall i | 0 <= i < |a + b| ensures NoLineBreak((a + b)[i]) {
      if i >= |a| {
        assert (a + b)[i] == b[i - |a|];
      }
    }
  }

  lemma DropsBothFences(first: string, body: seq<string>)
    requires |first| >= 3 && first[..3] == Fence
    ensures DropClosingFence(DropOpeningFence([first] + body + [Fence])) == body
  {
    var lines := [first] + body + [Fence];
    assert lines[1..] == body + [Fence];
    assert (body + [Fence])[..|body|] == body;
    StripKeepsPrefix(first, 2);
    assert DropOpeningFence(lines) == body + [Fence];
  }

  // ---------------------------------------------------------------------
  // Header comment

  const HeaderLine := "# This Python program implements the following use case:\n"

  /** `add_comment_header`: the fixed first line, the stripped use case as a
      comment line, a blank line, then the code unchanged. */
  function AddCommentHeader(code: string, useCase: string): (r: string)
    ensures StartsWith(r, HeaderLine + "# ")
    ensures EndsWith(r, code)
  {
    var lead := HeaderLine + "# ";
    var tail := Strip(useCase) + "\n\n" + code;
    var r := lead + tail;
    assert r[..|lead|] == lead;
    assert r[|r| - |code|..] == tail[|tail| - |code|..] == code;
    r
  }

  /** Reads the use case and the code back from a file that carries the header. */
  function ReadCommentHeader(text: string): Option<(string, string)> {
    var lead := HeaderLine + "# ";
    if !StartsWith(text, lead) then None
    else
      var rest := text[|lead|..];
      var i := IndexOf(rest, '\n');
      if i + 1 < |rest| && rest[i + 1] == '\n' then Some((rest[..i], rest[i + 2..])) else None
  }

  /** The header can be read back: it records the stripped use case, and the
      code follows it unchanged. */
  lemma HeaderRoundTrip(code: string, useCase: string)
    requires '\n' !in Strip(useCase)
    ensures ReadCommentHeader(AddCommentHeader(code, useCase)) == Some((Strip(useCase), code))
  {
    var lead := HeaderLine + "# ";
    var u := Strip(useCase);
    var text := AddCommentHeader(code, useCase);
    var rest := u + ['\n'] + ("\n" + code);
    assert text == lead + rest;
    assert text[|lead|..] == rest;
    IndexOfAfter(u, '\n', "\n" + code);
    assert rest[..|u|] == u;
    assert rest[|u| + 2..] == code;
  }

  // ---------------------------------------------------------------------
  // Prompt assembly

  const Intro := "You are an AI coding agent. Your job is to write Python code based on the following use case:"
  const PreviousMarker := "\nPreviously generated code:\n"
  const FeedbackMarker := "\nFeedback on previous version:\n"
  const Closing := "\nPlease return only the revised Python code. Do not include comments or explanations outside the code."

  /** One bullet "- " + stripped goal per goal. */
  function GoalBullets(goals: seq<string>): (r: seq<string>)
    ensures |r| == |goals|
  {
    seq(|goals|, i requires 0 <= i < |goals| => "- " + Strip(goals[i]))
  }

  /** `chr(10).join(f"- {g.strip()}" for g in goals)`. */
  function GoalLines(goals: seq<string>): string {
    Join('\n', GoalBullets(goals))
  }

  /** The goal lines can be read back one per goal, each as "- " + the stripped
      goal, when no stripped goal holds a newline. */
  lemma GoalLinesReadBack(goals: seq<string>)
    requires |goals| >= 1
    requires forall i :: 0 <= i < |goals| ==> '\n' !in Strip(goals[i])
    ensures |Split(GoalLines(goals), '\n')| == |goals|
    ensures forall i :: 0 <= i < |goals| ==> Split(GoalLines(goals), '\n')[i] == "- " + Strip(goals[i])
  {
    var bullets := GoalBullets(goals);
    forall i | 0 <= i < |bullets| ensures '\n' !in bullets[i] {
      assert bullets[i] == "- " + Strip(goals[i]);
    }
    SplitJoin(bullets, '\n');
  }

  /** The prompt text up to the optional sections. */
  function PromptHead(indent: string, useCase: string, goals: seq<string>): string {
    "\n" + indent + Intro + "\n\n" + indent + "Use Case: " + useCase + "\n\n"
    + indent + "Your goals are:\n" + indent + GoalLines(goals) + "\n" + indent
  }

  /** `generate_prompt`: the head built from the use case and the goals,
      then the optional sections and the closing request. `indent` is the
      template's indentation: "" in iteration 3, four spaces in iteration 4,
      whose triple-quoted string is indented. */
  function GeneratePrompt(indent: string, useCase: string, goals: seq<string>,
                          previousCode: string, feedback: string): (r: string)
    ensures StartsWith(r, PromptHead(indent, useCase, goals))
    ensures EndsWith(r, Closing)
  {
    PromptAfter(PromptHead(indent, useCase, goals), previousCode, feedback)
  }

  /** The prompt after a given head: a previous-code section exactly when
      `previousCode` is non-empty, a feedback section exactly when `feedback`
      is non-empty, and always the closing request. */
  function PromptAfter(head: string, previousCode: string, feedback: string): (r: string)
    ensures StartsWith(r, head)
    ensures EndsWith(r, Closing)
    ensures |r| == |head|
                   + (if previousCode != "" then |PreviousMarker| + |previousCode| else 0)
                   + (if feedback != "" then |FeedbackMarker| + |feedback| + 1 else 0)
                   + |Closing|
    ensures previousCode != "" ==>
      r[|head|..|head| + |PreviousMarker| + |previousCode|] == PreviousMarker + previousCode
    ensures feedback != "" ==>
      var e := |r| - |Closing|;
      r[e - |FeedbackMarker| - |feedback| - 1..e] == FeedbackMarker + feedback + "\n"
  {
    var codeSection := if previousCode != "" then PreviousMarker + previousCode else "";
    var feedbackSection := if feedback != "" then FeedbackMarker + feedback + "\n" else "";
    Assemble(head, codeSection, feedbackSection, Closing)
  }

  /** Four pieces laid end to end, each one recoverable by position. */
  function Assemble(head: string, codeSection: string, feedbackSection: string, closing: string): (r: string)
    ensures |r| == |head| + |codeSection| + |feedbackSection| + |closing|
    ensures r[..|head|] == head
    ensures r[|head|..|head| + |codeSection|] == codeSection
    ensures r[|r| - |closing|..] == closing
    ensures r[|r| - |closing| - |feedbackSection|..|r| - |closing|] == feedbackSection
  {
    var r := head + codeSection + feedbackSection + closing;
    assert r[..|head|] == head;
    assert r[|head|..|head| + |codeSection|] == codeSection;
    assert r[|r| - |closing|..] == closing;
    assert r[|r| - |closing| - |feedbackSection|..|r| - |closing|] == feedbackSection;
    r
  }

  // ---------------------------------------------------------------------
  // Goals and confidence scores

  /** `[g.strip() for g in goals_input.split(",")]`: one goal more than there
      are commas, each stripped and comma-free. */
  function ParseGoals(goalsInput: string): (goals: seq<string>)
    ensures |goals| == multiset(goalsInput)[','] + 1
    ensures forall i :: 0 <= i < |goals| ==> Stripped(goals[i]) && ',' !in goals[i]
  {
    var parts := Split(goalsInput, ',');
    SplitCount(goalsInput, ',');
    forall i | 0 <= i < |parts| ensures ',' !in Strip(parts[i]) {
      StripLacks(parts[i], ',');
    }
    seq(|parts|, i requires 0 <= i < |parts| => Strip(parts[i]))
  }

  /** Goals that are stripped and comma-free come back from their
      comma-joined text one for one. */
  lemma ParseGoalsJoin(goals: seq<string>)
    requires |goals| >= 1
    requires forall i :: 0 <= i < |goals| ==> Stripped(goals[i]) && ',' !in goals[i]
    ensures ParseGoals(Join(',', goals)) == goals
  {
    SplitJoin(goals, ',');
  }

  /** Index of the first digit of `s`, or `|s|`. */
  function DigitStart(s: string): (r: nat)
    ensures r <= |s|
    ensures forall k :: 0 <= k < r ==> !IsDigit(s[k])
    ensures r < |s| ==> IsDigit(s[r])
  {
    if s == [] || IsDigit(s[0]) then 0 else 1 + DigitStart(s[1..])
  }

  /** The longest prefix of `s` made of digits. */
  function LeadingDigits(s: string): (r: string)
    ensures |r| <= |s| && r == s[..|r|] && AllDigits(r)
    ensures |r| < |s| ==> !IsDigit(s[|r|])
  {
    if s == [] || !IsDigit(s[0]) then [] else [s[0]] + LeadingDigits(s[1..])
  }

  lemma {:induction false} LeadingDigitsOf(d: string, suffix: string)
    requires AllDigits(d)
    requires suffix == [] || !IsDigit(suffix[0])
    ensures LeadingDigits(d + suffix) == d
  {
    if d != [] {
      assert (d + suffix)[1..] == d[1..] + suffix;
      LeadingDigitsOf(d[1..], suffix);
    } else {
      assert d + suffix == suffix;
    }
  }

  /** `re.search(r"\d+", s)`: the first maximal run of digits, if there is one. */
  function FirstDigitRun(s: string): (r: Option<string>)
    ensures r.None? <==> forall k :: 0 <= k < |s| ==> !IsDigit(s[k])
    ensures r.Some? ==> |r.value| >= 1 && AllDigits(r.value)
  {
    var i := DigitStart(s);
    if i == |s| then None else Some(LeadingDigits(s[i..]))
  }

  /** `int(re.search(r"\d+", s).group())`, or None where Python raises. */
  function ParseScore(s: string): Option<nat> {
    match FirstDigitRun(s)
    case None => None
    case Some(d) => Some(DecimalValue(d))
  }

  /** A number written after digit-free text and before a non-digit is the
      score read back. */
  lemma ScoreReadBack(prefix: string, score: nat, suffix: string)
    requires forall k :: 0 <= k < |prefix| ==> !IsDigit(prefix[k])
    requires suffix == [] || !IsDigit(suffix[0])
    ensures ParseScore(prefix + Decimal(score) + suffix) == Some(score)
  {
    var d := Decimal(score);
    var s := prefix + d + suffix;
    assert forall k :: 0 <= k < |prefix| ==> s[k] == prefix[k];
    assert s[|prefix|] == d[0];
    assert DigitStart(s) == |prefix|;
    var t := s[|prefix|..];
    assert t == d + suffix;
    LeadingDigitsOf(d, suffix);
    var run := LeadingDigits(t);
    assert run == d;
    DecimalRoundTrip(score);
  }

  /** `goals_met` of iteration 4: no reply gives (False, 0); otherwise the
      score is the first number in the stripped reply, (False, 0) when there
      is none, and the goals are met exactly when the score is at least 8. */
  function Verdict(reply: Option<string>): (r: (bool, nat))
    ensures r.0 <==> r.1 >= 8
    ensures reply.None? ==> r == (false, 0)
    ensures reply.Some? ==>
      match ParseScore(Strip(reply.value))
      case None => r == (false, 0)
      case Some(k) => r.1 == k
  {
    if reply.None? then (false, 0)
    else
      match ParseScore(Strip(reply.value))
      case None => (false, 0)
      case Some(k) => (k >= 8, k)
  }

  /** `goals_met` of iteration 3, which only returns the boolean. */
  function GoalsMet(reply: string): (met: bool)
    ensures met <==> ParseScore(Strip(reply)).Some? && ParseScore(Strip(reply)).value >= 8
  {
    Verdict(Some(reply)).0
  }

  // ---------------------------------------------------------------------
  // Names

  predicate IsSnakeChar(c: char) {
    IsLowerLetter(c) || IsDigit(c) || c == '_'
  }

  predicate AlnumOrSpace(c: char) {
    IsAsciiAlnum(c) || c == ' '
  }

  predicate NotSpace(c: char) {
    !IsSpace(c)
  }

  predicate NotUnderscore(c: char) {
    c != '_'
  }

  /** A snake_case name: only [a-z0-9_], no '_' at either end, no "__". */
  predicate SnakeShaped(r: string) {
    && (forall i :: 0 <= i < |r| ==> IsSnakeChar(r[i]))
    && (r == [] || (r[0] != '_' && r[|r| - 1] != '_'))
    && forall i :: 0 <= i < |r| - 1 ==> !(r[i] == '_' && r[i + 1] == '_')
  }

  /** `re.sub(r"\s+", "_", s)`: every maximal whitespace run becomes one '_'. */
  function Underscored(s: string): (r: string)
    ensures s != [] ==> r != [] && r[0] == (if IsSpace(s[0]) then '_' else s[0])
    ensures s != [] && !IsSpace(s[|s| - 1]) ==> r[|r| - 1] == s[|s| - 1]
    ensures (forall i :: 0 <= i < |s| ==> s[i] != '_') ==>
      forall i :: 0 <= i < |r| - 1 ==> !(r[i] == '_' && r[i + 1] == '_')
    ensures (forall i :: 0 <= i < |s| ==> IsSpace(s[i]) || IsSnakeChar(s[i])) ==>
      forall i :: 0 <= i < |r| ==> IsSnakeChar(r[i])
    decreases |s|
  {
    if s == [] then []
    else if IsSpace(s[0]) then
      var t := s[LeadingSpaces(s)..];
      assert |t| < |s|;
      "_" + Underscored(t)
    else
      assert forall i :: 0 <= i < |s| - 1 ==> s[1..][i] == s[i + 1];
      [s[0]] + Underscored(s[1..])
  }

  /** A whitespace run between two words becomes exactly one '_', and the
      text on either side is substituted on its own. */
  lemma {:induction false} UnderscoredRun(a: string, w: string, b: string)
    requires w != [] && AllSpace(w)
    requires a == [] || !IsSpace(a[|a| - 1])
    requires b == [] || !IsSpace(b[0])
    ensures Underscored(a + w + b) == Underscored(a) + "_" + Underscored(b)
    decreases |a|
  {
    if a == [] {
      assert a + w + b == w + b;
      UnderscoredSpacesFirst(w, b);
      EmptyHead(Underscored(b));
    } else {
      var t := w + b;
      Assoc(a, w, b);
      Unit(a);
      if IsSpace(a[0]) {
        var rest := a[LeadingSpaces(a)..];
        assert rest[|rest| - 1] == a[|a| - 1];
        UnderscoredSpaceHead(a, t);
        UnderscoredSpaceHead(a, []);
        Assoc(rest, w, b);
        UnderscoredRun(rest, w, b);
        Regroup("_", Underscored(rest), Underscored(b));
      } else {
        UnderscoredWordHead(a, t);
        UnderscoredWordHead(a, []);
        Assoc(a[1..], w, b);
        UnderscoredRun(a[1..], w, b);
        Regroup([a[0]], Underscored(a[1..]), Underscored(b));
      }
    }
  }

  lemma UnderscoredSpacesFirst(w: string, b: string)
    requires w != [] && AllSpace(w)
    requires b == [] || !IsSpace(b[0])
    ensures Underscored(w + b) == "_" + Underscored(b)
  {
    LeadingSpacesAfter(w, b);
    assert (w + b)[|w|..] == b;
  }

  lemma UnderscoredSpaceHead(a: string, t: string)
    requires a != [] && IsSpace(a[0]) && LeadingSpaces(a) < |a|
    ensures Underscored(a + t) == "_" + Underscored(a[LeadingSpaces(a)..] + t)
  {
    LeadingSpacesBefore(a, t);
    assert (a + t)[LeadingSpaces(a)..] == a[LeadingSpaces(a)..] + t;
  }

  lemma UnderscoredWordHead(a: string, t: string)
    requires a != [] && !IsSpace(a[0])
    ensures Underscored(a + t) == [a[0]] + Underscored(a[1..] + t)
  {
    assert (a + t)[1..] == a[1..] + t;
  }

  lemma EmptyHead(x: string)
    ensures Underscored([]) + "_" + x == "_" + x
  {
  }

  lemma Regroup(head: string, x: string, y: string)
    ensures head + (x + "_" + y) == head + x + "_" + y
  {
  }

  /** `to_snake_case` (iteration 3): keeps [a-zA-Z0-9 ], strips, lower-cases
      and turns each run of spaces into one '_'. */
  function ToSnakeCase(text: string): (r: string)
    ensures SnakeShaped(r)
  {
    var s := Lower(Strip(Filter(text, AlnumOrSpace)));
    SnakeInput(text);
    Underscored(s)
  }

  /** A character of a snake_case word: a lower-case letter or a digit. */
  predicate IsWordChar(c: char) {
    IsLowerLetter(c) || IsDigit(c)
  }

  predicate WordCharOrSpace(c: char) {
    IsWordChar(c) || c == ' '
  }

  /** Words without whitespace, joined by single spaces, come out joined by
      single underscores. */
  lemma {:induction false} UnderscoredJoin(words: seq<string>)
    requires |words| >= 1
    requires forall i :: 0 <= i < |words| ==> words[i] != [] && NoSpaceIn(words[i])
    ensures Underscored(Join(' ', words)) == Join('_', words)
    decreases |words|
  {
    var w := words[0];
    if |words| == 1 {
      UnderscoredWord(w);
    } else {
      var rest := words[1..];
      assert words == [w] + rest;
      JoinCons(' ', w, rest);
      JoinCons('_', w, rest);
      JoinStartsWithFirst(' ', rest);
      assert rest[0] == words[1];
      UnderscoredRun(w, " ", Join(' ', rest));
      UnderscoredWord(w);
      UnderscoredJoin(rest);
    }
  }

  predicate NoSpaceIn(w: string) {
    forall k :: 0 <= k < |w| ==> !IsSpace(w[k])
  }

  /** Text without whitespace passes through unchanged. */
  lemma {:induction false} UnderscoredWord(w: string)
    requires NoSpaceIn(w)
    ensures Underscored(w) == w
    decreases |w|
  {
    if w != [] {
      UnderscoredWordHead(w, []);
      Unit(w);
      Unit(w[1..]);
      UnderscoredWord(w[1..]);
    }
  }

  /** `to_snake_case` of lower-case words joined by single spaces joins them
      by single underscores instead. */
  lemma SnakeCaseOfWords(words: seq<string>)
    requires |words| >= 1
    requires forall i :: 0 <= i < |words| ==>
      words[i] != [] && forall k :: 0 <= k < |words[i]| ==> IsWordChar(words[i][k])
    ensures ToSnakeCase(Join(' ', words)) == Join('_', words)
  {
    JoinKeeps(' ', words, WordCharOrSpace);
    JoinedWordsStripped(words);
    CleanSnakeInput(Join(' ', words));
    UnderscoredJoin(words);
  }

  lemma JoinedWordsStripped(words: seq<string>)
    requires |words| >= 1
    requires forall i :: 0 <= i < |words| ==>
      words[i] != [] && forall k :: 0 <= k < |words[i]| ==> IsWordChar(words[i][k])
    ensures Stripped(Join(' ', words))
  {
    var text := Join(' ', words);
    var last := words[|words| - 1];
    JoinStartsWithFirst(' ', words);
    JoinEndsWithLast(' ', words);
    assert text[0] == words[0][0];
    assert text[|text| - 1] == last[|last| - 1];
  }

  /** Text already made of lower-case words and single spaces, with none at
      the ends, reaches the whitespace substitution unchanged. */
  lemma CleanSnakeInput(text: string)
    requires Stripped(text)
    requires forall k :: 0 <= k < |text| ==> WordCharOrSpace(text[k])
    ensures Lower(Strip(Filter(text, AlnumOrSpace))) == text
  {
    assert forall k :: 0 <= k < |text| ==> !IsUpper(text[k]);
    assert forall k :: 0 <= k < |text| ==> AlnumOrSpace(text[k]);
    FilterAll(text, AlnumOrSpace);
    LowerFixed(text);
  }

  lemma LowerFixed(s: string)
    requires forall k :: 0 <= k < |s| ==> !IsUpper(s[k])
    ensures Lower(s) == s
  {
  }

  lemma LowerCharClass(c: char)
    requires AlnumOrSpace(c)
    ensures LowerChar(c) != '_' && (IsSpace(LowerChar(c)) || IsSnakeChar(LowerChar(c)))
    ensures IsSpace(LowerChar(c)) <==> IsSpace(c)
  {
  }

  /** What reaches the whitespace substitution has no '_' and only spaces,
      lower-case letters and digits. */
  lemma SnakeInput(text: string)
    ensures var s := Lower(Strip(Filter(text, AlnumOrSpace)));
      && Stripped(s)
      && forall i :: 0 <= i < |s| ==> s[i] != '_' && (IsSpace(s[i]) || IsSnakeChar(s[i]))
  {
    var kept := Filter(text, AlnumOrSpace);
    var a := StripIsSlice(kept);
    var stripped := Strip(kept);
    var s := Lower(stripped);
    forall i | 0 <= i < |s|
      ensures s[i] != '_' && (IsSpace(s[i]) || IsSnakeChar(s[i])) && (IsSpace(s[i]) <==> IsSpace(stripped[i]))
    {
      assert stripped[i] == kept[a + i];
      LowerCharClass(stripped[i]);
    }
  }

  /** Replacing whitespace runs by '_' loses nothing but the whitespace. */
  lemma {:induction false} UnderscoredKeepsWords(s: string)
    requires forall i :: 0 <= i < |s| ==> s[i] != '_'
    ensures Filter(Underscored(s), NotUnderscore) == Filter(s, NotSpace)
    decreases |s|
  {
    if s != [] {
      if IsSpace(s[0]) {
        var m := LeadingSpaces(s);
        var t := s[m..];
        assert forall i :: 0 <= i < |t| ==> t[i] == s[m + i];
        UnderscoredKeepsWords(t);
        UnderscoreHeadDropped(Underscored(t));
        LeadingSpacesHaveNoWords(s);
      } else {
        assert forall i :: 0 <= i < |s| - 1 ==> s[1..][i] == s[i + 1];
        UnderscoredKeepsWords(s[1..]);
      }
    }
  }

  lemma UnderscoreHeadDropped(u: string)
    ensures Filter("_" + u, NotUnderscore) == Filter(u, NotUnderscore)
  {
    assert ("_" + u)[1..] == u;
  }

  lemma LeadingSpacesHaveNoWords(s: string)
    ensures Filter(s[LeadingSpaces(s)..], NotSpace) == Filter(s, NotSpace)
  {
    var m := LeadingSpaces(s);
    assert s == s[..m] + s[m..];
    FilterAppend(s[..m], s[m..], NotSpace);
    SpacesHaveNoWords(s[..m]);
  }

  /** Filtering commutes with lower-casing for a test that ignores case. */
  lemma {:induction false} FilterLower(s: string, keep: char -> bool)
    requires forall c :: keep(LowerChar(c)) == keep(c)
    ensures Filter(Lower(s), keep) == Lower(Filter(s, keep))
  {
    if s != [] {
      var ls := Lower(s);
      var tail := s[1..];
      assert ls[1..] == Lower(tail);
      FilterLower(tail, keep);
      var head: string := if keep(s[0]) then [s[0]] else [];
      var rest := Filter(tail, keep);
      assert Filter(s, keep) == head + rest;
      assert keep(ls[0]) == keep(s[0]);
      assert Filter(ls, keep) == Lower(head) + Filter(Lower(tail), keep);
      LowerAppend(head, rest);
    }
  }

  lemma LowerAppend(a: string, b: string)
    ensures Lower(a + b) == Lower(a) + Lower(b)
  {
  }

  lemma SpacesHaveNoWords(s: string)
    requires AllSpace(s)
    ensures Filter(s, NotSpace) == []
  {
    assert forall i :: 0 <= i < |s| ==> !NotSpace(s[i]);
    FilterNone(s, NotSpace);
  }

  /** Cutting whitespace off both ends of a string keeps all of its words. */
  lemma SliceKeepsWords(s: string, a: nat, b: nat)
    requires a <= b <= |s|
    requires AllSpace(s[..a]) && AllSpace(s[b..])
    ensures Filter(s[a..b], NotSpace) == Filter(s, NotSpace)
  {
    var p := s[..b];
    assert p[..a] == s[..a] && p[a..] == s[a..b];
    DropSpacesFront(p, a);
    SpacesHaveNoWords(s[b..]);
    FilterSplit(s, b, NotSpace);
    Unit(Filter(p, NotSpace));
  }

  /** Whitespace at the front of a string holds none of its words. */
  lemma DropSpacesFront(p: string, a: nat)
    requires a <= |p| && AllSpace(p[..a])
    ensures Filter(p[a..], NotSpace) == Filter(p, NotSpace)
  {
    FilterSplit(p, a, NotSpace);
    SpacesHaveNoWords(p[..a]);
  }

  lemma StripKeepsWords(s: string)
    ensures Filter(Strip(s), NotSpace) == Filter(s, NotSpace)
  {
    var a := StripIsSlice(s);
    SliceKeepsWords(s, a, a + |Strip(s)|);
  }

  lemma {:induction false} AlnumAfterSpaceFilter(text: string)
    ensures Filter(Filter(text, AlnumOrSpace), NotSpace) == Filter(text, IsAsciiAlnum)
  {
    if text != [] {
      AlnumAfterSpaceFilter(text[1..]);
      var head := if AlnumOrSpace(text[0]) then [text[0]] else [];
      assert Filter(text, AlnumOrSpace) == head + Filter(text[1..], AlnumOrSpace);
      FilterAppend(head, Filter(text[1..], AlnumOrSpace), NotSpace);
    }
  }

  /** `to_snake_case` loses only what it promises to: removing the '_' from
      its result leaves exactly the input's letters and digits, lower-cased
      and in order. */
  lemma SnakeCaseKeepsAlnum(text: string)
    ensures Filter(ToSnakeCase(text), NotUnderscore) == Lower(Filter(text, IsAsciiAlnum))
  {
    var kept := Filter(text, AlnumOrSpace);
    var s := Lower(Strip(kept));
    SnakeInput(text);
    UnderscoredKeepsWords(s);
    FilterLower(Strip(kept), NotSpace);
    StripKeepsWords(kept);
    AlnumAfterSpaceFilter(text);
  }

  predicate NotUpper(c: char) {
    !IsUpper(c)
  }

  /** The regular-expression class `[a-zA-Z0-9_]`. */
  predicate IsStemChar(c: char) {
    IsAsciiAlnum(c) || c == '_'
  }

  /** `s.replace(" ", "_")`. */
  function SpacesToUnderscores(s: string): (r: string)
    ensures |r| == |s|
    ensures forall i :: 0 <= i < |s| ==> r[i] == if s[i] == ' ' then '_' else s[i]
  {
    seq(|s|, i requires 0 <= i < |s| => if s[i] == ' ' then '_' else s[i])
  }

  /** The file stem that `save_code_to_file` derives from the summary reply:
      stripped, spaces turned to '_', lower-cased, reduced to [a-zA-Z0-9_] and
      cut to 10 characters, so at most 10 characters of [a-z0-9_]. */
  function SummaryStem(summary: string): (r: string)
    ensures |r| <= 10
    ensures forall i :: 0 <= i < |r| ==> IsSnakeChar(r[i])
  {
    var lowered := Lower(SpacesToUnderscores(Strip(summary)));
    var kept := Filter(lowered, IsStemChar);
    FilterPreserves(lowered, IsStemChar, NotUpper);
    if |kept| <= 10 then kept else kept[..10]
  }

  /** The stem loses only what it promises to: without its '_' it is the
      start of the summary's letters and digits, lower-cased and in order,
      and all of them when the stem was not cut to 10 characters. */
  lemma StemKeepsAlnum(summary: string)
    ensures Filter(SummaryStem(summary), NotUnderscore) <= Lower(Filter(Strip(summary), IsAsciiAlnum))
    ensures |SummaryStem(summary)| < 10 ==>
      Filter(SummaryStem(summary), NotUnderscore) == Lower(Filter(Strip(summary), IsAsciiAlnum))
  {
    var t := Strip(summary);
    var u := SpacesToUnderscores(t);
    var kept := Filter(Lower(u), IsStemChar);
    StemCharsThenAlnum(Lower(u));
    LowerKeepsAlnum();
    FilterLower(u, IsAsciiAlnum);
    UnderscoresNotAlnum(t);
    if |kept| > 10 {
      FilterPrefix(kept, 10, NotUnderscore);
    }
  }

  lemma LowerKeepsAlnum()
    ensures forall c :: IsAsciiAlnum(LowerChar(c)) == IsAsciiAlnum(c)
  {
  }

  /** Keeping [a-zA-Z0-9_] and then dropping '_' keeps [a-zA-Z0-9]. */
  lemma {:induction false} StemCharsThenAlnum(s: string)
    ensures Filter(Filter(s, IsStemChar), NotUnderscore) == Filter(s, IsAsciiAlnum)
  {
    if s != [] {
      StemCharsThenAlnum(s[1..]);
      var head := if IsStemChar(s[0]) then [s[0]] else [];
      assert Filter(s, IsStemChar) == head + Filter(s[1..], IsStemChar);
      FilterAppend(head, Filter(s[1..], IsStemChar), NotUnderscore);
    }
  }

  /** Turning spaces into '_' changes no letter or digit. */
  lemma {:induction false} UnderscoresNotAlnum(s: string)
    ensures Filter(SpacesToUnderscores(s), IsAsciiAlnum) == Filter(s, IsAsciiAlnum)
  {
    if s != [] {
      var u := SpacesToUnderscores(s);
      assert u[1..] == SpacesToUnderscores(s[1..]);
      UnderscoresNotAlnum(s[1..]);
    }
  }

  /** A summary of lower-case words and single spaces, ten characters at
      most, becomes the stem with each space replaced by '_'. */
  lemma StemOfWords(words: seq<string>)
    requires |words| >= 1
    requires forall i :: 0 <= i < |words| ==>
      words[i] != [] && forall k :: 0 <= k < |words[i]| ==> IsWordChar(words[i][k])
    requires |Join(' ', words)| <= 10
    ensures SummaryStem(Join(' ', words)) == Join('_', words)
  {
    var text := Join(' ', words);
    var joined := Join('_', words);
    JoinedWordsStripped(words);
    SpacesToUnderscoresJoin(words);
    JoinKeeps('_', words, IsSnakeChar);
    LowerFixed(joined);
    FilterAll(joined, IsStemChar);
  }

  /** Replacing the spaces of space-joined words joins them by '_'. */
  lemma {:induction false} SpacesToUnderscoresJoin(words: seq<string>)
    requires |words| >= 1
    requires forall i :: 0 <= i < |words| ==>
      forall k :: 0 <= k < |words[i]| ==> IsWordChar(words[i][k])
    ensures SpacesToUnderscores(Join(' ', words)) == Join('_', words)
    decreases |words|
  {
    var w := words[0];
    if |words| == 1 {
      WordKeepsSpaces(w);
    } else {
      var rest := words[1..];
      assert words == [w] + rest;
      JoinCons(' ', w, rest);
      JoinCons('_', w, rest);
      WordKeepsSpaces(w);
      SpacesToUnderscoresJoin(rest);
      SpacesToUnderscoresAppend(w + " ", Join(' ', rest));
      SpacesToUnderscoresAppend(w, " ");
    }
  }

  lemma WordKeepsSpaces(w: string)
    requires forall k :: 0 <= k < |w| ==> IsWordChar(w[k])
    ensures SpacesToUnderscores(w) == w
  {
  }

  lemma SpacesToUnderscoresAppend(a: string, b: string)
    ensures SpacesToUnderscores(a + b) == SpacesToUnderscores(a) + SpacesToUnderscores(b)
  {
  }

  const FallbackStem := "autogen"

  /** Iteration 4's stem: "autogen" when the summary call failed. */
  function FileStem(summary: Option<string>): (r: string)
    ensures |r| <= 10
    ensures forall i :: 0 <= i < |r| ==> IsSnakeChar(r[i])
    ensures summary.None? ==> r == FallbackStem
    ensures summary.Some? ==>
      Filter(r, NotUnderscore) <= Lower(Filter(Strip(summary.value), IsAsciiAlnum))
  {
    match summary
    case None => FallbackStem
    case Some(s) =>
      StemKeepsAlnum(s);
      SummaryStem(s)
  }

  /** A name that is already a stem is its own stem: the clean-up only removes
      what a stem cannot hold, so applying it twice changes nothing. */
  lemma StemFixedPoint(stem: string)
    requires |stem| <= 10
    requires forall i :: 0 <= i < |stem| ==> IsSnakeChar(stem[i])
    ensures SummaryStem(stem) == stem
  {
    assert Strip(stem) == stem;
    assert SpacesToUnderscores(stem) == stem;
    assert Lower(stem) == stem;
    FilterAll(stem, IsStemChar);
  }

  lemma StemIdempotent(summary: string)
    ensures SummaryStem(SummaryStem(summary)) == SummaryStem(summary)
  {
    StemFixedPoint(SummaryStem(summary));
  }

  /** The saved file's name: stem, '_', the four-digit random suffix, ".py". */
  function FileName(stem: string, suffix: int): string
    requires 1000 <= suffix <= 9999
  {
    stem + "_" + Decimal(suffix) + ".py"
  }

  /** Reads the stem and the suffix back from a file name. */
  function ReadFileName(name: string): Option<(string, nat)> {
    var n := |name|;
    if n >= 8 && name[n - 3..] == ".py" && name[n - 8] == '_' && AllDigits(name[n - 7..n - 3])
    then Some((name[..n - 8], DecimalValue(name[n - 7..n - 3])))
    else None
  }

  /** The file name determines the stem and the suffix it was made from. */
  lemma FileNameRoundTrip(stem: string, suffix: int)
    requires 1000 <= suffix <= 9999
    ensures ReadFileName(FileName(stem, suffix)) == Some((stem, suffix))
  {
    var digits := Decimal(suffix);
    FourDigits(suffix);
    DecimalRoundTrip(suffix);
    var name := FileName(stem, suffix);
    var n := |name|;
    assert n == |stem| + 8;
    assert name[n - 3..] == ".py";
    assert name[n - 8] == '_';
    assert name[n - 7..n - 3] == digits;
    assert name[..n - 8] == stem;
  }
}

=== FILE: image_url.dfy ===
/** The path and MIME logic of tools/metadata_extractor.py: the extension
    test of `ensure_supported_format`, the ".jpg" name it gives a converted
    image, the subtype and data URL of `image_to_base64` (the `data:` URL of
    section 3 of RFC 2397 with a base64 payload), and the choice between a
    local file and a remote URL. Paths are POSIX paths. */
module ImageUrl {
  import opened Wrappers
  import opened Text
  import opened Base64

  // ---------------------------------------------------------------------
  // `os.path.splitext`

  /** Every character is '.' (so is the empty text). */
  predicate AllDots(s: string)
    decreases |s|
  {
    s == [] || (s[0] == '.' && AllDots(s[1..]))
  }

  /** The directory part of a path: everything through its last '/'. */
  function Directory(p: string): (r: string)
    ensures StartsWith(p, r)
    ensures '/' !in p[|r|..]
  {
    p[..RFind(p, '/') + 1]
  }

  /** The last path component. */
  function FileName(p: string): (r: string)
    ensures Directory(p) + r == p
  {
    p[|Directory(p)|..]
  }

  /** A last component that is more than dots: one that can carry an extension. */
  predicate HasFileName(p: string) {
    !AllDots(FileName(p))
  }

  /** A '.' followed by anything but '.' and '/'. */
  predicate IsExtension(e: string) {
    |e| >= 1 && e[0] == '.' && '.' !in e[1..] && '/' !in e
  }

  /** `posixpath.splitext`: the extension starts at the last '.' of the last
      path component, unless everything before that dot in the component is
      dots too (a hidden file like ".bashrc" has no extension). */
  function SplitExt(p: string): (r: (string, string))
    ensures r.0 + r.1 == p
  {
    var sepIndex := RFind(p, '/');
    var dotIndex := RFind(p, '.');
    if dotIndex > sepIndex && !AllDots(p[sepIndex + 1..dotIndex]) then
      assert p[..dotIndex] + p[dotIndex..] == p;
      (p[..dotIndex], p[dotIndex..])
    else (p, [])
  }

  /** A split-off extension is a '.' and no further '.' or '/', the root
      keeps a proper file name, and the directory is untouched. */
  lemma SplitExtShape(p: string)
    ensures var (root, ext) := SplitExt(p);
      ext != [] ==> IsExtension(ext) && HasFileName(root) && Directory(root) == Directory(p)
  {
    var sepIndex := RFind(p, '/');
    var dotIndex := RFind(p, '.');
    if dotIndex > sepIndex && !AllDots(p[sepIndex + 1..dotIndex]) {
      ExtensionAtLastDot(p);
      RootAtLastDot(p);
    }
  }

  /** Past the last '.', when it follows the last '/', there is no '.' or '/'. */
  lemma ExtensionAtLastDot(p: string)
    requires RFind(p, '.') > RFind(p, '/')
    ensures IsExtension(p[RFind(p, '.')..])
  {
    var dotIndex := RFind(p, '.');
    var ext := p[dotIndex..];
    RFindLast(p, '/');
    assert ext[1..] == p[dotIndex + 1..];
    forall i | 0 <= i < |ext|
      ensures ext[i] != '/'
    {
      assert ext[i] == p[dotIndex + i];
    }
  }

  /** Cutting at the last '.', when it follows the last '/', keeps the
      directory, and the file name becomes the text between the two. */
  lemma RootAtLastDot(p: string)
    requires RFind(p, '.') > RFind(p, '/')
    ensures var root := p[..RFind(p, '.')];
      Directory(root) == Directory(p) && FileName(root) == p[RFind(p, '/') + 1..RFind(p, '.')]
  {
    ExtensionAtLastDot(p);
    CutWithinFileName(p, RFind(p, '.'));
  }

  /** Cutting a path inside its last component keeps the directory. */
  lemma CutWithinFileName(p: string, k: nat)
    requires k <= |p| && '/' !in p[k..]
    ensures |Directory(p)| <= k
    ensures Directory(p[..k]) == Directory(p) && FileName(p[..k]) == p[|Directory(p)|..k]
  {
    assert p[..k] + p[k..] == p;
    DirectoryAfter(p[..k], p[k..]);
  }

  /** The inverse of the split: a root with a proper file name followed by
      an extension splits back into the two. */
  lemma SplitExtJoin(root: string, ext: string)
    requires IsExtension(ext) && HasFileName(root)
    ensures SplitExt(root + ext) == (root, ext)
  {
    var p := root + ext;
    ExtensionDot(ext);
    RFindAfter(root, ext, '.');
    RFindAfter(root, ext, '/');
    assert p[..|root|] == root;
    assert p[|root|..] == ext;
    assert p[RFind(root, '/') + 1..|root|] == FileName(root);
  }

  /** An extension's only '.' is its first character. */
  lemma ExtensionDot(ext: string)
    requires IsExtension(ext)
    ensures RFind(ext, '.') == 0
  {
    forall i | 0 < i < |ext|
      ensures ext[i] != '.'
    {
      assert ext[i] == ext[1..][i - 1];
    }
    RFindUnique(ext, '.', 0);
  }

  /** `rfind` on a concatenation: a hit in the second part wins, otherwise the
      first part decides. */
  lemma RFindAfter(a: string, b: string, c: char)
    ensures c in b ==> RFind(a + b, c) == |a| + RFind(b, c)
    ensures c !in b ==> RFind(a + b, c) == RFind(a, c)
  {
    var s := a + b;
    RFindLast(a, c);
    RFindLast(b, c);
    if c in b {
      var k := RFind(b, c);
      forall i | |a| + k < i < |s|
        ensures s[i] != c
      {
        assert s[i] == b[i - |a|];
      }
      RFindUnique(s, c, |a| + k);
    } else if c in a {
      var k := RFind(a, c);
      forall i | k < i < |s|
        ensures s[i] != c
      {
        if i < |a| {
          assert s[i] == a[i];
        } else {
          assert s[i] == b[i - |a|];
        }
      }
      RFindUnique(s, c, k);
    } else {
      assert c !in s by {
        assert forall i :: 0 <= i < |s| ==> s[i] == if i < |a| then a[i] else b[i - |a|];
      }
    }
  }

  /** Appending text without a '/' leaves the directory part alone. */
  lemma DirectoryAfter(root: string, tail: string)
    requires '/' !in tail
    ensures Directory(root + tail) == Directory(root)
  {
    RFindAfter(root, tail, '/');
    assert (root + tail)[..RFind(root, '/') + 1] == root[..RFind(root, '/') + 1];
  }

  // ---------------------------------------------------------------------
  // `ensure_supported_format`

  const Jpg := ".jpg"

  predicate SupportedExtension(e: string) {
    e == ".jpg" || e == ".jpeg" || e == ".png"
  }

  /** The lower-cased extension is ".jpg", ".jpeg" or ".png". */
  predicate IsSupported(p: string)
    // a supported path ends in its four- or five-character extension
    ensures IsSupported(p) ==> 4 <= |SplitExt(p).1| <= 5 && EndsWith(p, SplitExt(p).1)
  {
    SupportedExtension(Lower(SplitExt(p).1))
  }

  /** Only the extension decides: a file name followed by an extension is
      supported exactly when the lower-cased extension is one of the three. */
  lemma SupportedByExtension(root: string, ext: string)
    requires IsExtension(ext) && HasFileName(root)
    ensures IsSupported(root + ext) <==> SupportedExtension(Lower(ext))
  {
    SplitExtJoin(root, ext);
  }

  /** The test ignores case: an upper-case ".PNG" is supported. */
  lemma UpperCaseSupported(root: string)
    requires HasFileName(root)
    ensures IsSupported(root + ".PNG")
  {
    assert ".PNG"[1..] == "PNG";
    LowerOfExample();
    SupportedByExtension(root, ".PNG");
  }

  lemma LowerOfExample()
    ensures Lower(".PNG") == ".png"
  {
    assert LowerChar('P') == 'p' && LowerChar('N') == 'n' && LowerChar('G') == 'g';
  }

  /** A path whose file name has no extension is never supported, whatever
      the name or its directories hold. */
  lemma NoExtensionUnsupported(p: string)
    requires SplitExt(p).1 == []
    ensures !IsSupported(p)
  {
    assert Lower(SplitExt(p).1) == [];
  }

  /** `image_path.rsplit(".", 1)[0]`: the text before the last '.' anywhere in
      the path, or the whole path when it has no '.'. */
  function BeforeLastDot(p: string): (r: string)
    ensures StartsWith(p, r)
    ensures '.' in p ==> |r| < |p| && p[|r|] == '.' && '.' !in p[|r| + 1..]
    ensures '.' !in p ==> r == p
  {
    if '.' in p then p[..RFind(p, '.')] else p
  }

  /** The path `ensure_supported_format` returns, as written: a supported
      path unchanged, any other one cut at its last '.' and given ".jpg". */
  function EnsureSupportedAsWritten(p: string): (r: string)
    ensures IsSupported(p) ==> r == p
    ensures !IsSupported(p) ==> EndsWith(r, Jpg) && StartsWith(p, r[..|r| - |Jpg|])
    ensures !IsSupported(p) && '.' !in p ==> r == p + Jpg
    ensures !IsSupported(p) && '.' in p ==>
      |r| - |Jpg| < |p| && p[|r| - |Jpg|] == '.' && '.' !in p[|r| - |Jpg| + 1..]
  {
    if IsSupported(p) then p
    else
      var root := BeforeLastDot(p);
      var r := root + Jpg;
      assert r[..|r| - |Jpg|] == root;
      assert |r| - |Jpg| == |root|;
      r
  }

  /** When the last '.' of the path sits in a directory name and the file
      itself has no extension, the converted image is named after the
      directory and lands one level up: "a.b/img" becomes "a.jpg". */
  lemma AsWrittenLeavesDirectory()
    ensures !IsSupported("a.b/img")
    ensures EnsureSupportedAsWritten("a.b/img") == "a.jpg"
    ensures Directory("a.b/img") == "a.b/" && Directory("a.jpg") == ""
  {
    var p := "a.b/img";
    ExampleHasNoExtension();
    assert '.' in p by { assert p[1] == '.'; }
    assert BeforeLastDot(p) == "a";
    assert RFind("a.jpg", '/') == -1;
  }

  /** "a.b/img": the last '/' is at 3, the last '.' at 1, so no extension. */
  lemma ExampleHasNoExtension()
    ensures RFind("a.b/img", '/') == 3 && RFind("a.b/img", '.') == 1
    ensures SplitExt("a.b/img").1 == []
  {
    var p := "a.b/img";
    RFindUnique(p, '/', 3);
    RFindUnique(p, '.', 1);
  }

  /** The conversion the function evidently intends: replace the extension
      (if any) by ".jpg", keeping the directory. */
  function EnsureSupported(p: string): (r: string)
    ensures IsSupported(p) ==> r == p
    ensures !IsSupported(p) ==> EndsWith(r, Jpg) && StartsWith(p, r[..|r| - |Jpg|])
  {
    if IsSupported(p) then p
    else
      var r := SplitExt(p).0 + Jpg;
      assert r[..|r| - |Jpg|] == SplitExt(p).0;
      r
  }

  /** The corrected conversion keeps the image in its directory. */
  lemma EnsureSupportedKeepsDirectory(p: string)
    ensures Directory(EnsureSupported(p)) == Directory(p)
  {
    if !IsSupported(p) {
      DirectoryAfter(SplitExt(p).0, Jpg);
      SplitExtShape(p);
    }
  }

  /** Whenever the file name is more than dots, the corrected conversion
      replaces the extension by ".jpg", so the result is supported. */
  lemma EnsureSupportedIsSupported(p: string)
    requires !IsSupported(p) && HasFileName(SplitExt(p).0)
    ensures SplitExt(EnsureSupported(p)) == (SplitExt(p).0, Jpg)
    ensures IsSupported(EnsureSupported(p))
  {
    JpgAppended(SplitExt(p).0);
  }

  /** A root with a proper file name and ".jpg" appended is a supported path
      with exactly that extension. */
  lemma JpgAppended(root: string)
    requires HasFileName(root)
    ensures SplitExt(root + Jpg) == (root, Jpg)
    ensures IsSupported(root + Jpg)
  {
    JpgIsSupportedExtension();
    SplitExtJoin(root, Jpg);
  }

  lemma JpgIsSupportedExtension()
    ensures IsExtension(Jpg) && SupportedExtension(Lower(Jpg))
  {
    assert Jpg[1..] == "jpg";
    assert Lower(Jpg) == Jpg;
  }

  /** The two agree whenever the path has an extension. */
  lemma AgreeWithExtension(p: string)
    requires SplitExt(p).1 != []
    ensures EnsureSupportedAsWritten(p) == EnsureSupported(p)
  {
    var root, ext := SplitExt(p).0, SplitExt(p).1;
    SplitExtShape(p);
    ExtensionDot(ext);
    RFindAfter(root, ext, '.');
    assert ext[0] == '.';
  }

  // ---------------------------------------------------------------------
  // `image_to_base64`

  predicate NotDot(c: char) { c != '.' }

  /** The MIME subtype: the lower-cased extension with its dots removed, with
      "jpg" named by its registered subtype "jpeg". */
  function MimeSubtype(p: string): (r: string)
    ensures '.' !in r
  {
    var e := Filter(Lower(SplitExt(p).1), NotDot);
    assert forall i :: 0 <= i < |e| ==> e[i] != '.';
    if e == "jpg" then "jpeg" else e
  }

  /** The subtype is the lower-cased extension without its '.', renamed from
      "jpg" to "jpeg", and empty when there is no extension. */
  lemma MimeOfExtension(p: string)
    ensures var ext := SplitExt(p).1;
      && (ext == [] ==> MimeSubtype(p) == [])
      && (ext != [] && Lower(ext[1..]) == "jpg" ==> MimeSubtype(p) == "jpeg")
      && (ext != [] && Lower(ext[1..]) != "jpg" ==> MimeSubtype(p) == Lower(ext[1..]))
  {
    var ext := SplitExt(p).1;
    if ext != [] {
      SplitExtShape(p);
      DotlessLower(ext);
    }
  }

  /** Lower-casing an extension and dropping its dots leaves the lower-cased
      text after the leading '.'. */
  lemma DotlessLower(ext: string)
    requires IsExtension(ext)
    ensures Filter(Lower(ext), NotDot) == Lower(ext[1..])
  {
    var l := Lower(ext);
    assert l[1..] == Lower(ext[1..]);
    forall i | 0 <= i < |l[1..]|
      ensures NotDot(l[1..][i])
    {
      assert ext[1..][i] == ext[i + 1];
    }
    FilterAll(l[1..], NotDot);
  }

  /** Every supported image gets one of the two image subtypes. */
  lemma SupportedSubtype(p: string)
    requires IsSupported(p)
    ensures MimeSubtype(p) == "jpeg" || MimeSubtype(p) == "png"
  {
    var ext := SplitExt(p).1;
    MimeOfExtension(p);
    assert Lower(ext[1..]) == Lower(ext)[1..];
  }

  const DataPrefix := "data:image/"
  const Base64Marker := ";base64,"

  /** `f"data:image/{ext};base64,{b64}"`. */
  function DataUrl(p: string, data: seq<Byte>): (r: string)
    ensures StartsWith(r, DataPrefix)
    ensures EndsWith(r, Encode(data))
  {
    var r := DataPrefix + MimeSubtype(p) + Base64Marker + Encode(data);
    FourParts(DataPrefix, MimeSubtype(p), Base64Marker, Encode(data));
    r
  }

  /** A concatenation starts with its first part and ends with its last. */
  lemma FourParts(a: string, b: string, c: string, d: string)
    ensures StartsWith(a + b + c + d, a) && EndsWith(a + b + c + d, d)
  {
    var s := a + b + c + d;
    assert s[..|a|] == a;
    assert s[|s| - |d|..] == d;
  }

  /** Reads a data URL of this shape back into its subtype and bytes. */
  function ParseDataUrl(url: string): (r: Option<(string, seq<Byte>)>)
    ensures r.Some? ==> ';' !in r.value.0
  {
    if !StartsWith(url, DataPrefix) then None
    else
      var rest := url[|DataPrefix|..];
      var i := IndexOf(rest, ';');
      var after := rest[i..];
      if !StartsWith(after, Base64Marker) then None
      else
        var payload := Decode(after[|Base64Marker|..]);
        if payload.None? then None else Some((rest[..i], payload.value))
  }

  /** The data URL carries the subtype and the exact bytes: reading it back
      gives both, provided the subtype holds no ';'. */
  lemma DataUrlRoundTrip(p: string, data: seq<Byte>)
    requires ';' !in MimeSubtype(p)
    ensures ParseDataUrl(DataUrl(p, data)) == Some((MimeSubtype(p), data))
  {
    ParseBack(MimeSubtype(p), data);
  }

  /** Any subtype without ';' and any bytes come back out of the URL. */
  lemma ParseBack(subtype: string, data: seq<Byte>)
    requires ';' !in subtype
    ensures ParseDataUrl(DataPrefix + subtype + Base64Marker + Encode(data)) == Some((subtype, data))
  {
    var enc := Encode(data);
    var rest := subtype + Base64Marker + enc;
    assert DataPrefix + subtype + Base64Marker + enc == DataPrefix + rest;
    assert (DataPrefix + rest)[|DataPrefix|..] == rest;
    assert Base64Marker[0] == ';';
    CutAtMarker(subtype, Base64Marker, enc);
    DecodeEncode(data);
  }

  /** A text with no ';' followed by a ';'-led marker and a payload is cut
      back into the three at the first ';'. */
  lemma CutAtMarker(m: string, marker: string, payload: string)
    requires ';' !in m && |marker| >= 1 && marker[0] == ';'
    ensures var rest := m + marker + payload;
      IndexOf(rest, ';') == |m| && rest[..|m|] == m &&
      rest[|m|..] == marker + payload && (marker + payload)[|marker|..] == payload
  {
    assert m + marker + payload == m + [';'] + (marker[1..] + payload);
    IndexOfAfter(m, ';', marker[1..] + payload);
  }

  // ---------------------------------------------------------------------
  // The image reference handed to the model

  /** The URL placed in the multimodal message by `describe_image_with_langchain`
      and `tagging_image_with_langchain`: for a local image, the data URL of
      path `ensure_supported_format` returns as written (see
      EnsureSupportedAsWritten), whose bytes `read` supplies; otherwise the
      given path, verbatim. */
  function ImageReference(path: string, localImage: bool, read: string -> seq<Byte>): (r: string)
    ensures !localImage ==> r == path
    ensures localImage ==> StartsWith(r, DataPrefix)
    ensures localImage && ';' !in MimeSubtype(EnsureSupportedAsWritten(path)) ==>
      ParseDataUrl(r) == Some((MimeSubtype(EnsureSupportedAsWritten(path)), read(EnsureSupportedAsWritten(path))))
  {
    if localImage then
      var safe := EnsureSupportedAsWritten(path);
      var r := DataUrl(safe, read(safe));
      assert ';' !in MimeSubtype(safe) ==> ParseDataUrl(r) == Some((MimeSubtype(safe), read(safe))) by {
        if ';' !in MimeSubtype(safe) {
          DataUrlRoundTrip(safe, read(safe));
        }
      }
      r
    else path
  }
}

=== FILE: math.dfy ===
/** Integer helpers shared by the binary-gap and back-off models. */
module Math {

  function Pow2(k: nat): (r: nat)
    ensures r >= 1
  {
    if k == 0 then 1 else 2 * Pow2(k - 1)
  }

  function Max(a: int, b: int): (r: int)
    ensures r >= a && r >= b && (r == a || r == b)
  {
    if a >= b then a else b
  }
}

=== FILE: retry.dfy ===
/** The retry schedule of `safe_llm_invoke` (goal-setting agent, iteration 4):
    up to `max_retries` calls, a sleep of `delay` doubling after each failure
    except the last. The model call is an oracle `call(k)` giving the outcome
    of attempt k; sleeps are recorded instead of performed. */
module Retry {
  import opened Wrappers
  import opened Math

  /** What one invocation did: the response it returned (None once it gave
      up), the number of calls it made and the sleeps it asked for, in order. */
  datatype Invocation = Invocation(response: Option<string>, attempts: nat, sleeps: seq<real>)

  /** The sleep before retry k + 1: `delay` doubled k times. */
  function Wait(delay: real, k: nat): real {
    delay * (Pow2(k) as real)
  }

  /** The back-off schedule: `delay`, `2·delay`, `4·delay`, ..., n entries. */
  function Backoff(delay: real, n: nat): (r: seq<real>)
    ensures |r| == n
    ensures forall k :: 0 <= k < n ==> r[k] == Wait(delay, k)
  {
    if n == 0 then [] else Backoff(delay, n - 1) + [Wait(delay, n - 1)]
  }

  function Total(xs: seq<real>): real {
    if xs == [] then 0.0 else Total(xs[..|xs| - 1]) + xs[|xs| - 1]
  }

  method SafeInvoke(maxRetries: int, delay: real, call: nat -> Option<string>) returns (r: Invocation)
    // never more calls than allowed, and none at all when `max_retries <= 0`
    ensures r.attempts <= Max(maxRetries, 0)
    // every call before the last one failed
    ensures forall j :: 0 <= j < r.attempts - 1 ==> call(j).None?
    // a success is returned at once, unchanged
    ensures r.response.Some? ==> r.attempts >= 1 && r.response == call(r.attempts - 1)
    // giving up means every allowed call was made and failed
    ensures r.response.None? ==> r.attempts == Max(maxRetries, 0)
    ensures r.response.None? ==> forall j :: 0 <= j < r.attempts ==> call(j).None?
    // one sleep between consecutive calls and none after the final one
    ensures |r.sleeps| == Max(r.attempts - 1, 0)
    ensures r.sleeps == Backoff(delay, |r.sleeps|)
  {
    var attempt := 0;
    var wait := delay;
    var sleeps: seq<real> := [];
    while attempt < maxRetries
      invariant 0 <= attempt <= Max(maxRetries, 0)
      invariant maxRetries > 0 ==> attempt < maxRetries
      invariant forall j :: 0 <= j < attempt ==> call(j).None?
      invariant sleeps == Backoff(delay, attempt)
      invariant wait == Wait(delay, attempt)
    {
      var outcome := call(attempt);
      if outcome.Some? {
        return Invocation(outcome, attempt + 1, sleeps);
      }
      if attempt < maxRetries - 1 {
        WaitDoubles(delay, attempt);
        sleeps := sleeps + [wait];
        wait := wait * 2.0;
      } else {
        return Invocation(None, attempt + 1, sleeps);
      }
      attempt := attempt + 1;
    }
    return Invocation(None, attempt, sleeps);
  }

  /** Together the sleeps of n retries last `delay · (2^n − 1)`. */
  lemma {:induction false} BackoffTotal(delay: real, n: nat)
    ensures Total(Backoff(delay, n)) == Wait(delay, n) - delay
  {
    if n > 0 {
      var b := Backoff(delay, n);
      assert b[..n - 1] == Backoff(delay, n - 1);
      BackoffTotal(delay, n - 1);
      var w := Wait(delay, n - 1);
      assert Total(b) == Total(b[..n - 1]) + w;
      WaitDoubles(delay, n - 1);
    }
  }

  lemma WaitDoubles(delay: real, k: nat)
    ensures Wait(delay, k + 1) == 2.0 * Wait(delay, k)
  {
    var p := Pow2(k) as real;
    assert Pow2(k + 1) as real == 2.0 * p;
    assert delay * (2.0 * p) == 2.0 * (delay * p);
  }
}

=== FILE: router.dfy ===
/** The resource-aware router of 16_Resource_Aware_Opt_LLM_Reflection_v1.py:
    a classifier reply is cleaned of code fences, cut down to its JSON object
    and parsed; the classification picks the answering model and decides
    whether a web search feeds the prompt. The classifier, the JSON parser,
    the search and the answering model are oracles. */
module Router {
  import opened Wrappers
  import opened Text

  const Fence := "```"

  const MiniModel := "gpt-4o-mini"
  const ReasoningModel := "o4-mini"

  const SimpleLabel := "Simple"
  const ReasoningLabel := "Needs Reasoning Model"
  const ReasoningWord := "Reasoning"
  const SearchLabel := "Needs Google"

  // ---------------------------------------------------------------------
  // Model selection and prompt assembly (`generate_response`)

  /** The model chosen for a classification label. */
  function SelectModel(classification: string): (r: string)
    ensures r == MiniModel || r == ReasoningModel
    ensures classification == SimpleLabel ==> r == MiniModel
    ensures classification == ReasoningLabel ==> r == ReasoningModel
  {
    if classification == SimpleLabel then MiniModel
    else if classification == ReasoningLabel then ReasoningModel
    else if Contains(classification, ReasoningWord) then ReasoningModel
    else MiniModel
  }

  /** The three branches agree with one rule: the reasoning model is chosen
      exactly when the label mentions "Reasoning". */
  lemma SelectModelByKeyword(classification: string)
    ensures SelectModel(classification) == ReasoningModel <==> Contains(classification, ReasoningWord)
  {
    if classification == SimpleLabel {
      ContainsTooLong(classification, ReasoningWord);
    } else if classification == ReasoningLabel {
      assert classification[6..6 + |ReasoningWord|] == ReasoningWord;
      ContainsAt(classification, ReasoningWord, 6);
    }
  }

  const SearchIntro := "\nUse the following search results to answer the prompt:\n"
  const PromptLead := "\n\nPrompt: "

  /** The text the answering model receives: the user prompt alone, or, when
      the search returned snippets, the snippets one per line followed by the
      prompt. An absent and an empty result list both count as no results. */
  function ResponsePrompt(userPrompt: string, results: Option<seq<string>>): (r: string)
    ensures results.None? || results.value == [] ==> r == userPrompt
    ensures results.Some? && results.value != [] ==>
      StartsWith(r, SearchIntro) && EndsWith(r, PromptLead + userPrompt + "\n")
  {
    if results.Some? && results.value != [] then
      var r := SearchIntro + Join('\n', results.value) + PromptLead + userPrompt + "\n";
      assert r[..|SearchIntro|] == SearchIntro;
      assert r[|r| - |PromptLead + userPrompt + "\n"|..] == PromptLead + userPrompt + "\n";
      r
    else userPrompt
  }

  /** The snippets sit between the introduction and the prompt, one per line,
      and can be read back when none of them holds a newline. */
  lemma SnippetsReadBack(userPrompt: string, snippets: seq<string>)
    requires snippets != []
    requires forall i :: 0 <= i < |snippets| ==> '\n' !in snippets[i]
    ensures var r := ResponsePrompt(userPrompt, Some(snippets));
      var tail := |PromptLead| + |userPrompt| + 1;
      |SearchIntro| + tail <= |r| &&
      Split(r[|SearchIntro|..|r| - tail], '\n') == snippets
  {
    var r := ResponsePrompt(userPrompt, Some(snippets));
    var middle := Join('\n', snippets);
    assert r == SearchIntro + middle + (PromptLead + userPrompt + "\n");
    assert r[|SearchIntro|..|r| - (|PromptLead| + |userPrompt| + 1)] == middle;
    SplitJoin(snippets, '\n');
  }

  // ---------------------------------------------------------------------
  // Cleaning the classifier reply (`main`)

  /** The fence clean-up: on the stripped reply, three characters come off
      each end that carries a fence and the rest is stripped again; a reply
      with no fence at either end is kept as it came, unstripped. */
  function TrimFences(raw: string): (r: string)
    ensures !StartsWith(Strip(raw), Fence) && !EndsWith(Strip(raw), Fence) ==> r == raw
    ensures StartsWith(Strip(raw), Fence) || EndsWith(Strip(raw), Fence) ==> Stripped(r)
  {
    var t := Strip(raw);
    if StartsWith(t, Fence) && EndsWith(t, Fence) then Strip(PySlice(t, 3, -3))
    else if StartsWith(t, Fence) then Strip(t[3..])
    else if EndsWith(t, Fence) then Strip(t[..|t| - 3])
    else raw
  }

  /** `t[3:-3]` is `t` less three characters at each end, and nothing at all
      when the two fences overlap. */
  lemma InnerSlice(t: string)
    ensures |t| >= 6 ==> PySlice(t, 3, -3) == t[3..|t| - 3]
    ensures |t| < 6 ==> PySlice(t, 3, -3) == []
  {
  }

  /** Fencing a body and trimming the fences gives the stripped body back. */
  lemma TrimFencesInverse(body: string)
    ensures TrimFences(Fence + body + Fence) == Strip(body)
  {
    var t := Fence + body + Fence;
    assert Stripped(t) by {
      assert t[0] == '`' && t[|t| - 1] == '`';
    }
    assert t[..3] == Fence;
    assert t[|t| - 3..] == Fence;
    InnerSlice(t);
    assert t[3..|t| - 3] == body;
  }

  /** A reply with only an opening fence loses the fence and the surrounding
      whitespace and nothing else. */
  lemma TrimOpeningFence(body: string)
    requires !EndsWith(Strip(Fence + body), Fence)
    ensures TrimFences(Fence + body) == Strip(body)
  {
    if Strip(body) == [] {
      StripAroundBlank(body);
      assert false;
    }
    var m := Strip(body);
    var x := StripAfterFence(body);
    var u := x + m;
    SliceAfterFence(u);
    StripUnique(u, x, m, []);
    TrimOpeningOnly(Fence + body);
  }

  /** A reply with only a closing fence loses the fence and the surrounding
      whitespace and nothing else. */
  lemma TrimClosingFence(body: string)
    requires !StartsWith(Strip(body + Fence), Fence)
    ensures TrimFences(body + Fence) == Strip(body)
  {
    if Strip(body) == [] {
      StripAroundBlank(body);
      assert false;
    }
    var m := Strip(body);
    var y := StripBeforeFence(body);
    var v := m + y;
    SliceBeforeFence(v);
    StripUnique(v, [], m, y);
    TrimClosingOnly(body + Fence);
  }

  /** The branch of `TrimFences` taken when only the opening fence is there. */
  lemma TrimOpeningOnly(raw: string)
    requires StartsWith(Strip(raw), Fence) && !EndsWith(Strip(raw), Fence)
    ensures TrimFences(raw) == Strip(Strip(raw)[3..])
  {
  }

  /** The branch of `TrimFences` taken when only the closing fence is there. */
  lemma TrimClosingOnly(raw: string)
    requires !StartsWith(Strip(raw), Fence) && EndsWith(Strip(raw), Fence)
    ensures TrimFences(raw) == Strip(Strip(raw)[..|Strip(raw)| - 3])
  {
  }

  lemma SliceAfterFence(u: string)
    ensures (Fence + u)[3..] == u
  {
  }

  lemma SliceBeforeFence(v: string)
    ensures (v + Fence)[..|v + Fence| - 3] == v
  {
  }

  /** A blank body next to a fence strips down to the fence. */
  lemma StripAroundBlank(body: string)
    requires Strip(body) == []
    ensures Strip(Fence + body) == Fence && Strip(body + Fence) == Fence
  {
    var a := StripIsSlice(body);
    assert AllSpace(body) by {
      assert forall i :: 0 <= i < |body| ==> body[i] == if i < a then body[..a][i] else body[a..][i - a];
    }
    assert body + Fence == body + Fence + [];
    StripUnique(body + Fence, body, Fence, []);
    assert Fence + body == [] + Fence + body;
    StripUnique(Fence + body, [], Fence, body);
  }

  /** Behind an opening fence, stripping keeps the fence, the body's leading
      whitespace and the stripped body. */
  lemma StripAfterFence(body: string) returns (x: string)
    requires Strip(body) != []
    ensures AllSpace(x) && Strip(Fence + body) == Fence + (x + Strip(body))
  {
    var a := StripIsSlice(body);
    var m := Strip(body);
    x := body[..a];
    var y := body[a + |m|..];
    var w := Fence + (x + m);
    assert Fence + body == [] + w + y;
    assert w[|w| - 1] == m[|m| - 1];
    StripUnique(Fence + body, [], w, y);
  }

  /** Before a closing fence, stripping keeps the stripped body, its trailing
      whitespace and the fence. */
  lemma StripBeforeFence(body: string) returns (y: string)
    requires Strip(body) != []
    ensures AllSpace(y) && Strip(body + Fence) == (Strip(body) + y) + Fence
  {
    var a := StripIsSlice(body);
    var m := Strip(body);
    var x := body[..a];
    y := body[a + |m|..];
    assert body + Fence == x + (m + y + Fence) + [];
    assert (m + y + Fence)[0] == m[0];
    StripUnique(body + Fence, x, m + y + Fence, []);
  }

  /** A reply that is a lone fence (or two overlapping ones) leaves nothing. */
  lemma OverlappingFencesLeaveNothing(raw: string)
    requires StartsWith(Strip(raw), Fence) && EndsWith(Strip(raw), Fence)
    requires |Strip(raw)| < 6
    ensures TrimFences(raw) == []
  {
    InnerSlice(Strip(raw));
  }

  /** The text from the first '{' through the last '}' — the slice
      `text[text.find('{'):text.rfind('}') + 1]`. */
  function JsonSlice(text: string): (r: string)
    ensures |r| <= |text|
  {
    PySlice(text, Find(text, '{'), RFind(text, '}') + 1)
  }

  /** With a '{' before the last '}', the slice runs from the first '{' to the
      last '}' inclusive. */
  lemma JsonSliceBraces(text: string)
    requires '{' in text && '}' in text && Find(text, '{') < RFind(text, '}')
    ensures var r := JsonSlice(text);
      |r| >= 2 && r[0] == '{' && r[|r| - 1] == '}' &&
      r == text[Find(text, '{')..RFind(text, '}') + 1] &&
      '{' !in text[..Find(text, '{')] && '}' !in text[RFind(text, '}') + 1..]
  {
  }

  /** Without a '}' the slice is empty. */
  lemma JsonSliceNoClose(text: string)
    requires '}' !in text
    ensures JsonSlice(text) == []
  {
  }

  /** Without a '{', `find` gives -1, which slices from the last character:
      the slice is "}" when the text ends with '}' and empty otherwise. */
  lemma JsonSliceNoOpen(text: string)
    requires '{' !in text
    ensures JsonSlice(text) == if text != [] && text[|text| - 1] == '}' then "}" else ""
  {
    if text != [] && text[|text| - 1] == '}' {
      assert RFind(text, '}') == |text| - 1;
    }
  }

  // ---------------------------------------------------------------------
  // Routing (`main`)

  /** A JSON value as far as the router cares: a string, or anything else. */
  datatype Json = JString(text: string) | JOther

  /** The two fields read out of the parsed classifier object. */
  datatype Classified = Classified(classification: Json, reasoning: Json)

  /** The dictionary `main` returns: the error entry, or the three fields of
      a routed answer. */
  datatype Reply =
    | ErrorReply(error: string)
    | Routed(classification: string, reasoning: Json, response: string)

  /** What `main` does: return a reply (noting whether it searched), or fail
      with the AttributeError of `.startswith` on a classification that is
      not a string. */
  datatype Outcome = Returned(reply: Reply, searched: bool) | AttributeError

  const ErrorLead := "Failed to parse classifier output: "
  const RawLead := "\nRaw output: "

  /** The keys of the returned dictionary. */
  function Keys(reply: Reply): set<string> {
    match reply
    case ErrorReply(_) => {"error"}
    case Routed(_, _, _) => {"classification", "reasoning", "response"}
  }

  /** `main(user_prompt)`. `classifierReply` is the classifier's text;
      `parse` is `json.loads` plus the two key look-ups, failing with the
      exception's message; `search` is what the search would return;
      `answer(model, prompt)` is the answering model's response. */
  function Main(userPrompt: string, classifierReply: string,
                parse: string -> Result<Classified, string>,
                search: seq<string>, answer: (string, string) -> string): (r: Outcome)
    // a parse failure is reported with the cleaned reply, and nothing is searched
    ensures parse(JsonSlice(TrimFences(classifierReply))).Failure? <==>
      r.Returned? && r.reply.ErrorReply?
    ensures r.Returned? && r.reply.ErrorReply? ==>
      !r.searched &&
      r.reply.error == ErrorLead + parse(JsonSlice(TrimFences(classifierReply))).error
                       + RawLead + TrimFences(classifierReply)
    // the search runs exactly for labels starting with "Needs Google"
    ensures r.Returned? && r.reply.Routed? ==>
      (r.searched <==> StartsWith(r.reply.classification, SearchLabel))
    // the response comes from the chosen model on the assembled prompt
    ensures r.Returned? && r.reply.Routed? ==>
      r.reply.response == answer(SelectModel(r.reply.classification),
                                 ResponsePrompt(userPrompt, if r.searched then Some(search) else None))
  {
    var cleaned := TrimFences(classifierReply);
    var parsed := parse(JsonSlice(cleaned));
    if parsed.Failure? then
      Returned(ErrorReply(ErrorLead + parsed.error + RawLead + cleaned), false)
    else if !parsed.value.classification.JString? then
      AttributeError
    else
      var classification := parsed.value.classification.text;
      var searched := StartsWith(classification, SearchLabel);
      var results := if searched then Some(search) else None;
      var response := answer(SelectModel(classification), ResponsePrompt(userPrompt, results));
      Returned(Routed(classification, parsed.value.reasoning, response), searched)
  }

  /** The returned dictionary has the single key "error" after a parse
      failure and exactly the three answer keys otherwise; the crash happens
      exactly when the classification parsed to something other than a string. */
  lemma ReplyKeys(userPrompt: string, classifierReply: string,
                  parse: string -> Result<Classified, string>,
                  search: seq<string>, answer: (string, string) -> string)
    ensures var parsed := parse(JsonSlice(TrimFences(classifierReply)));
      var r := Main(userPrompt, classifierReply, parse, search, answer);
      && (parsed.Failure? ==> r.Returned? && Keys(r.reply) == {"error"})
      && (parsed.Success? && parsed.value.classification.JString? ==>
            r.Returned? && Keys(r.reply) == {"classification", "reasoning", "response"}
            && r.reply.classification == parsed.value.classification.text
            && r.reply.reasoning == parsed.value.reasoning)
      && (r.AttributeError? <==> parsed.Success? && !parsed.value.classification.JString?)
  {
  }

  /** A search-labelled classification with a reasoning mention goes to the
      reasoning model with the snippets in its prompt. */
  lemma SearchWithReasoning(userPrompt: string, classifierReply: string,
                            parse: string -> Result<Classified, string>,
                            search: seq<string>, answer: (string, string) -> string)
    requires var parsed := parse(JsonSlice(TrimFences(classifierReply)));
      parsed.Success? && parsed.value.classification.JString? &&
      StartsWith(parsed.value.classification.text, SearchLabel) &&
      Contains(parsed.value.classification.text, ReasoningWord)
    ensures var r := Main(userPrompt, classifierReply, parse, search, answer);
      r.Returned? && r.searched &&
      r.reply.response == answer(ReasoningModel, ResponsePrompt(userPrompt, Some(search)))
  {
    var parsed := parse(JsonSlice(TrimFences(classifierReply)));
    SelectModelByKeyword(parsed.value.classification.text);
  }
}

=== FILE: text.dfy ===
/** The Python `str` operations the scripts rely on, stated over Dafny strings.
    Whitespace follows `str.isspace()`, line boundaries follow `str.splitlines()`;
    case mapping and digit classes are the ASCII ones. */
module Text {

  /** `str.isspace()` for one code point: what `strip()` and `split()` remove. */
  predicate IsSpace(c: char) {
    var k := c as int;
    || k == 0x20 || 0x09 <= k <= 0x0D || 0x1C <= k <= 0x1F
    || k == 0x85 || k == 0xA0 || k == 0x1680 || 0x2000 <= k <= 0x200A
    || k == 0x2028 || k == 0x2029 || k == 0x202F || k == 0x205F || k == 0x3000
  }

  /** A line boundary of `str.splitlines()` (a `\r\n` pair counts once, see the splitter). */
  predicate IsLineBreak(c: char) {
    var k := c as int;
    0x0A <= k <= 0x0D || 0x1C <= k <= 0x1E || k == 0x85 || k == 0x2028 || k == 0x2029
  }

  predicate IsDigit(c: char) { '0' <= c <= '9' }

  predicate IsUpper(c: char) { 'A' <= c <= 'Z' }

  predicate IsLowerLetter(c: char) { 'a' <= c <= 'z' }

  /** The regular-expression class `[a-zA-Z0-9]`. */
  predicate IsAsciiAlnum(c: char) { IsUpper(c) || IsLowerLetter(c) || IsDigit(c) }

  predicate AllSpace(s: string) {
    forall i :: 0 <= i < |s| ==> IsSpace(s[i])
  }

  predicate NoLineBreak(s: string) {
    forall i :: 0 <= i < |s| ==> !IsLineBreak(s[i])
  }

  predicate AllDigits(s: string) {
    forall i :: 0 <= i < |s| ==> IsDigit(s[i])
  }

  /** A string with no whitespace at either end: what `strip()` returns. */
  predicate Stripped(s: string) {
    s == [] || (!IsSpace(s[0]) && !IsSpace(s[|s| - 1]))
  }

  /** How many whitespace characters `s.lstrip()` removes. */
  function LeadingSpaces(s: string): (n: nat)
    ensures n <= |s|
    ensures forall k :: 0 <= k < n ==> IsSpace(s[k])
    ensures n < |s| ==> !IsSpace(s[n])
  {
    if s == [] || !IsSpace(s[0]) then 0 else 1 + LeadingSpaces(s[1..])
  }

  /** Whitespace in front adds to the count `lstrip()` removes. */
  lemma {:induction false} LeadingSpacesAfter(x: string, b: string)
    requires AllSpace(x)
    ensures LeadingSpaces(x + b) == |x| + LeadingSpaces(b)
    decreases |x|
  {
    if x != [] {
      assert (x + b)[1..] == x[1..] + b;
      assert forall i :: 0 <= i < |x| - 1 ==> x[1..][i] == x[i + 1];
      assert IsSpace((x + b)[0]);
      LeadingSpacesAfter(x[1..], b);
    } else {
      assert x + b == b;
    }
  }

  /** Text after the first non-space does not change what `lstrip()` removes. */
  lemma {:induction false} LeadingSpacesBefore(a: string, t: string)
    requires LeadingSpaces(a) < |a|
    ensures LeadingSpaces(a + t) == LeadingSpaces(a)
    decreases |a|
  {
    assert (a + t)[0] == a[0];
    if IsSpace(a[0]) {
      assert (a + t)[1..] == a[1..] + t;
      LeadingSpacesBefore(a[1..], t);
    }
  }

  /** How long a prefix `s.rstrip()` keeps. */
  function RightEnd(s: string): (n: nat)
    ensures n <= |s|
    ensures forall k :: n <= k < |s| ==> IsSpace(s[k])
    ensures n > 0 ==> !IsSpace(s[n - 1])
  {
    if s == [] || !IsSpace(s[|s| - 1]) then |s| else RightEnd(s[..|s| - 1])
  }

  /** `s.strip()`: the result has no surrounding whitespace, and a string that
      has none is left alone (so stripping is idempotent). */
  function Strip(s: string): (r: string)
    ensures |r| <= |s|
    ensures Stripped(r)
    ensures Stripped(s) ==> r == s
  {
    var a := LeadingSpaces(s);
    if a == |s| then [] else s[a..RightEnd(s)]
  }

  /** What `strip()` removes is whitespace at the two ends and nothing else. */
  lemma StripIsSlice(s: string) returns (a: nat)
    ensures a + |Strip(s)| <= |s|
    ensures Strip(s) == s[a..a + |Strip(s)|]
    ensures AllSpace(s[..a]) && AllSpace(s[a + |Strip(s)|..])
  {
    a := LeadingSpaces(s);
    if a < |s| {
      var e := RightEnd(s);
      assert Strip(s) == s[a..e];
      assert forall k :: 0 <= k < |s| - e ==> s[e..][k] == s[e + k];
    }
  }

  /** Whitespace around a string with none at its ends is exactly what
      `strip()` removes. */
  lemma StripUnique(s: string, x: string, m: string, y: string)
    requires s == x + m + y && AllSpace(x) && AllSpace(y) && Stripped(m)
    ensures Strip(s) == m
  {
    var a := StripIsSlice(s);
    var r := Strip(s);
    if m != [] {
      assert s[|x|] == m[0] && s[|x| + |m| - 1] == m[|m| - 1];
      assert r[0] == s[a] && r[|r| - 1] == s[a + |r| - 1];
      assert r == s[|x|..|x| + |m|];
    }
  }

  /** Stripping adds no character. */
  lemma StripLacks(s: string, c: char)
    requires c !in s
    ensures c !in Strip(s)
  {
    var a := StripIsSlice(s);
    var r := Strip(s);
    forall k | 0 <= k < |r| ensures r[k] != c {
      assert r[k] == s[a + k];
    }
  }

  /** A string that begins with a non-space character keeps it when stripped,
      together with every character up to the last non-space one. */
  lemma StripKeepsPrefix(s: string, k: nat)
    requires k < |s| && !IsSpace(s[0]) && !IsSpace(s[k])
    ensures k < |Strip(s)| && Strip(s)[..k + 1] == s[..k + 1]
  {
    var a := StripIsSlice(s);
    var r := Strip(s);
    assert a == 0;
    assert forall i :: |r| <= i < |s| ==> IsSpace(s[i]) by {
      forall i | |r| <= i < |s| ensures IsSpace(s[i]) {
        assert s[i] == s[|r|..][i - |r|];
      }
    }
  }

  predicate StartsWith(s: string, prefix: string) {
    prefix <= s
  }

  predicate EndsWith(s: string, suffix: string) {
    |suffix| <= |s| && s[|s| - |suffix|..] == suffix
  }

  /** `sub in s` for strings. */
  predicate Contains(s: string, sub: string)
    decreases |s|
  {
    sub <= s || (s != [] && Contains(s[1..], sub))
  }

  /** An occurrence at offset k is enough for `sub in s`. */
  lemma {:induction false} ContainsAt(s: string, sub: string, k: nat)
    requires k + |sub| <= |s| && s[k..k + |sub|] == sub
    ensures Contains(s, sub)
    decreases k
  {
    if k > 0 {
      assert s[1..][k - 1..k - 1 + |sub|] == sub;
      ContainsAt(s[1..], sub, k - 1);
    } else {
      assert sub <= s;
    }
  }

  /** A string never contains anything longer than itself. */
  lemma {:induction false} ContainsTooLong(s: string, sub: string)
    requires |sub| > |s|
    ensures !Contains(s, sub)
    decreases |s|
  {
    if s != [] {
      ContainsTooLong(s[1..], sub);
    }
  }

  /** ASCII `str.lower()` of one character. */
  function LowerChar(c: char): (r: char)
    ensures !IsUpper(r)
    ensures IsSpace(r) <==> IsSpace(c)
  {
    if IsUpper(c) then (c as int - 'A' as int + 'a' as int) as char else c
  }

  /** ASCII `str.lower()`. */
  function Lower(s: string): (r: string)
    ensures |r| == |s|
    ensures forall i :: 0 <= i < |s| ==> r[i] == LowerChar(s[i])
  {
    seq(|s|, i requires 0 <= i < |s| => LowerChar(s[i]))
  }

  /** The elements of `s` that `keep` accepts, in order. */
  function Filter<T>(s: seq<T>, keep: T -> bool): (r: seq<T>)
    ensures |r| <= |s|
    ensures forall i :: 0 <= i < |r| ==> keep(r[i])
  {
    if s == [] then []
    else (if keep(s[0]) then [s[0]] else []) + Filter(s[1..], keep)
  }

  lemma FilterSplit<T>(s: seq<T>, k: nat, keep: T -> bool)
    requires k <= |s|
    ensures Filter(s, keep) == Filter(s[..k], keep) + Filter(s[k..], keep)
  {
    assert s == s[..k] + s[k..];
    FilterAppend(s[..k], s[k..], keep);
  }

  lemma {:induction false} FilterAppend<T>(a: seq<T>, b: seq<T>, keep: T -> bool)
    ensures Filter(a + b, keep) == Filter(a, keep) + Filter(b, keep)
  {
    if a == [] {
      assert a + b == b;
    } else {
      assert (a + b)[1..] == a[1..] + b;
      FilterAppend(a[1..], b, keep);
    }
  }

  /** Filtering a prefix gives a prefix of the filtered whole. */
  lemma FilterPrefix<T>(s: seq<T>, k: nat, keep: T -> bool)
    requires k <= |s|
    ensures Filter(s[..k], keep) <= Filter(s, keep)
  {
    FilterSplit(s, k, keep);
  }

  /** A filter that accepts every element keeps the whole sequence. */
  lemma {:induction false} FilterAll<T>(s: seq<T>, keep: T -> bool)
    requires forall i :: 0 <= i < |s| ==> keep(s[i])
    ensures Filter(s, keep) == s
  {
    if s != [] {
      FilterAll(s[1..], keep);
      assert s == [s[0]] + s[1..];
    }
  }

  /** Whatever holds of every element still holds of every kept one. */
  lemma {:induction false} FilterPreserves<T>(s: seq<T>, keep: T -> bool, p: T -> bool)
    requires forall i :: 0 <= i < |s| ==> p(s[i])
    ensures forall i :: 0 <= i < |Filter(s, keep)| ==> p(Filter(s, keep)[i])
  {
    if s != [] {
      FilterPreserves(s[1..], keep, p);
      var head := if keep(s[0]) then [s[0]] else [];
      assert Filter(s, keep) == head + Filter(s[1..], keep);
    }
  }

  lemma {:induction false} FilterNone<T>(s: seq<T>, keep: T -> bool)
    requires forall i :: 0 <= i < |s| ==> !keep(s[i])
    ensures Filter(s, keep) == []
  {
    if s != [] {
      FilterNone(s[1..], keep);
    }
  }

  lemma Assoc<T>(p: seq<T>, q: seq<T>, r: seq<T>)
    ensures p + (q + r) == p + q + r
  {
  }

  lemma Unit<T>(p: seq<T>)
    ensures p + [] == p
  {
  }

  /** `sep.join(parts)` with a one-character separator. */
  function Join(sep: char, parts: seq<string>): string
    decreases |parts|
  {
    if |parts| == 0 then ""
    else if |parts| == 1 then parts[0]
    else parts[0] + [sep] + Join(sep, parts[1..])
  }

  lemma JoinCons(sep: char, first: string, rest: seq<string>)
    requires |rest| >= 1
    ensures Join(sep, [first] + rest) == first + [sep] + Join(sep, rest)
  {
    assert ([first] + rest)[1..] == rest;
  }

  lemma JoinStartsWithFirst(sep: char, parts: seq<string>)
    requires |parts| >= 1
    ensures StartsWith(Join(sep, parts), parts[0])
  {
  }

  lemma {:induction false} JoinEndsWithLast(sep: char, parts: seq<string>)
    requires |parts| >= 1
    ensures EndsWith(Join(sep, parts), parts[|parts| - 1])
    decreases |parts|
  {
    if |parts| > 1 {
      JoinCons(sep, parts[0], parts[1..]);
      assert [parts[0]] + parts[1..] == parts;
      JoinEndsWithLast(sep, parts[1..]);
    }
  }

  /** A property of the separator and of every character of every part holds
      of every character of the joined text. */
  lemma {:induction false} JoinKeeps(sep: char, parts: seq<string>, p: char -> bool)
    requires p(sep)
    requires forall i :: 0 <= i < |parts| ==> forall k :: 0 <= k < |parts[i]| ==> p(parts[i][k])
    ensures forall k :: 0 <= k < |Join(sep, parts)| ==> p(Join(sep, parts)[k])
    decreases |parts|
  {
    if |parts| > 1 {
      var head, rest := parts[0], Join(sep, parts[1..]);
      assert forall i :: 0 <= i < |parts| - 1 ==> parts[1..][i] == parts[i + 1];
      JoinKeeps(sep, parts[1..], p);
      var s := head + [sep] + rest;
      forall k | 0 <= k < |s| ensures p(s[k]) {
        if k > |head| {
          assert s[k] == rest[k - |head| - 1];
        }
      }
    }
  }

  /** Adding one more part adds the separator and that part at the end. */
  lemma {:induction false} JoinSnoc(sep: char, parts: seq<string>, last: string)
    requires |parts| >= 1
    ensures Join(sep, parts + [last]) == Join(sep, parts) + [sep] + last
    decreases |parts|
  {
    if |parts| > 1 {
      assert (parts + [last])[1..] == parts[1..] + [last];
      JoinSnoc(sep, parts[1..], last);
    }
  }

  /** Index of the first `c` in `s`, or `|s|` when there is none. */
  function IndexOf(s: string, c: char): (r: nat)
    ensures r <= |s|
    ensures r < |s| ==> s[r] == c
    ensures c !in s[..r]
  {
    if s == [] then 0
    else if s[0] == c then 0
    else 1 + IndexOf(s[1..], c)
  }

  /** `s.find(c)`: the first index of `c`, or -1. */
  function Find(s: string, c: char): (r: int)
    ensures -1 <= r < |s|
    ensures r == -1 <==> c !in s
    ensures r >= 0 ==> s[r] == c && c !in s[..r]
  {
    var i := IndexOf(s, c);
    assert i == |s| ==> s[..i] == s;
    if i == |s| then -1 else i
  }

  /** `s.rfind(c)`: the last index of `c`, or -1. */
  function RFind(s: string, c: char): (r: int)
    ensures -1 <= r < |s|
    ensures r == -1 <==> c !in s
    ensures r >= 0 ==> s[r] == c && c !in s[r + 1..]
  {
    if s == [] then -1
    else if s[|s| - 1] == c then |s| - 1
    else
      var r := RFind(s[..|s| - 1], c);
      assert s == s[..|s| - 1] + [s[|s| - 1]];
      assert r >= 0 ==> s[r + 1..] == s[..|s| - 1][r + 1..] + [s[|s| - 1]];
      r
  }

  /** The last occurrence is the one with no occurrence after it. */
  lemma RFindUnique(s: string, c: char, k: nat)
    requires k < |s| && s[k] == c
    requires forall i :: k < i < |s| ==> s[i] != c
    ensures RFind(s, c) == k
  {
    var t := s[k + 1..];
    assert forall j :: 0 <= j < |t| ==> t[j] == s[k + 1 + j];
  }

  /** No occurrence lies after the one `rfind` reports. */
  lemma RFindLast(s: string, c: char)
    ensures forall i :: RFind(s, c) < i < |s| ==> s[i] != c
  {
    var r := RFind(s, c);
    forall i | r < i < |s|
      ensures s[i] != c
    {
      if r >= 0 {
        assert s[i] == s[r + 1..][i - r - 1];
      }
    }
  }

  /** Where a Python slice bound lands in a sequence of length n: a negative
      bound counts from the end, and both kinds are clamped to 0..n. */
  function SliceBound(i: int, n: nat): (r: nat)
    ensures r <= n
    ensures 0 <= i <= n ==> r == i
    ensures i < 0 && i + n >= 0 ==> r == n + i
  {
    if i < 0 then (if i + n < 0 then 0 else i + n)
    else if i > n then n
    else i
  }

  /** `s[start:stop]`: empty whenever the resolved bounds cross. */
  function PySlice<T>(s: seq<T>, start: int, stop: int): (r: seq<T>)
    ensures |r| <= |s|
  {
    var a := SliceBound(start, |s|);
    var b := SliceBound(stop, |s|);
    if a < b then s[a..b] else []
  }

  /** `s.split(sep)` with a one-character separator: always at least one part,
      none containing the separator. */
  function Split(s: string, sep: char): (r: seq<string>)
    ensures |r| >= 1
    ensures forall i :: 0 <= i < |r| ==> sep !in r[i]
    decreases |s|
  {
    var i := IndexOf(s, sep);
    if i == |s| then (assert s[..i] == s; [s])
    else [s[..i]] + Split(s[i + 1..], sep)
  }

  /** Joining the parts of a split with the same separator gives the string back. */
  lemma {:induction false} JoinSplit(s: string, sep: char)
    ensures Join(sep, Split(s, sep)) == s
    decreases |s|
  {
    var i := IndexOf(s, sep);
    if i < |s| {
      var tail := s[i + 1..];
      var rest := Split(tail, sep);
      assert Split(s, sep) == [s[..i]] + rest;
      JoinCons(sep, s[..i], rest);
      JoinSplit(tail, sep);
      assert s == s[..i] + [sep] + tail;
    } else {
      assert s[..i] == s;
    }
  }

  lemma IndexOfAfter(a: string, c: char, b: string)
    requires c !in a
    ensures IndexOf(a + [c] + b, c) == |a|
  {
    var s := a + [c] + b;
    assert s[|a|] == c;
    assert forall k :: 0 <= k < |a| ==> s[k] == a[k];
  }

  /** Splitting a join gives the parts back when no part contains the separator. */
  lemma {:induction false} SplitJoin(parts: seq<string>, sep: char)
    requires |parts| >= 1
    requires forall i :: 0 <= i < |parts| ==> sep !in parts[i]
    ensures Split(Join(sep, parts), sep) == parts
    decreases |parts|
  {
    if |parts| == 1 {
      var p := parts[0];
      assert p[..|p|] == p;
    } else {
      var p := parts[0];
      var rest := Join(sep, parts[1..]);
      var s := p + [sep] + rest;
      assert Join(sep, parts) == s;
      IndexOfAfter(p, sep, rest);
      assert s[..|p|] == p;
      assert s[|p| + 1..] == rest;
      SplitJoin(parts[1..], sep);
      assert parts == [p] + parts[1..];
    }
  }

  /** A split yields one more part than there are separators. */
  lemma {:induction false} SplitCount(s: string, sep: char)
    ensures |Split(s, sep)| == multiset(s)[sep] + 1
    decreases |s|
  {
    var i := IndexOf(s, sep);
    if i == |s| {
      assert s[..i] == s;
    } else {
      assert s == s[..i] + [s[i]] + s[i + 1..];
      assert multiset(s) == multiset(s[..i]) + multiset([s[i]]) + multiset(s[i + 1..]);
      SplitCount(s[i + 1..], sep);
    }
  }

  function DigitChar(d: nat): (c: char)
    requires d < 10
    ensures IsDigit(c)
  {
    ('0' as int + d) as char
  }

  function DigitValue(c: char): (d: nat)
    requires IsDigit(c)
    ensures d < 10
  {
    c as int - '0' as int
  }

  /** `str(n)` for a natural number: decimal digits, no leading zero. */
  function Decimal(n: nat): (r: string)
    ensures |r| >= 1 && AllDigits(r)
    ensures r[0] == '0' ==> n == 0
  {
    if n < 10 then [DigitChar(n)] else Decimal(n / 10) + [DigitChar(n % 10)]
  }

  /** `int(s)` for a string of decimal digits. */
  function DecimalValue(s: string): nat
    requires AllDigits(s)
  {
    if s == [] then 0 else DecimalValue(s[..|s| - 1]) * 10 + DigitValue(s[|s| - 1])
  }

  /** `int(str(n)) == n`. */
  lemma {:induction false} DecimalRoundTrip(n: nat)
    ensures DecimalValue(Decimal(n)) == n
  {
    if n >= 10 {
      var s := Decimal(n);
      assert s[..|s| - 1] == Decimal(n / 10);
      DecimalRoundTrip(n / 10);
    }
  }

  /** Numbers from 1000 to 9999 print with exactly four digits. */
  lemma FourDigits(n: nat)
    requires 1000 <= n <= 9999
    ensures |Decimal(n)| == 4
  {
    assert |Decimal(n / 1000)| == 1;
    assert |Decimal(n / 100)| == 2;
    assert |Decimal(n / 10)| == 3;
  }
}

=== FILE: word_count.dfy ===
/** `count_words_and_characters` of wordcount_1102.py over the paragraphs of
    a document: the paragraph texts are joined with single spaces, words are
    the runs that `str.split()` returns, characters are the joined length.
    Opening and parsing the document is an oracle that yields the paragraph
    texts or one of the three failures the script distinguishes. */
module WordCount {
  import opened Wrappers
  import opened Text

  predicate NotSpace(c: char) { !IsSpace(c) }

  predicate NoSpace(s: string) {
    forall i :: 0 <= i < |s| ==> !IsSpace(s[i])
  }

  /** Length of the leading run of non-whitespace characters. */
  function WordEnd(s: string): (n: nat)
    ensures n <= |s|
    ensures forall k :: 0 <= k < n ==> !IsSpace(s[k])
    ensures n < |s| ==> IsSpace(s[n])
  {
    if s == [] || IsSpace(s[0]) then 0 else 1 + WordEnd(s[1..])
  }

  /** `s.split()`: the maximal runs of non-whitespace characters, in order. */
  function Words(s: string): (r: seq<string>)
    ensures forall i :: 0 <= i < |r| ==> r[i] != [] && NoSpace(r[i])
    decreases |s|
  {
    var a := LeadingSpaces(s);
    if a == |s| then []
    else
      var t := s[a..];
      var e := WordEnd(t);
      [t[..e]] + Words(t[e..])
  }

  function Concat(ws: seq<string>): string {
    if ws == [] then [] else ws[0] + Concat(ws[1..])
  }

  // ---------------------------------------------------------------------
  // Words of a string

  /** Leading whitespace does not change the words. */
  lemma SkipSpaces(x: string, b: string)
    requires AllSpace(x)
    ensures Words(x + b) == Words(b)
  {
    var s := x + b;
    LeadingSpacesAfter(x, b);
    assert s[|x|..] == b;
    WordsSuffix(s, |x|);
  }

  /** Dropping some of the leading whitespace does not change the words. */
  lemma WordsSuffix(s: string, k: nat)
    requires k <= LeadingSpaces(s)
    ensures Words(s[k..]) == Words(s)
  {
    var n := LeadingSpaces(s);
    LeadingSpacesSuffix(s, k);
    if n < |s| {
      var t := s[n..];
      assert s[k..][n - k..] == t;
      var e := WordEnd(t);
      assert Words(s[k..]) == [t[..e]] + Words(t[e..]);
    }
  }

  lemma {:induction false} LeadingSpacesSuffix(s: string, k: nat)
    requires k <= LeadingSpaces(s)
    ensures LeadingSpaces(s[k..]) == LeadingSpaces(s) - k
    decreases k
  {
    if k == 0 {
      assert s[k..] == s;
    } else {
      assert s[k..] == s[1..][k - 1..];
      LeadingSpacesSuffix(s[1..], k - 1);
    }
  }

  /** A word ends at the first whitespace after it, or at the end. */
  lemma {:induction false} WordEndBefore(w: string, b: string)
    requires NoSpace(w)
    requires b == [] || IsSpace(b[0])
    ensures WordEnd(w + b) == |w|
    decreases |w|
  {
    if w != [] {
      assert (w + b)[1..] == w[1..] + b;
      assert !IsSpace((w + b)[0]);
      WordEndBefore(w[1..], b);
    } else {
      assert w + b == b;
    }
  }

  /** Whitespace, then a word, then nothing or whitespace: the word is the
      first of the words. */
  lemma WordsDecompose(x: string, w: string, r: string)
    requires AllSpace(x) && w != [] && NoSpace(w)
    requires r == [] || IsSpace(r[0])
    ensures Words(x + w + r) == [w] + Words(r)
  {
    var s := x + w + r;
    assert s == x + (w + r);
    LeadingSpacesAfter(x, w + r);
    assert LeadingSpaces(w + r) == 0 by {
      assert (w + r)[0] == w[0];
    }
    var t := s[|x|..];
    assert t == w + r;
    WordEndBefore(w, r);
    assert t[..|w|] == w;
    assert t[|w|..] == r;
  }

  /** The words of `a + " " + b` are the words of `a` followed by those of `b`. */
  lemma {:induction false} WordsAcrossSpace(a: string, b: string)
    ensures Words(a + " " + b) == Words(a) + Words(b)
    decreases |a|
  {
    var m := LeadingSpaces(a);
    if m == |a| {
      assert AllSpace(a + " ");
      SkipSpaces(a + " ", b);
      assert a + " " + b == (a + " ") + b;
      assert Words(a) == [];
    } else {
      var t := a[m..];
      var e := WordEnd(t);
      var x, w, rest := a[..m], t[..e], t[e..];
      var tail := rest + " " + b;
      ThreeParts(a, m, e);
      WordsDecompose(x, w, rest);
      WordsDecompose(x, w, tail);
      Regroup(x, w, rest, b);
      WordsAcrossSpace(rest, b);
      Assoc([w], Words(rest), Words(b));
    }
  }

  lemma ThreeParts(a: string, m: nat, e: nat)
    requires m <= |a| && e <= |a| - m
    ensures a == a[..m] + a[m..][..e] + a[m..][e..]
  {
  }

  lemma Regroup(x: string, w: string, rest: string, b: string)
    ensures x + w + rest + " " + b == x + w + (rest + " " + b)
  {
  }

  /** `len(text.split())`. */
  function WordTotal(s: string): nat {
    |Words(s)|
  }

  /** Word counts add up across a single-space join. */
  lemma WordCountAdds(a: string, b: string)
    ensures WordTotal(a + " " + b) == WordTotal(a) + WordTotal(b)
  {
    WordsAcrossSpace(a, b);
  }

  // ---------------------------------------------------------------------
  // Over the paragraphs of a document

  /** `' '.join(paragraphs)`. */
  function JoinedText(paragraphs: seq<string>): string {
    Join(' ', paragraphs)
  }

  function SumWords(paragraphs: seq<string>): nat {
    if paragraphs == [] then 0 else WordTotal(paragraphs[0]) + SumWords(paragraphs[1..])
  }

  function SumLengths(paragraphs: seq<string>): nat {
    if paragraphs == [] then 0 else |paragraphs[0]| + SumLengths(paragraphs[1..])
  }

  /** The words of the joined text are the words of each paragraph in turn,
      so the word count is the sum of the per-paragraph counts. */
  lemma {:induction false} TextWordCount(paragraphs: seq<string>)
    ensures WordTotal(JoinedText(paragraphs)) == SumWords(paragraphs)
    decreases |paragraphs|
  {
    if |paragraphs| == 1 {
      assert paragraphs[1..] == [];
    } else if |paragraphs| > 1 {
      var rest := paragraphs[1..];
      JoinCons(' ', paragraphs[0], rest);
      assert [paragraphs[0]] + rest == paragraphs;
      WordCountAdds(paragraphs[0], JoinedText(rest));
      TextWordCount(rest);
    }
  }

  /** The character count is the paragraph lengths plus one separator between
      each neighbouring pair, and zero for a document without paragraphs. */
  lemma {:induction false} TextLength(paragraphs: seq<string>)
    ensures paragraphs == [] ==> |JoinedText(paragraphs)| == 0
    ensures paragraphs != [] ==> |JoinedText(paragraphs)| == SumLengths(paragraphs) + |paragraphs| - 1
    decreases |paragraphs|
  {
    if |paragraphs| == 1 {
      assert paragraphs[1..] == [];
    } else if |paragraphs| > 1 {
      var rest := paragraphs[1..];
      JoinCons(' ', paragraphs[0], rest);
      assert [paragraphs[0]] + rest == paragraphs;
      TextLength(rest);
    }
  }

  /** The words are the non-whitespace characters of the text, cut into runs. */
  lemma {:induction false} WordsKeepCharacters(s: string)
    ensures Concat(Words(s)) == Filter(s, NotSpace)
    decreases |s|
  {
    var a := LeadingSpaces(s);
    FilterSplit(s, a, NotSpace);
    SpacesDropped(s[..a]);
    var t := s[a..];
    if a < |s| {
      var e := WordEnd(t);
      var w, more := t[..e], t[e..];
      WordsKeepCharacters(more);
      FilterSplit(t, e, NotSpace);
      WordKept(w);
      assert Words(s) == [w] + Words(more);
      ConcatCons(w, Words(more));
    } else {
      assert t == [];
    }
  }

  lemma ConcatCons(w: string, ws: seq<string>)
    ensures Concat([w] + ws) == w + Concat(ws)
  {
    assert ([w] + ws)[1..] == ws;
  }

  lemma {:induction false} SpacesDropped(s: string)
    requires AllSpace(s)
    ensures Filter(s, NotSpace) == []
  {
    assert forall i :: 0 <= i < |s| ==> !NotSpace(s[i]);
    FilterNone(s, NotSpace);
  }

  lemma WordKept(w: string)
    requires NoSpace(w)
    ensures Filter(w, NotSpace) == w
  {
    assert forall i :: 0 <= i < |w| ==> NotSpace(w[i]);
    FilterAll(w, NotSpace);
  }

  // ---------------------------------------------------------------------
  // The script

  /** Why a document could not be read: missing, not a .docx package, or
      any other exception (with its message). */
  datatype LoadError = NotFound | NotDocx | Other(message: string)

  /** What `count_words_and_characters` returns, and the line it printed. */
  datatype Counts = Counts(words: Option<nat>, characters: Option<nat>, log: seq<string>)

  /** The line printed for each way the document can fail to load. */
  function FailureLine(path: string, err: LoadError): (r: string)
    ensures err.NotFound? ==> r == "Error: The file '" + path + "' was not found."
    ensures err.NotDocx? ==> r == "Error: The file '" + path + "' is not a valid .docx file."
    ensures err.Other? ==> r == "Error processing file: " + err.message
  {
    match err
    case NotFound => "Error: The file '" + path + "' was not found."
    case NotDocx => "Error: The file '" + path + "' is not a valid .docx file."
    case Other(message) => "Error processing file: " + message
  }

  /** The two file messages name the path and tell the two errors apart: a
      message read back gives both the path and the kind of failure. */
  lemma FailureLineReadBack(p1: string, e1: LoadError, p2: string, e2: LoadError)
    requires !e1.Other? && !e2.Other?
    requires FailureLine(p1, e1) == FailureLine(p2, e2)
    ensures p1 == p2 && e1 == e2
  {
    var r := FailureLine(p1, e1);
    // "found." and "file." differ in their next-to-last character
    assert r[|r| - 2] == (if e1.NotFound? then 'd' else 'e');
    assert r[|r| - 2] == (if e2.NotFound? then 'd' else 'e');
    var head := "Error: The file '";
    assert r[|head|..|head| + |p1|] == p1;
    assert r[|head|..|head| + |p2|] == p2;
  }

  /** `count_words_and_characters(file_path)` with the paragraphs given by
      `load`. Both counts are present or both are absent. */
  function CountWordsAndCharacters(path: string, load: Result<seq<string>, LoadError>): (r: Counts)
    ensures r.words.None? <==> load.Failure?
    ensures r.characters.None? <==> load.Failure?
    ensures load.Failure? ==> r.log == [FailureLine(path, load.error)]
    ensures load.Success? ==>
      && r.log == []
      && r.words == Some(SumWords(load.value))
      && r.characters == Some(if load.value == [] then 0 else SumLengths(load.value) + |load.value| - 1)
  {
    match load
    case Failure(err) => Counts(None, None, [FailureLine(path, err)])
    case Success(paragraphs) =>
      var text := JoinedText(paragraphs);
      TextWordCount(paragraphs);
      TextLength(paragraphs);
      Counts(Some(WordTotal(text)), Some(|text|), [])
  }

  const Usage := "Usage: python script.py <file.docx>"

  /** The exit status and the printed lines of the script. */
  datatype Exit = Exit(status: int, output: seq<string>)

  /** The `__main__` block: `argv` includes the script name; `load` opens a
      document by path. */
  function Script(argv: seq<string>, load: string -> Result<seq<string>, LoadError>): (r: Exit)
    // anything but exactly one argument is a usage error with status 1
    ensures r.status == 1 <==> |argv| != 2
    ensures |argv| != 2 ==> r.output == [Usage]
    ensures |argv| == 2 ==> r.status == 0 && (|r.output| == 2 <==> load(argv[1]).Success?)
    ensures |argv| == 2 && load(argv[1]).Success? ==>
      r.output == ["Word Count: " + Decimal(SumWords(load(argv[1]).value)),
                   "Character Count: " + Decimal(|JoinedText(load(argv[1]).value)|)]
    // a document that fails to load prints its error line and nothing else
    ensures |argv| == 2 && load(argv[1]).Failure? ==>
      r.output == [FailureLine(argv[1], load(argv[1]).error)]
  {
    if |argv| != 2 then Exit(1, [Usage])
    else
      var counts := CountWordsAndCharacters(argv[1], load(argv[1]));
      if counts.words.Some? && counts.characters.Some? then
        Exit(0, counts.log + ["Word Count: " + Decimal(counts.words.value),
                              "Character Count: " + Decimal(counts.characters.value)])
      else Exit(0, counts.log)
  }
}

=== FILE: wrappers.dfy ===
/** Failure-carrying datatypes shared by every module of the model. */
module Wrappers {

  /** Python's `None` or a present value. */
  datatype Option<+T> = None | Some(value: T)

  /** A value, or the error a Python function raises or returns instead of it. */
  datatype Result<+T, +E> = Success(value: T) | Failure(error: E)
}
